=== FILE: README.md ===
# Alirator: a Dafny model of the site client and the manifest builder

Alirator is a bilingual (Arabic/English) static site. It has two halves.

- **Browser client (`app.js`).** Reads a hash fragment and shows one of three kinds of page:
  - a static page (`#about`);
  - a collection listing (`#blogs`);
  - a collection entry (`#blogs/my-post`).

  Content comes from `pages/<slug>.<lang>.md` files, each with a small front-matter header. Collections are indexed by a precomputed `_manifest.json`.
- **Offline builder (`build.rb`).** Scans the collection directories and writes those manifests.

This project models the decision logic of both halves as pure Dafny functions over strings, sequences and maps, and proves what the code promises about them.

**Client (`app.js`)**
- `Router`: `route`. Fragment to page name (`home` when empty), base and child segment, and the three-way classification.
- `FrontMatter`: `parseFrontMatter`. The `^---\n([\s\S]*?)\n---\n?([\s\S]*)$` match, line splitting, first-colon key/value split, `trim`, quote stripping, bracketed lists, and "last key wins".
- `Availability`: `detectAvailableFiles` (page table) and `hasPage`.
- `Manifest`:
  - the client's view of a manifest;
  - `getEntryMeta`'s preference chain;
  - `entryHasBothLangs`;
  - the manifest fetch with its `{entries: []}` fallback.
- `PageCache`: `fetchMd` and its memo table, including cached failures.
- `Renderers`:
  - the session (current language, `localStorage`, cache);
  - `setLang` and the start-up language choice;
  - the language fallback of `renderStaticPage` and `renderEntry`;
  - what each renderer shows;
  - the listing items;
  - the language-toggle visibility;
  - the navigation items of `renderNav`;
  - the whole `route` step as `Navigate`.

**Builder (`build.rb`)**
- `SlugLang`: `extract_slug_and_lang`, including `File.basename(_, '.md')` and `rpartition`.
- `RbFrontMatter`: `parse_front_matter`'s guards, and Ruby's `split(/^---\s*$/, 3)` written out exactly. The YAML library is a parameter.
- `Yaml`: the values the YAML library returns, Ruby truthiness, and `to_s` (including `Date#to_s`).
- `LexOrder`: Ruby's string order, which `sort_by` uses, and zero-padded decimal rendering.
- `ManifestBuilder`:
  - the acceptance filter (`title` and `date`);
  - record normalisation;
  - the merge into the insertion-ordered `entries` hash.
- `ManifestSort`: `sort_by { date }.reverse` as a descending insertion sort.
- `Generate`: `generate_manifest` over a list of files in glob order, and `main` over the two collection directories. A YAML error other than a syntax error escapes `parse_front_matter`, so that directory gets no manifest and the run stops.

**Cross-cutting modules**
- `BuildToClient` connects the two halves. A generated manifest, read by the client, lists every entry and shows the language toggle for an entry written in both languages.
- `FrontMatterRoundTrip` proves that a document written in the client parser's subset parses back to its fields and body.

Effects are parameters:
- the network is `fetch: string -> Option<...>`, where a failed or non-OK response is `None`;
- `localStorage` is a `Storage` value whose reads and writes may each fail;
- the YAML library is `string -> YamlDoc`;
- `Dir.glob` plus `File.read` become an input sequence of `(path, content)` pairs;
- the directory scan of `main` is `string -> Option<seq<Source>>`, with `None` for a missing directory.

Behaviours of the code worth stating:
- **Closing delimiter.** The client's closing delimiter is any `\n---` after the opening `---\n`. It does not need to be a line of exactly three dashes: `\n----x` closes the header too (`FrontMatter.Delimit`).
- **Unknown static slug.** An unknown static slug shows "Page not found" and also flips the session language to the other language and persists it, because `renderStaticPage` falls back whenever the current language lacks the page (`Renderers.UnknownSlugNotFound`, `Renderers.UnknownSlugFlips`).
- **Unsupported stored language.** The fallback language of anything other than `ar` is `ar`. A stored unsupported language such as `fr` therefore falls back to `ar` even when the page or entry exists only in `en`, so the fallback can land on a language without the page; the fallback lemmas are stated for a current language of `ar` or `en`.
- **Sort date.** The sort date of a merged entry is the date of the language first inserted for that slug, in glob order, whichever language that is (`Generate.GenerateEntries`). The `'0000-00-00'` default is never used, because every merged entry has at least one language.

## Model

| member | source | states |
|---|---|---|
| SiteConfig.OtherLang | app.js:249 | the fallback language is `ar` or `en` and always differs from the current one, so any non-`ar` value (a stored `fr`, say) flips to `ar` |
| SiteConfig.OtherLangTwice | app.js:366 | flipping twice returns a supported language to itself, and sends any unsupported one to `en` |
| SiteConfig.FindCollection | app.js:278 | `CONFIG.collections.find`: `None` exactly when no collection has the slug, otherwise the first one that has it |
| SiteConfig.IsCollectionIff | app.js:229 | `isCollection` holds exactly when some configured collection has that slug |
| Availability.Detect | app.js:89-95 | every slug in the availability table comes from some `CONFIG.pages` row and carries that row's two label flags; `DetectKeys` and `DetectLastRowWins` state which slugs and which row |
| Availability.DetectKeys | app.js:90-95 | the availability table has an entry for exactly the slugs listed in `CONFIG.pages` |
| Availability.DetectLastRowWins | app.js:90-95 | for a slug listed twice, the table holds the languages of the last row, because the loop overwrites |
| Availability.HasPage | app.js:112-114 | `hasPage` is true only for a slug in the table and only for `ar` or `en`; `HasPageIff` gives the exact condition on the configuration |
| Availability.HasPageIff | app.js:112-114 | `hasPage(slug, lang)` holds exactly when the last `CONFIG.pages` row for that slug has a non-null label for `lang` |
| Availability.NoPageInOtherLanguages | app.js:112-114 | no page is available in a language other than `ar` or `en` |
| Manifest.FindEntry | app.js:187 | `entries.find`: `None` exactly when no entry has the slug, otherwise the first entry with it |
| Manifest.GetEntryMeta | app.js:516-518 | the record for the requested language, else `ar`, else `en`; `None` exactly when none of the three is present, and never a later choice when an earlier one exists |
| Manifest.GetEntryMetaOwnLanguage | app.js:517 | an entry that has the requested language yields that language's record |
| Manifest.GetEntryMetaPresent | app.js:517 | an entry with an `ar` or an `en` record yields metadata in every language |
| Manifest.EntryHasBothLangs | app.js:184-190 | true exactly when the collection's manifest is loaded and the first entry with that slug has both `ar` and `en`; false when the manifest or the entry is missing |
| Manifest.LoadManifest | app.js:101-106 | a failed manifest fetch leaves an empty entry list; a successful one keeps the fetched manifest |
| Manifest.DetectManifests | app.js:97-109 | after detection, every configured collection (and nothing else) has a manifest, and each is the loaded result of fetching `pages/<slug>/_manifest.json` |
| Router.StripHash | app.js:222 | `replace('#', '')` removes the first `#` and nothing else when there is one, and changes nothing otherwise |
| Router.StripHashLeading | app.js:222 | stripping the hash from `#` + page gives the page back |
| Router.CurrentPage | app.js:222 | the page name is never empty; it is the fragment without its `#` unless that is empty, and then it is `home` |
| Router.CurrentPageHome | app.js:222 | the empty fragment and a bare `#` both route to `home` |
| Router.Segments | app.js:225 | the `/`-separated segments of the page: at least one, none containing `/`, and joined by `/` they give back the page |
| Router.Base | app.js:226 | the base is a slash-free prefix of the page: the whole page or the part before the first `/` |
| Router.Child | app.js:227 | a present child is a non-empty, slash-free segment that is the whole rest of the page after the base and `/`, or is followed by another `/`; there is no child exactly when the page is the base, the base and `/`, or starts with the base and `//` |
| Router.Classify | app.js:229-237 | exactly one route: an entry exactly when the base is a collection and a child is present, a listing exactly when it is a collection without a child, and otherwise a static page; each carries the base (and child) |
| Router.RouteOf | app.js:222-237 | an empty fragment routes as `home`; a static route names a slash-free base that is not a collection; a listing or entry route names a configured collection, and an entry route a non-empty, slash-free entry slug |
| Router.RouteEntryLink | app.js:231-232 | `#c/e`, for a configured collection `c` and a non-empty slug `e`, routes to entry `e` of `c` |
| Router.RouteEntryTail | app.js:225-232 | segments after the second are ignored: `#c/e/anything` routes to the same entry |
| Router.RouteListingLink | app.js:233-234 | `#c` and `#c/` route to the listing of a configured collection `c` |
| Router.RouteStaticLink | app.js:235-236 | a base that is not a collection routes to the static page of that base, with or without a child |
| Router.RouteEmptyIsHome | app.js:222 | an empty fragment is routed as `home`, which is a static page unless `home` is a collection |
| PageCache.Url | app.js:57 | the fetched URL is `pages/` + cache key + `.md` |
| PageCache.FetchMd | app.js:53-66 | a cached key is answered from the cache, unchanged; otherwise the oracle's answer, success or `null`, is returned and stored under `path.lang`; every other key is untouched |
| PageCache.FetchMdConsistent | app.js:53-66 | when the cache agrees with the oracle, `fetchMd` returns what the network would, and the cache still agrees afterwards |
| PageCache.FetchMdIdempotent | app.js:55 | asking again for the same page returns the same text and leaves the cache as it was |
| PageCache.CachedFailureSticks | app.js:62-64 | a cached failure is never retried: the page stays missing for the session |
| Text.IndexOf | app.js:73 | `indexOf` for one character: `None` exactly when the character is absent, else its first position |
| Text.LastIndexOf | build.rb:70 | the last position of the character, the separator `rpartition` splits at |
| Text.Split | app.js:72 | `split` on one character gives at least one piece, no piece contains the separator, and joining the pieces with it gives the string back |
| Text.SplitJoin | app.js:82 | splitting the join of separator-free pieces gives back exactly those pieces |
| Text.Trim | app.js:75-76 | `trim` returns the middle of the string: everything before and after is ECMAScript whitespace, and the result has none at either end |
| Text.TrimPadded | app.js:75-76 | whitespace around a trimmed string is exactly what `trim` removes |
| Text.TrimTrimmed | app.js:82 | `trim` leaves a string without outer whitespace unchanged |
| FrontMatter.FindClosing | app.js:69 | the first position at or after `from` where `\n---` occurs, or `None` when none does |
| FrontMatter.Delimit | app.js:69-70 | a match exactly when the text starts with `---\n` and contains `\n---` at index 4 or later; then text = `---\n` + header + `\n---` + (optional `\n`) + body, with no earlier `\n---` inside the header (lazy match), and the optional newline is taken whenever the body would start with one |
| FrontMatter.DropNewline | app.js:69 | the body after the closing dashes loses exactly one leading newline, if it has one |
| FrontMatter.Inner | app.js:79 | `slice(1, -1)`: the string without its first and last character, empty when it has fewer than two |
| FrontMatter.TrimAll | app.js:82 | every list item is trimmed, and the number of items is kept |
| FrontMatter.ParseValue | app.js:76-83 | a value with neither quotes nor brackets is kept as it is; a string result is never bracketed, since brackets always make a list; a list has at least one item, each trimmed and free of commas |
| FrontMatter.ParseLine | app.js:73-84 | a header line contributes a key exactly when it contains a colon |
| FrontMatter.ParseLineAtFirstColon | app.js:73-76 | the key is the trimmed text before the first colon; the value is parsed from the trimmed rest, which may contain more colons |
| FrontMatter.ParseValueQuoted | app.js:77-80 | a value in matching double or single quotes loses exactly that one outer pair |
| FrontMatter.ParseValueList | app.js:77-83 | `[...]`, bare or inside quotes, becomes the list of trimmed comma-separated pieces |
| FrontMatter.ParseValueEmptyList | app.js:81-82 | `[]` parses to a one-element list holding the empty string |
| FrontMatter.ParseValueLoneQuote | app.js:77-79 | a lone `"` both starts and ends with a quote, so it parses to the empty string |
| FrontMatter.Assign | app.js:84 | every key of the object was bound by some pair, to that pair's value; `AssignLastWins` adds that every bound key is present and that the last pair wins |
| FrontMatter.AssignLastWins | app.js:84 | successive assignments bind a key exactly when some pair binds it, and the value is that of the last pair that does |
| FrontMatter.BuildMetaLastWins | app.js:72-85 | a key is in the header's metadata exactly when some line defines it, and it carries the value of the last such line |
| FrontMatter.BuildMeta | app.js:71-85 | every key of the metadata, with its value, is what some header line parses to; `BuildMetaLastWins` adds that every defined key is present and that the last line wins |
| FrontMatter.ParseFrontMatter | app.js:68-87 | without a front-matter match the result is empty metadata and the whole text as body; with one, the body is the text after the closing delimiter |
| FrontMatter.ParseFrontMatterKeys | app.js:71-86 | with a match, a key is present exactly when one of the header's lines defines it, and its value is the one the last such line parses to |
| FrontMatterRoundTrip.ParseValueRender | app.js:77-83 | every quoted string and non-empty list of clean items parses back to itself |
| FrontMatterRoundTrip.ParseLineRender | app.js:73-84 | a rendered `key: value` line parses back to its key and value |
| FrontMatterRoundTrip.DelimitSerialized | app.js:69 | a serialised document's header is exactly its rendered lines, and its body is recovered unchanged |
| FrontMatterRoundTrip.RoundTrip | app.js:68-87 | parsing a serialised document gives back its body and exactly its keys, each bound to its written value |
| Renderers.LoadSite | app.js:89-110 | after start-up, only configured pages are available, and every configured collection has a manifest |
| Renderers.InitialLang | app.js:625 | the stored language when storage can be read and holds a non-empty value; otherwise `CONFIG.defaultLang`; and `ar` (the initial value) when storage throws |
| Renderers.Persist | app.js:118 | a writable storage records the language; one whose `setItem` throws is left as it was |
| Renderers.PersistThenInitial | app.js:116-120 | with storage that can be written and read, a non-empty language saved by `setLang` is the one the next start-up chooses |
| Renderers.SetLang | app.js:116-120 | `setLang` sets and persists the language and keeps the page cache |
| Renderers.Fallback | app.js:247-252 | when the current language is kept the session is unchanged; otherwise it flips to the other language and persists that, keeping the cache |
| Renderers.RenderStaticPage | app.js:244-273 | the language is kept when the page is available in it and flipped and persisted otherwise; the page is then fetched in the resulting language, and an empty or failed fetch shows "Page not found" in that language, else the markdown |
| Renderers.StaticFallbackFindsPage | app.js:247-252 | when the current language is `ar` or `en`, for a page available in some language, the language after rendering is one it is available in |
| Renderers.UnknownSlugFlips | app.js:247-252 | an unknown slug flips the language to the other one; when the current language is `ar` or `en`, visiting it twice flips it back |
| Renderers.UnknownSlugNotFound | app.js:244-256 | `#unknown-slug`, with no file in either language, shows "Page not found" in the flipped language |
| Renderers.ListItems | app.js:297-299 | listing items are exactly the entries with metadata for the language, each linking to `#<collection>/<slug>` with `getEntryMeta`'s record |
| Renderers.ListItemsInOrder | app.js:297-299 | cards keep manifest order: of any two cards, the earlier one is the card of an earlier entry |
| Renderers.ListingShowsEntry | app.js:297-299 | every entry that has an `ar` or an `en` record is listed, whatever the current language |
| Renderers.RenderListing | app.js:275-347 | "Not found" exactly when the manifest or the collection configuration is missing; otherwise the listing in the current language, titled with that language's label, as cards exactly for `blog` collections, with those items |
| Renderers.EntryTitle | app.js:408 | the title shown for an entry is its non-empty `title` string, a list title joined by `,`, or the entry slug when the title is missing or the empty string |
| Renderers.EntryKeepsLang | app.js:363-365 | the entry renderer flips the language exactly when the first manifest entry with that slug lacks the current language |
| Renderers.MissingEntryKeepsLang | app.js:365 | an entry that is not in the manifest never flips the language |
| Renderers.EntryFallbackFindsLanguage | app.js:363-369 | when the current language is `ar` or `en`, for an existing entry with an `ar` or `en` record, the language after the fallback is one the entry has |
| Renderers.RenderEntry | app.js:349-412 | "Not found" exactly when the manifest or the collection configuration is missing, leaving the session alone; otherwise the fallback, then a fetch of `collection/entry` in the resulting language, showing "Post not found" exactly when it is empty or failed, and otherwise the parsed front matter and body |
| Renderers.ToggleFor | app.js:192-215 | on an entry route the toggle is visible exactly when the entry has both languages; on a listing always; on a static page exactly when the page is available in both; the active button matches the current language |
| Renderers.ToggleStaticIff | app.js:207 | on a static page the toggle is visible exactly when the page's last configuration row has both labels |
| Renderers.PageItems | app.js:164-171 | navigation lists only pages available in the current language, every such page appears with that language's label, and an item is active exactly when it is the current base |
| Renderers.PageItemsInOrder | app.js:164-171 | page links keep configuration order: of any two links, the earlier one is the link of an earlier page |
| Renderers.CollectionItems | app.js:173-181 | navigation lists exactly the collections whose manifest is non-empty, labelled in the current language, with the current base active |
| Renderers.CollectionItemsInOrder | app.js:173-181 | collection links keep configuration order: of any two links, the earlier one is the link of an earlier collection |
| Renderers.NavItems | app.js:158-182 | every link is a page available in the language or a collection with a non-empty manifest; every such configured page and collection is linked with its label; a link is active exactly when its slug is the current base |
| Renderers.NavWithoutPagesInOtherLanguages | app.js:164-165 | in a language other than `ar` or `en`, the navigation shows no pages, only collections |
| Renderers.Navigate | app.js:221-238 | a hash change runs the renderer that the route's classification selects; the toggle and navigation are then drawn for the language the renderer leaves behind |
| Renderers.NavigateKeepsCacheConsistent | app.js:221-238 | navigating keeps the page cache consistent with the network |
| Renderers.EntryWithBothLangsShowsToggle | app.js:202-203 | an entry with both languages shows the language toggle, in whichever language it is viewed |
| Renderers.SingleLanguagePageFallsBack | app.js:247-252 | a page configured only in one language, visited in the other, switches the session to its language and, when storage is writable, saves that choice |
| LexOrder.LessIrreflexive | build.rb:59-62 | no string sorts strictly before itself |
| LexOrder.LessTransitive | build.rb:59-62 | the string order used for sorting is transitive |
| LexOrder.LessTotal | build.rb:59-62 | any two different strings are ordered one way or the other |
| LexOrder.Decimal | build.rb:52 | the digits of `n`, whose value is `n`, at least `width` long, exactly `width` long when `n` fits, and with no leading zero when it does not |
| LexOrder.DecimalOrder | build.rb:59-62 | for numbers of the same padded width, the string order of their digits is their numeric order |
| Yaml.IntText | build.rb:51-52 | `Integer#to_s` is the decimal digits of the number, whose value is the number, with no leading zero except for `0` itself, preceded by `-` exactly when it is negative |
| Yaml.DateText | build.rb:52 | `Date#to_s` is at least ten characters, led by `-` for a negative year; for a year of at most four digits and two-digit month and day it is exactly ten, with `-` at offsets 4 and 7 and digit fields denoting the year, month and day |
| Yaml.DateTextOrder | build.rb:59-62 | for valid dates, comparing their `to_s` strings is calendar order, so a date-sorted manifest is chronological |
| RbFrontMatter.MatchAt | build.rb:84 | a delimiter line starting at the index (`^---\s*$`), with the longest match, or `None` when none starts there |
| RbFrontMatter.FindDelimiter | build.rb:84 | the first position at or after `from` where a delimiter line matches, and where it ends |
| RbFrontMatter.Split3 | build.rb:84 | one to three parts; a single part, the whole content, exactly when no delimiter line matches anywhere; otherwise the first part is the text before the first delimiter, and with two parts the second is everything after that delimiter's match, which contains no further delimiter |
| RbFrontMatter.Split3Cuts | build.rb:84 | given the first delimiter and the next one after its end, the three parts are the text before the first, the text between them, and everything after the second |
| RbFrontMatter.ParseFrontMatterRb | build.rb:80-91 | empty metadata when the content does not start with `---` or splits into fewer than three parts; otherwise the mapping the YAML document loads as, empty metadata for a syntax error or a nil/false document, and no result at all (the error propagates) for any other load error |
| RbFrontMatter.ParseMapping | build.rb:84-87 | a three-part file whose header loads as a mapping has that mapping as its metadata |
| RbFrontMatter.SplitWellFormed | build.rb:84 | a `---` / header / `---` document splits into an empty prefix, the header with its surrounding newlines, and the rest |
| RbFrontMatter.ParseWellFormed | build.rb:80-91 | for such a document, the metadata is the mapping the YAML library loads from the header, empty for a syntax error or an empty document, and the call raises when loading raises anything else |
| RbFrontMatter.UnclosedHasNoMeta | build.rb:84-85 | a header that is never closed splits into two parts, so the file has no metadata and the YAML library is never called |
| SlugLang.Basename | build.rb:69 | the base name is the whole slash-free tail of the path: a suffix without '/' that is the whole path or is preceded by '/' |
| SlugLang.StripMd | build.rb:69 | `.md` is removed when the name ends with it and is longer than the suffix |
| SlugLang.ExtractSlugAndLang | build.rb:68-78 | `nil` when the stripped base name has no dot; on success the language is `ar` or `en` and slug + `.` + language is the stripped base name |
| SlugLang.ExtractOfBase | build.rb:70-77 | the split is at the last dot, so the slug may contain dots; the result depends only on whether the suffix is supported |
| SlugLang.ExtractRoundTrip | build.rb:68-78 | `dir/slug.lang.md` for a supported language yields exactly `(slug, lang)` |
| SlugLang.ExtractRejects | build.rb:75 | any other language suffix (`post.fr.md`) is rejected |
| ManifestBuilder.MapToS | build.rb:54 | `map(&:to_s)` keeps the length and stringifies each item |
| ManifestBuilder.Normalize | build.rb:50-56 | title and date stringified; excerpt `''` when falsy, else stringified; tags a list of strings exactly when the value is an array; cover nil exactly when absent or nil, else stringified |
| ManifestBuilder.Accept | build.rb:38-47 | a file is kept exactly when its name yields a slug and language and its front matter has a truthy title and date, and it then carries that slug, language and normalised record |
| ManifestBuilder.AcceptAll | build.rb:37-48 | at most one record per globbed file; `AcceptAllMembers` states exactly which records |
| ManifestBuilder.AcceptAllMembers | build.rb:37-47 | the accepted records are exactly those of the files that pass the filter |
| ManifestBuilder.SkippedFileIsIrrelevant | build.rb:44-47 | inserting a rejected file anywhere leaves the accepted records unchanged |
| ManifestBuilder.Lookup | build.rb:50 | the record stored for a language, `None` exactly when there is none |
| ManifestBuilder.Put | build.rb:50 | `langs[lang] = record` sets that language, keeps every other one, and keeps the first-inserted language first |
| ManifestBuilder.PutUnique | build.rb:50 | a language appears at most once in an entry |
| ManifestBuilder.Find | build.rb:49 | the entry stored for a slug, `None` exactly when there is none |
| ManifestBuilder.Upsert | build.rb:49-56 | `entries[slug] \|\|= ...` then the language assignment: the slug's entry gets the record, and every other slug is unchanged |
| ManifestBuilder.UpsertUnique | build.rb:49 | merging keeps slugs unique |
| ManifestBuilder.FirstLang | build.rb:49-50 | the language of the first accepted file with the slug |
| ManifestBuilder.LastRecord | build.rb:50-56 | the record of the last accepted file with the slug and language |
| ManifestBuilder.MergeAll | build.rb:49-57 | the `entries` hash after the loop, one or-assignment and one assignment per accepted file; what it holds is stated by `MergeFind` against the `FirstLang`/`LastRecord` reference and by `MergeUnique` |
| ManifestBuilder.MergeFind | build.rb:49-57 | after merging, a slug has an entry exactly when some accepted file has it; its first language is the first one met, each language appears once, and each language holds the record of the last file for it |
| ManifestBuilder.MergeUnique | build.rb:49-57 | the merged entries have distinct slugs |
| ManifestBuilder.FindMember | build.rb:49 | with unique slugs, every entry is the one found for its slug |
| ManifestSort.SortKey | build.rb:60 | the date of the entry's first-inserted language, `0000-00-00` without one; `Generate.GenerateEntries` proves that for a generated entry this is the date of the first accepted file for the slug |
| ManifestSort.InsertPos | build.rb:59-62 | the insertion point follows every strictly later key and precedes the first key not later |
| ManifestSort.InsertDesc | build.rb:59-62 | inserting adds exactly the new element and keeps every other one |
| ManifestSort.InsertSorted | build.rb:59-62 | inserting into a descending list keeps it descending |
| ManifestSort.SortDesc | build.rb:59-62 | the result is a permutation of the input, in non-increasing order of the first language's date string |
| ManifestSort.SortKeepsUnique | build.rb:59-62 | sorting keeps slugs unique |
| Generate.ReadSource | build.rb:37-42 | a file whose name gives no slug and language is skipped unread; any other raises exactly when `parse_front_matter` does and otherwise carries its metadata; a file not starting with `---`, splitting into fewer than three parts, or empty is never accepted |
| Generate.ReadSourceAccepts | build.rb:38-56 | a file whose header loads as a mapping with a truthy title and date, under a name giving a slug and language, is accepted with that slug, language and the mapping's record |
| Generate.ReadWellFormedSource | build.rb:38-56 | the same for a file laid out as `---`, header, `---`, body |
| Generate.ReadAll | build.rb:37-57 | reading a directory's files raises exactly when reading one of them does; otherwise each file is read in place |
| Generate.GenerateManifest | build.rb:33-66 | the manifest is a permutation of the merged accepted files, in descending date order |
| Generate.GenerateUnique | build.rb:33-66 | one entry per slug |
| Generate.GeneratedIsMerged | build.rb:49-62 | every output entry is the merged entry for its slug |
| Generate.GenerateEntries | build.rb:49-60 | every output entry has at least one language, each once, sorts by its first language's date (never the `0000-00-00` default), and holds the last record per language |
| Generate.GenerateProvenance | build.rb:38-56 | every language record in the output came from a file whose name gave that slug and language and whose front matter had a title and a date |
| Generate.GeneratedSlugAccepted | build.rb:37-57 | every output slug comes from an accepted file |
| Generate.AcceptedSlugGenerated | build.rb:37-57 | every accepted file's slug is in the output |
| Generate.GenerateSlugs | build.rb:37-57 | the output slugs are exactly the slugs of the accepted files |
| Generate.SkippedFileDoesNotChangeManifest | build.rb:44-47 | adding a file without a title or date (a draft) leaves the manifest exactly as it was |
| Generate.Outcome | build.rb:19-25 | a collection directory is skipped exactly when it is missing, raises exactly when one of its files raises, and otherwise gets the manifest of its files at `<dir>/_manifest.json` |
| Generate.Reached | build.rb:19-28 | the loop gets through exactly the directories before the first one that raises |
| Generate.BuildAll | build.rb:15-31 | the run completes exactly when neither collection directory raises; if `pages/blogs` raises nothing is written, if only `pages/posts` raises just the blogs manifest is written, and a completed run writes exactly the manifests of the existing directories |
| Generate.BuildTwo | build.rb:19-28 | the loop over two directories stops at the first that raises, keeping the manifests written before it |
| Generate.BuildDirs | build.rb:19-28 | the loop completes exactly when it gets through every directory, and writes at most one manifest per directory it gets through |
| Generate.BuildDirsWritten | build.rb:19-28 | the loop writes exactly the manifests of the existing directories it gets through, that is, those before the first that raises |
| BuildToClient.LangMap | build.rb:50-56 | the JSON `langs` object has exactly the stored languages, each with its record |
| BuildToClient.ToClientManifest | build.rb:64 | the written manifest keeps the order and content of the sorted entries |
| BuildToClient.ManifestLocationsAgree | build.rb:34 | the builder writes each manifest where the client fetches it |
| BuildToClient.GeneratedLangsSupported | build.rb:75 | every language in a generated manifest is `ar` or `en` |
| BuildToClient.EveryGeneratedEntryListed | build.rb:49-56 | the client finds metadata, in any language, for every generated entry |
| BuildToClient.MergeTwoLanguages | build.rb:49-50 | two files of one slug in different languages merge into one entry holding both, in file order |
| BuildToClient.MergeTwoSlugs | build.rb:49-50 | two files of different slugs merge into two entries, in file order |
| BuildToClient.ClientSeesBoth | app.js:184-190 | a one-entry manifest whose entry has both languages satisfies `entryHasBothLangs` |
| BuildToClient.TwoLanguagesOneEntry | build.rb:49-56 | `post.ar.md` and `post.en.md` with titles and dates give exactly one entry, `post`, with both language records, for which the client shows the toggle |
| BuildToClient.NormalizedDate | build.rb:52 | a YAML date is stored as its `Date#to_s` text |
| BuildToClient.NewestFirstMerged | build.rb:49-62 | two records of different slugs with valid dates, merged in either order, are sorted newest first |
| BuildToClient.NewestFirst | build.rb:37-62 | two files of different slugs with valid dates are written newest first, whichever of them the glob lists first |
| BuildToClient.Chronological | build.rb:59-62 | in any generated manifest, an entry whose sort key is a valid date's text is never older than a later entry's |

## Left out

- HTML, DOM and markdown rendering are out of scope: the templates, `marked`, `hljs`, `mermaid`, `postProcessContent`, `retriggerAnimation`, `renderSidebar` and `renderFooter`. Screens record only what is shown, in which language, and with which metadata.
- `formatDate`, `applyTheme`, `applyDirection`, `siteName` and `updateMetaTags` are left out because they depend on locale or library behaviour (`Intl`, `parseInt`, `Blob`).
- Network, `localStorage`, `location` and `jsyaml` config loading are parameters. A fetch is an oracle from URL to optional text. Config parsing is not modelled.
- Asynchrony is left out: overlapping `route()` calls and `Promise.all`. Each navigation is one atomic step.
- JavaScript prototype keys such as `constructor` are left out. JS objects are maps, so `availableFiles['constructor']` is not modelled.
- The YAML library is an oracle that returns a syntax error, another load error, an empty document or a mapping. Which headers raise which error (`Psych::DisallowedClass` for a time or a symbol, `Psych::BadAlias` for an alias) is the oracle's business. A non-mapping document such as a bare scalar or a list is not modelled; the code would hand it on unchanged, and indexing it can itself raise.
- The `inspect` text Ruby's `to_s` gives for arrays, floats and nested hashes is carried as an opaque string.
- `Dir.glob`'s pattern and order, hidden files, `File.read` encoding errors, `File.write`, `JSON.pretty_generate` formatting, and the `puts`/`warn` output are left out. The builder sees each existing directory as a sequence of `(path, content)` pairs in glob order.
- The order of entries with equal dates is not modelled. Ruby's `sort_by` is not stable, and the code reverses afterwards.
- ManifestSort.SortDesc: picks one admissible order for entries with equal dates. Only the ordering and permutation properties are stated, because the source fixes no tie order.
- Yaml.DateTextOrder: proved only for years 0 to 9999, where `Date#to_s` has exactly four year digits. Negative and five-digit years do not sort chronologically as strings, so the builder would not order them by date either.
- Strings are sequences of Unicode scalar values, whereas JavaScript strings are UTF-16 code units, so `length` and indices differ for characters outside the Basic Multilingual Plane. Every delimiter the code looks for (`#`, `/`, `:`, `---`, line feeds) is ASCII, so the splits and slices agree.
- The client's `currentPage` global is left out. It is used only by `renderNav` and `renderLangToggle`, which receive the page explicitly.

=== FILE: availability.dfy ===
/**
 Static-page availability (`detectAvailableFiles` and `hasPage`, app.js):
 a page exists in a language iff its configuration row has a non-null
 label for that language. When a slug is listed twice, the later row wins.
 */
module Availability {
  import opened Options
  import opened SiteConfig

  datatype Langs = Langs(ar: bool, en: bool)

  function LangsOf(p: PageConfig): Langs {
    Langs(p.arLabel.Some?, p.enLabel.Some?)
  }

  /** The `availableFiles` object after the loop over `CONFIG.pages`. */
  function Detect(pages: seq<PageConfig>): (avail: map<string, Langs>)
    ensures forall s :: s in avail ==> exists i :: 0 <= i < |pages| && pages[i].slug == s && avail[s] == LangsOf(pages[i])
  {
    if |pages| == 0 then map[]
    else
      var front := pages[..|pages| - 1];
      var last := pages[|pages| - 1];
      assert forall i :: 0 <= i < |front| ==> front[i] == pages[i];
      Detect(front)[last.slug := LangsOf(last)]
  }

  /** `hasPage(slug, lang)`: `availableFiles[slug][lang] === true`. */
  function HasPage(avail: map<string, Langs>, slug: string, lang: string): (b: bool)
    ensures b ==> slug in avail && (lang == Ar || lang == En)
  {
    slug in avail && ((lang == Ar && avail[slug].ar) || (lang == En && avail[slug].en))
  }

  /** Row `i` is the last row for its slug. */
  predicate LastForSlug(pages: seq<PageConfig>, i: int)
    requires 0 <= i < |pages|
  {
    forall j :: i < j < |pages| ==> pages[j].slug != pages[i].slug
  }

  predicate Labelled(p: PageConfig, lang: string) {
    (lang == Ar && p.arLabel.Some?) || (lang == En && p.enLabel.Some?)
  }

  /** Exactly the configured slugs are in the map. */
  lemma {:induction false} DetectKeys(pages: seq<PageConfig>)
    ensures forall s :: s in Detect(pages) <==> exists i :: 0 <= i < |pages| && pages[i].slug == s
  {
    if |pages| > 0 {
      var front := pages[..|pages| - 1];
      DetectKeys(front);
      assert forall i :: 0 <= i < |front| ==> front[i] == pages[i];
    }
  }

  /** Each slug carries the availability of its last row. */
  lemma {:induction false} DetectLastRowWins(pages: seq<PageConfig>, i: int)
    requires 0 <= i < |pages| && LastForSlug(pages, i)
    ensures pages[i].slug in Detect(pages)
    ensures Detect(pages)[pages[i].slug] == LangsOf(pages[i])
  {
    var front := pages[..|pages| - 1];
    if i < |pages| - 1 {
      assert front[i] == pages[i];
      assert LastForSlug(front, i) by {
        forall j | i < j < |front| ensures front[j].slug != front[i].slug {
          assert front[j] == pages[j];
        }
      }
      DetectLastRowWins(front, i);
    }
  }

  /** The last row with a given slug exists whenever some row has it. */
  lemma LastRowExists(pages: seq<PageConfig>, i: int) returns (k: int)
    requires 0 <= i < |pages|
    ensures i <= k < |pages| && pages[k].slug == pages[i].slug && LastForSlug(pages, k)
    decreases |pages| - i
  {
    if LastForSlug(pages, i) {
      k := i;
    } else {
      var j :| i < j < |pages| && pages[j].slug == pages[i].slug;
      k := LastRowExists(pages, j);
    }
  }

  /**
   `hasPage` holds exactly for a slug whose last configuration row has a
   label in that language; only "ar" and "en" can hold.
   */
  lemma HasPageIff(pages: seq<PageConfig>, slug: string, lang: string)
    ensures HasPage(Detect(pages), slug, lang) <==>
              exists i :: 0 <= i < |pages| && pages[i].slug == slug && LastForSlug(pages, i)
                          && Labelled(pages[i], lang)
  {
    DetectKeys(pages);
    if HasPage(Detect(pages), slug, lang) {
      var i :| 0 <= i < |pages| && pages[i].slug == slug;
      var k := LastRowExists(pages, i);
      DetectLastRowWins(pages, k);
      assert Labelled(pages[k], lang);
    }
    if exists i :: 0 <= i < |pages| && pages[i].slug == slug && LastForSlug(pages, i) && Labelled(pages[i], lang) {
      var i :| 0 <= i < |pages| && pages[i].slug == slug && LastForSlug(pages, i) && Labelled(pages[i], lang);
      DetectLastRowWins(pages, i);
    }
  }

  /** No page is available in a language other than "ar" or "en". */
  lemma NoPageInOtherLanguages(avail: map<string, Langs>, slug: string, lang: string)
    requires lang != Ar && lang != En
    ensures !HasPage(avail, slug, lang)
  {
  }
}

=== FILE: build_properties.dfy ===
/**
 How the builder's output meets the client: the manifest written by
 build.rb, read back as the client's view of `_manifest.json`, and the
 end-to-end properties of a collection directory.
 */
module BuildToClient {
  import opened Options
  import opened Yaml
  import opened SlugLang
  import opened ManifestBuilder
  import opened ManifestSort
  import opened Generate
  import opened LexOrder
  import M = Manifest

  /** A record as JSON carries it to the client. */
  function ToMeta(r: Record): M.EntryMeta {
    M.EntryMeta(r.title, r.date, r.excerpt, r.tags, r.cover)
  }

  /** The `langs` object of an entry, as the client parses it. */
  function LangMap(langs: seq<LangRecord>): (m: map<string, M.EntryMeta>)
    ensures forall l :: l in m <==> Lookup(langs, l).Some?
    ensures forall l :: l in m ==> m[l] == ToMeta(Lookup(langs, l).value)
  {
    if |langs| == 0 then map[]
    else LangMap(langs[1..])[langs[0].lang := ToMeta(langs[0].rec)]
  }

  function ToClient(e: BuiltEntry): M.Entry {
    M.Entry(e.slug, LangMap(e.langs))
  }

  function ToClientManifest(entries: seq<BuiltEntry>): (m: M.Manifest)
    ensures |m.entries| == |entries|
    ensures forall i :: 0 <= i < |entries| ==> m.entries[i] == ToClient(entries[i])
  {
    M.Manifest(seq(|entries|, i requires 0 <= i < |entries| => ToClient(entries[i])))
  }

  /** The manifest `main` writes for a collection directory is the one the client fetches for its slug. */
  lemma ManifestLocationsAgree()
    ensures OutputPath(Collections[0]) == M.ManifestUrl("blogs")
    ensures OutputPath(Collections[1]) == M.ManifestUrl("posts")
  {
  }

  /** Every record in the output is in "ar" or "en". */
  lemma GeneratedLangsSupported(files: seq<FileInput>, e: BuiltEntry, k: nat)
    requires e in GenerateManifest(files) && k < |e.langs|
    ensures SupportedLang(e.langs[k].lang)
  {
    assert e.langs[k] in e.langs;
    GenerateProvenance(files, e, e.langs[k]);
  }

  /**
   Every entry the builder writes has metadata for the client in any
   language, so no listing ever drops it.
   */
  lemma EveryGeneratedEntryListed(files: seq<FileInput>, e: BuiltEntry, lang: string)
    requires e in GenerateManifest(files)
    ensures M.GetEntryMeta(ToClient(e), lang).Some?
  {
    GenerateEntries(files, e);
    GeneratedLangsSupported(files, e, 0);
    LookupUnique(e.langs, 0);
    M.GetEntryMetaPresent(ToClient(e), lang);
  }

  /** Two glob results that are both accepted, in glob order. */
  lemma AcceptTwo(files: seq<FileInput>, a: Accepted, b: Accepted)
    requires |files| == 2 && Accept(files[0]) == Some(a) && Accept(files[1]) == Some(b)
    ensures GenerateManifest(files) == SortDesc(MergeAll([a, b]))
  {
    FilterMapPair(files, Accept, a, b);
  }

  /** One record for each language of a slug: one entry, languages in file order. */
  lemma MergeTwoLanguages(slug: string, l1: string, r1: Record, l2: string, r2: Record)
    requires l1 != l2
    ensures MergeAll([Accepted(slug, l1, r1), Accepted(slug, l2, r2)])
            == [BuiltEntry(slug, [LangRecord(l1, r1), LangRecord(l2, r2)])]
  {
    var acc := [Accepted(slug, l1, r1), Accepted(slug, l2, r2)];
    assert acc[..1][..0] == [];
    var e := BuiltEntry(slug, [LangRecord(l1, r1)]);
    assert MergeAll(acc[..1]) == [e];
    assert e.langs[1..] == [];
    assert Put(e.langs, l2, r2) == [LangRecord(l1, r1)] + Put([], l2, r2);
    assert Upsert([e], acc[1]) == [e.(langs := Put(e.langs, l2, r2))] + [e][1..];
    assert Put([], l2, r2) == [LangRecord(l2, r2)];
    assert MergeAll(acc) == Upsert(MergeAll(acc[..1]), acc[1]);
    assert Put(e.langs, l2, r2) == [LangRecord(l1, r1), LangRecord(l2, r2)];
    assert Upsert([e], acc[1]) == [BuiltEntry(slug, [LangRecord(l1, r1), LangRecord(l2, r2)])];
  }

  /** Records for two different slugs: two entries, in file order. */
  lemma MergeTwoSlugs(a1: Accepted, a2: Accepted)
    requires a1.slug != a2.slug
    ensures MergeAll([a1, a2]) == [BuiltEntry(a1.slug, [LangRecord(a1.lang, a1.rec)]),
                                   BuiltEntry(a2.slug, [LangRecord(a2.lang, a2.rec)])]
  {
    var acc := [a1, a2];
    var e1 := BuiltEntry(a1.slug, [LangRecord(a1.lang, a1.rec)]);
    assert acc[..1][..0] == [];
    assert MergeAll(acc[..1]) == [e1];
    assert Upsert([e1], a2) == [e1] + Upsert([], a2);
  }

  /** Sorting one entry leaves it alone. */
  lemma SortOne(e: BuiltEntry)
    ensures SortDesc([e]) == [e]
  {
    assert [e][1..] == [];
    assert SortDesc([]) == [];
    var empty: seq<BuiltEntry> := [];
    assert InsertPos(e, empty) == 0;
    assert InsertDesc(e, empty) == empty[..0] + [e] + empty[0..];
  }

  /** Sorting two entries with strictly ordered keys puts the later key first. */
  lemma SortTwo(e1: BuiltEntry, e2: BuiltEntry)
    requires Less(SortKey(e1), SortKey(e2))
    ensures SortDesc([e1, e2]) == [e2, e1]
  {
    SortOne(e2);
    assert [e1, e2][1..] == [e2];
    LessAsymmetric(SortKey(e1), SortKey(e2));
    LessIrreflexive(SortKey(e1));
    assert !LessEq(SortKey(e2), SortKey(e1));
    assert InsertPos(e1, [e2]) == 1 by {
      assert [e2][1..] == [];
    }
  }

  /** The client sees both languages of a one-entry manifest that has both records. */
  lemma ClientSeesBoth(g: seq<BuiltEntry>, coll: string, slug: string)
    requires |g| == 1 && g[0].slug == slug
    requires Lookup(g[0].langs, "ar").Some? && Lookup(g[0].langs, "en").Some?
    ensures M.EntryHasBothLangs(map[coll := ToClientManifest(g)], coll, slug)
  {
    var cm := ToClientManifest(g);
    assert cm.entries[0] == ToClient(g[0]);
    assert M.FindEntry(cm.entries, slug) == Some(ToClient(g[0]));
  }

  /** The merged and sorted output of an "ar" and an "en" record for one slug. */
  lemma TwoLanguagesMerged(slug: string, arRec: Record, enRec: Record)
    ensures var g := SortDesc(MergeAll([Accepted(slug, "ar", arRec), Accepted(slug, "en", enRec)]));
            && g == [BuiltEntry(slug, [LangRecord("ar", arRec), LangRecord("en", enRec)])]
            && M.EntryHasBothLangs(map["blogs" := ToClientManifest(g)], "blogs", slug)
  {
    MergeTwoLanguages(slug, "ar", arRec, "en", enRec);
    var e := BuiltEntry(slug, [LangRecord("ar", arRec), LangRecord("en", enRec)]);
    SortOne(e);
    assert Lookup(e.langs, "en") == Some(enRec);
    ClientSeesBoth([e], "blogs", slug);
  }

  /**
   An `.ar.md` and an `.en.md` file for the same slug, both with a title
   and a date, give exactly one entry with that slug, carrying both
   languages in glob order, and the client shows the toggle on it.
   */
  lemma TwoLanguagesOneEntry(dir: string, slug: string, arMeta: map<string, Yaml>, enMeta: map<string, Yaml>)
    requires '/' !in slug && HasRequired(arMeta) && HasRequired(enMeta)
    ensures var files := [FileInput(dir + "/" + slug + "." + "ar" + ".md", arMeta),
                          FileInput(dir + "/" + slug + "." + "en" + ".md", enMeta)];
            var g := GenerateManifest(files);
            && g == [BuiltEntry(slug, [LangRecord("ar", Normalize(arMeta)), LangRecord("en", Normalize(enMeta))])]
            && M.EntryHasBothLangs(map["blogs" := ToClientManifest(g)], "blogs", slug)
  {
    var files := [FileInput(dir + "/" + slug + "." + "ar" + ".md", arMeta),
                  FileInput(dir + "/" + slug + "." + "en" + ".md", enMeta)];
    var a := Accepted(slug, "ar", Normalize(arMeta));
    var b := Accepted(slug, "en", Normalize(enMeta));
    assert Accept(files[0]) == Some(a) by {
      ExtractRoundTrip(dir, slug, "ar");
    }
    assert Accept(files[1]) == Some(b) by {
      ExtractRoundTrip(dir, slug, "en");
    }
    AcceptTwo(files, a, b);
    TwoLanguagesMerged(slug, a.rec, b.rec);
  }

  /** A file carrying a valid calendar date as its `date`. */
  predicate Dated(f: FileInput, y: int, m: nat, d: nat) {
    Get(f.meta, "date") == YDate(y, m, d) && ValidDate(y, m, d)
  }

  /** The date text a record normalised from a calendar date carries. */
  lemma NormalizedDate(meta: map<string, Yaml>, r: Record, y: int, m: nat, d: nat)
    requires r == Normalize(meta) && Get(meta, "date") == YDate(y, m, d)
    ensures r.date == DateText(y, m, d)
  {
  }

  /** An accepted file's record is its normalised metadata. */
  lemma AcceptedRecord(f: FileInput, a: Accepted)
    requires Accept(f) == Some(a)
    ensures a.rec == Normalize(f.meta)
  {
  }

  /** Sorting two entries already in descending key order leaves them alone. */
  lemma SortTwoSorted(e1: BuiltEntry, e2: BuiltEntry)
    requires Less(SortKey(e1), SortKey(e2))
    ensures SortDesc([e2, e1]) == [e2, e1]
  {
    SortOne(e1);
    assert [e2, e1][1..] == [e1];
    assert LessEq(SortKey(e1), SortKey(e2));
    assert InsertPos(e2, [e1]) == 0;
  }

  /**
   A generated manifest is chronological: of two entries whose sort keys
   are the texts of calendar dates, the earlier one in the manifest is not
   the older.
   */
  lemma Chronological(files: seq<FileInput>, i: nat, j: nat,
                      y1: int, m1: nat, d1: nat, y2: int, m2: nat, d2: nat)
    requires i < j < |GenerateManifest(files)|
    requires SortKey(GenerateManifest(files)[i]) == DateText(y1, m1, d1) && ValidDate(y1, m1, d1)
    requires SortKey(GenerateManifest(files)[j]) == DateText(y2, m2, d2) && ValidDate(y2, m2, d2)
    ensures !DateBefore(y1, m1, d1, y2, m2, d2)
  {
    var g := GenerateManifest(files);
    assert LessEq(SortKey(g[j]), SortKey(g[i]));
    DateTextOrder(y1, m1, d1, y2, m2, d2);
    if DateBefore(y1, m1, d1, y2, m2, d2) {
      LessAsymmetric(SortKey(g[i]), SortKey(g[j]));
      LessIrreflexive(SortKey(g[i]));
    }
  }

  /** The merged and sorted output of two records for different slugs, the later date first. */
  lemma NewestFirstMerged(a1: Accepted, a2: Accepted, y1: int, m1: nat, d1: nat, y2: int, m2: nat, d2: nat)
    requires a1.slug != a2.slug
    requires a1.rec.date == DateText(y1, m1, d1) && ValidDate(y1, m1, d1)
    requires a2.rec.date == DateText(y2, m2, d2) && ValidDate(y2, m2, d2)
    requires DateBefore(y1, m1, d1, y2, m2, d2)
    ensures SortDesc(MergeAll([a1, a2])) == [BuiltEntry(a2.slug, [LangRecord(a2.lang, a2.rec)]),
                                             BuiltEntry(a1.slug, [LangRecord(a1.lang, a1.rec)])]
    ensures SortDesc(MergeAll([a2, a1])) == [BuiltEntry(a2.slug, [LangRecord(a2.lang, a2.rec)]),
                                             BuiltEntry(a1.slug, [LangRecord(a1.lang, a1.rec)])]
  {
    MergeTwoSlugs(a1, a2);
    MergeTwoSlugs(a2, a1);
    var e1 := BuiltEntry(a1.slug, [LangRecord(a1.lang, a1.rec)]);
    var e2 := BuiltEntry(a2.slug, [LangRecord(a2.lang, a2.rec)]);
    DateTextOrder(y1, m1, d1, y2, m2, d2);
    assert Less(SortKey(e1), SortKey(e2));
    SortTwo(e1, e2);
    SortTwoSorted(e1, e2);
  }

  /**
   Two files for different slugs, whose dates are calendar dates, come out
   newest first, whatever their glob order.
   */
  lemma NewestFirst(files: seq<FileInput>, a1: Accepted, a2: Accepted,
                    y1: int, m1: nat, d1: nat, y2: int, m2: nat, d2: nat)
    requires |files| == 2 && a1.slug != a2.slug
    requires || (Accept(files[0]) == Some(a1) && Dated(files[0], y1, m1, d1)
                 && Accept(files[1]) == Some(a2) && Dated(files[1], y2, m2, d2))
             || (Accept(files[0]) == Some(a2) && Dated(files[0], y2, m2, d2)
                 && Accept(files[1]) == Some(a1) && Dated(files[1], y1, m1, d1))
    requires DateBefore(y1, m1, d1, y2, m2, d2)
    ensures var g := GenerateManifest(files);
            |g| == 2 && g[0].slug == a2.slug && g[1].slug == a1.slug
  {
    var older := if Accept(files[0]) == Some(a1) && Dated(files[0], y1, m1, d1) then 0 else 1;
    var newer := 1 - older;
    AcceptedRecord(files[older], a1);
    AcceptedRecord(files[newer], a2);
    NormalizedDate(files[older].meta, a1.rec, y1, m1, d1);
    NormalizedDate(files[newer].meta, a2.rec, y2, m2, d2);
    NewestFirstMerged(a1, a2, y1, m1, d1, y2, m2, d2);
    if older == 0 {
      AcceptTwo(files, a1, a2);
    } else {
      AcceptTwo(files, a2, a1);
    }
  }
}

=== FILE: front_matter.dfy ===
/**
 The client's front-matter parser (`parseFrontMatter`, app.js). A document
 has front matter when it starts with "---\n" and contains "\n---" at some
 index >= 4; the header is the text up to the first such occurrence and the
 body what follows it, less one optional "\n". Header lines are `key: value`
 pairs; values may be quoted strings or bracketed, comma-separated lists.
 */
module FrontMatter {
  import opened Options
  import opened Text

  datatype Value = Str(s: string) | List(items: seq<string>)

  datatype Parsed = Parsed(meta: map<string, Value>, body: string)

  const Opening: string := "---\n"
  const Closing: string := "\n---"

  /** "\n---" occurs at index `k` of `text`. */
  predicate ClosingAt(text: string, k: int) {
    0 <= k && k + 4 <= |text| && text[k..k + 4] == Closing
  }

  /** The first index at or after `from` where "\n---" occurs (the lazy `[\s\S]*?`). */
  function FindClosing(text: string, from: nat): (r: Option<nat>)
    decreases |text| - from
    ensures r.Some? ==> from <= r.value && ClosingAt(text, r.value)
    ensures r.Some? ==> forall k :: from <= k < r.value ==> !ClosingAt(text, k)
    ensures r.None? ==> forall k :: from <= k ==> !ClosingAt(text, k)
  {
    if from + 4 > |text| then None
    else if text[from..from + 4] == Closing then Some(from)
    else FindClosing(text, from + 1)
  }

  /**
   The match of `/^---\n([\s\S]*?)\n---\n?([\s\S]*)$/`: the header and the
   body, or None when the document has no front matter.
   */
  function Delimit(text: string): (r: Option<(string, string)>)
    ensures r.Some? <==> StartsWith(text, Opening) && exists k :: 4 <= k && ClosingAt(text, k)
    ensures r.Some? ==>
              var (header, body) := r.value;
              && ((text == Opening + header + Closing + body && (|body| == 0 || body[0] != '\n'))
                  || text == Opening + header + Closing + "\n" + body)
              && (forall k :: 4 <= k < 4 + |header| ==> !ClosingAt(text, k))
  {
    if StartsWith(text, Opening) then
      match FindClosing(text, 4)
      case Some(k) =>
        DelimitMatch(text, k);
        Some((text[4..k], DropNewline(text[k + 4..])))
      case None => None
    else None
  }

  /** The optional `\n?` after the closing line: one leading line break is dropped. */
  function DropNewline(rest: string): (body: string)
    ensures (rest == body && (|body| == 0 || body[0] != '\n')) || rest == "\n" + body
  {
    if |rest| > 0 && rest[0] == '\n' then rest[1..] else rest
  }

  /** The document around a closing line found at `k`. */
  lemma DelimitMatch(text: string, k: nat)
    requires StartsWith(text, Opening) && 4 <= k && ClosingAt(text, k)
    ensures var body := DropNewline(text[k + 4..]);
            || (text == Opening + text[4..k] + Closing + body && (|body| == 0 || body[0] != '\n'))
            || text == Opening + text[4..k] + Closing + "\n" + body
  {
    var rest := text[k + 4..];
    var body := DropNewline(rest);
    assert text == Opening + text[4..k] + Closing + rest;
    if rest == "\n" + body {
      assert Opening + text[4..k] + Closing + ("\n" + body) == Opening + text[4..k] + Closing + "\n" + body;
    }
  }

  /** JavaScript's `v.slice(1, -1)`: drop the first and the last character. */
  function Inner(v: string): (r: string)
    ensures |v| >= 2 ==> v == [v[0]] + r + [v[|v| - 1]]
    ensures |v| < 2 ==> r == ""
  {
    if |v| >= 2 then v[1..|v| - 1] else ""
  }

  predicate Quoted(v: string) {
    (StartsWith(v, "\"") && EndsWith(v, "\"")) || (StartsWith(v, "'") && EndsWith(v, "'"))
  }

  predicate Bracketed(v: string) {
    StartsWith(v, "[") && EndsWith(v, "]")
  }

  /** `s => s.trim()` over every element. */
  function TrimAll(xs: seq<string>): (r: seq<string>)
    ensures |r| == |xs|
    ensures forall i :: 0 <= i < |xs| ==> r[i] == Trim(xs[i])
  {
    seq(|xs|, i requires 0 <= i < |xs| => Trim(xs[i]))
  }

  /**
   A trimmed raw value: one outer pair of matching quotes is removed, then a
   bracketed value becomes the list of its trimmed comma-separated pieces.
   */
  function ParseValue(raw: string): (r: Value)
    ensures !Quoted(raw) && !Bracketed(raw) ==> r == Str(raw)
    ensures r.Str? ==> !Bracketed(r.s)
    ensures r.List? ==> |r.items| >= 1 && forall k :: 0 <= k < |r.items| ==> Trimmed(r.items[k]) && ',' !in r.items[k]
  {
    var v := if Quoted(raw) then Inner(raw) else raw;
    if Bracketed(v) then
      var pieces := Split(Inner(v), ',');
      TrimAllWithout(pieces, ',');
      List(TrimAll(pieces))
    else Str(v)
  }

  /** Trimming every piece keeps a character out of all of them. */
  lemma TrimAllWithout(xs: seq<string>, c: char)
    requires forall i :: 0 <= i < |xs| ==> c !in xs[i]
    ensures forall i :: 0 <= i < |xs| ==> c !in TrimAll(xs)[i]
  {
    forall i | 0 <= i < |xs| ensures c !in TrimAll(xs)[i] {
      TrimWithout(xs[i], c);
    }
  }

  /**
   One header line: None when it has no ':'; otherwise the trimmed text
   before the first ':' and the parsed, trimmed rest.
   */
  function ParseLine(line: string): (r: Option<(string, Value)>)
    ensures r.None? <==> ':' !in line
  {
    match IndexOf(line, ':')
    case None => None
    case Some(i) => Some((Trim(line[..i]), ParseValue(Trim(line[i + 1..]))))
  }

  /** The line defines `key`. */
  predicate Defines(line: string, key: string) {
    ParseLine(line).Some? && ParseLine(line).value.0 == key
  }

  /**
   A line is cut at its FIRST ':' only, so the value may itself contain
   colons; both sides are trimmed.
   */
  lemma ParseLineAtFirstColon(k: string, rest: string)
    requires ':' !in k
    ensures ParseLine(k + ":" + rest) == Some((Trim(k), ParseValue(Trim(rest))))
  {
    var line := k + ":" + rest;
    assert line[|k|] == ':';
    assert line[..|k|] == k;
    assert IndexOf(line, ':') == Some(|k|);
    assert line[|k| + 1..] == rest;
  }

  /** Exactly one outer pair of matching quotes is removed; a bracketed inside is not a list then. */
  lemma ParseValueQuoted(q: char, s: string)
    requires q == '"' || q == '\''
    requires !Bracketed(s)
    ensures ParseValue([q] + s + [q]) == Str(s)
  {
    var raw := [q] + s + [q];
    assert raw[..1] == [q] && raw[|raw| - 1..] == [q];
    assert Quoted(raw);
    assert Inner(raw) == s;
  }

  /** A bracketed value, quoted or not, becomes the trimmed pieces between its commas. */
  lemma ParseValueList(inner: string, quote: bool)
    ensures var raw := if quote then "\"[" + inner + "]\"" else "[" + inner + "]";
            ParseValue(raw) == List(TrimAll(Split(inner, ',')))
  {
    if quote {
      ParseQuotedBracketed(inner);
    } else {
      ParseBracketed(inner);
    }
  }

  lemma BracketedInner(inner: string)
    ensures Bracketed("[" + inner + "]") && Inner("[" + inner + "]") == inner
  {
    var v := "[" + inner + "]";
    assert v[..1] == "[" && v[|v| - 1..] == "]";
  }

  lemma ParseBracketed(inner: string)
    ensures ParseValue("[" + inner + "]") == List(TrimAll(Split(inner, ',')))
  {
    var v := "[" + inner + "]";
    BracketedInner(inner);
    assert v[0] == '[';
    assert !Quoted(v) by {
      assert v[..1] != "\"" && v[..1] != "'";
    }
  }

  lemma ParseQuotedBracketed(inner: string)
    ensures ParseValue("\"[" + inner + "]\"") == List(TrimAll(Split(inner, ',')))
  {
    var v := "[" + inner + "]";
    var raw := "\"" + v + "\"";
    assert raw == "\"[" + inner + "]\"";
    assert raw[..1] == "\"" && raw[|raw| - 1..] == "\"";
    assert Inner(raw) == v;
    BracketedInner(inner);
  }

  /** `[]` is a one-element list holding the empty string. */
  lemma ParseValueEmptyList()
    ensures ParseValue("[]") == List([""])
  {
    assert ParseValue("[]") == List(TrimAll(Split("", ','))) by {
      assert "[]" == "[" + "" + "]";
      ParseBracketed("");
    }
    assert Split("", ',') == [""] by {
      assert IndexOf("", ',').None?;
    }
    assert TrimAll([""]) == [""];
  }

  /** A lone quote character is both the opening and the closing quote. */
  lemma ParseValueLoneQuote()
    ensures ParseValue("\"") == Str("")
  {
  }

  /** Left-to-right assignment of key/value pairs into an object; None entries are skipped. */
  function Assign<V>(ps: seq<Option<(string, V)>>): (m: map<string, V>)
    ensures forall key :: key in m ==> exists i :: 0 <= i < |ps| && ps[i] == Some((key, m[key]))
  {
    if |ps| == 0 then map[]
    else
      var front := ps[..|ps| - 1];
      assert forall i :: 0 <= i < |front| ==> front[i] == ps[i];
      var m := Assign(front);
      match ps[|ps| - 1]
      case None => m
      case Some((k, v)) => m[k := v]
  }

  predicate Binds<V>(p: Option<(string, V)>, key: string) {
    p.Some? && p.value.0 == key
  }

  /** One more assignment: it binds its own key and leaves the others as they were. */
  lemma AssignStep<V>(ps: seq<Option<(string, V)>>, key: string)
    requires |ps| > 0
    ensures Binds(ps[|ps| - 1], key) ==> key in Assign(ps) && ps[|ps| - 1] == Some((key, Assign(ps)[key]))
    ensures !Binds(ps[|ps| - 1], key) ==>
              (key in Assign(ps) <==> key in Assign(ps[..|ps| - 1]))
              && (key in Assign(ps) ==> Assign(ps)[key] == Assign(ps[..|ps| - 1])[key])
  {
  }

  /** A key is bound iff some pair binds it. */
  lemma {:induction false} AssignKeys<V>(ps: seq<Option<(string, V)>>, key: string)
    ensures key in Assign(ps) <==> exists i :: 0 <= i < |ps| && Binds(ps[i], key)
  {
    if |ps| > 0 {
      var front := ps[..|ps| - 1];
      AssignKeys(front, key);
      AssignStep(ps, key);
      if key in Assign(front) {
        var i :| 0 <= i < |front| && Binds(front[i], key);
        assert ps[i] == front[i];
      }
      if exists i :: 0 <= i < |ps| && Binds(ps[i], key) {
        var i :| 0 <= i < |ps| && Binds(ps[i], key);
        if i < |front| {
          assert front[i] == ps[i];
        }
      }
    }
  }

  /** A bound key holds the value of the last pair that binds it, at index `i`. */
  lemma {:induction false} AssignLastAt<V>(ps: seq<Option<(string, V)>>, key: string) returns (i: nat)
    requires key in Assign(ps)
    ensures i < |ps| && ps[i] == Some((key, Assign(ps)[key]))
    ensures forall j :: i < j < |ps| ==> !Binds(ps[j], key)
  {
    var n := |ps| - 1;
    var front := ps[..n];
    AssignStep(ps, key);
    if Binds(ps[n], key) {
      i := n;
    } else {
      i := AssignLastAt(front, key);
      assert ps[i] == front[i];
      forall j | i < j < |ps| ensures !Binds(ps[j], key) {
        if j < n {
          assert ps[j] == front[j];
        }
      }
    }
  }

  /** After the assignments, a key is bound iff some pair binds it, to the value of the last such pair. */
  lemma AssignLastWins<V>(ps: seq<Option<(string, V)>>, key: string)
    ensures key in Assign(ps) <==> exists i :: 0 <= i < |ps| && Binds(ps[i], key)
    ensures key in Assign(ps) ==>
              exists i :: 0 <= i < |ps| && ps[i] == Some((key, Assign(ps)[key]))
                          && forall j :: i < j < |ps| ==> !Binds(ps[j], key)
  {
    AssignKeys(ps, key);
    if key in Assign(ps) {
      var i := AssignLastAt(ps, key);
    }
  }

  /** The `forEach` over the header lines; a later line overwrites an earlier key. */
  function BuildMeta(lines: seq<string>): (meta: map<string, Value>)
    ensures forall key :: key in meta ==> exists i :: 0 <= i < |lines| && ParseLine(lines[i]) == Some((key, meta[key]))
  {
    Assign(seq(|lines|, i requires 0 <= i < |lines| => ParseLine(lines[i])))
  }

  /**
   The meta object holds exactly the keys some line defines, each bound to
   the value of the LAST line that defines it.
   */
  lemma BuildMetaLastWins(lines: seq<string>, key: string)
    ensures key in BuildMeta(lines) <==> exists i :: 0 <= i < |lines| && Defines(lines[i], key)
    ensures key in BuildMeta(lines) ==>
              exists i :: 0 <= i < |lines| && ParseLine(lines[i]) == Some((key, BuildMeta(lines)[key]))
                          && forall j :: i < j < |lines| ==> !Defines(lines[j], key)
  {
    var ps := seq(|lines|, i requires 0 <= i < |lines| => ParseLine(lines[i]));
    AssignLastWins(ps, key);
    assert forall i :: 0 <= i < |lines| ==> (Binds(ps[i], key) <==> Defines(lines[i], key));
  }

  /**
   `parseFrontMatter`: without front matter, empty meta and the whole text as
   body; with it, the text after the closing "\n---" (less one "\n") as body.
   */
  function ParseFrontMatter(text: string): (r: Parsed)
    ensures Delimit(text).None? ==> r == Parsed(map[], text)
    ensures Delimit(text).Some? ==> r.body == Delimit(text).value.1
  {
    match Delimit(text)
    case None => Parsed(map[], text)
    case Some((header, body)) => Parsed(BuildMeta(Split(header, '\n')), body)
  }

  /** With front matter, the meta is built from the header's lines. */
  lemma ParseFrontMatterMeta(text: string, header: string)
    requires Delimit(text).Some? && Delimit(text).value.0 == header
    ensures ParseFrontMatter(text).meta == BuildMeta(Split(header, '\n'))
  {
  }

  /**
   With front matter, the meta keys are exactly the keys the header's lines
   define, each with the value its last defining line gives it.
   */
  lemma ParseFrontMatterKeys(text: string, header: string, key: string)
    requires Delimit(text).Some? && Delimit(text).value.0 == header
    ensures key in ParseFrontMatter(text).meta <==>
              exists i :: 0 <= i < |Split(header, '\n')| && Defines(Split(header, '\n')[i], key)
    ensures var lines := Split(header, '\n');
            var meta := ParseFrontMatter(text).meta;
            key in meta ==>
              exists i :: && 0 <= i < |lines|
                          && ParseLine(lines[i]) == Some((key, meta[key]))
                          && forall j :: i < j < |lines| ==> !Defines(lines[j], key)
  {
    ParseFrontMatterMeta(text, header);
    BuildMetaLastWins(Split(header, '\n'), key);
  }
}

=== FILE: front_matter_round_trip.dfy ===
/**
 Writing front matter in the subset the client parser supports and parsing
 it back: quoted strings and bracketed lists survive the round trip, and the
 body is recovered exactly.
 */
module FrontMatterRoundTrip {
  import opened Options
  import opened Text
  import opened FrontMatter

  datatype Field = Field(key: string, value: Value)

  /** A key the parser gives back unchanged: no ':' or line break, no outer blanks, not a "---" line. */
  predicate ValidKey(k: string) {
    ':' !in k && '\n' !in k && Trimmed(k) && !StartsWith(k, "---")
  }

  predicate ValidItem(x: string) {
    ',' !in x && '\n' !in x && Trimmed(x)
  }

  /** Values the line format can carry: one-line strings that do not look like lists, non-empty lists. */
  predicate ValidValue(v: Value) {
    match v
    case Str(s) => '\n' !in s && !Bracketed(s)
    case List(items) => |items| >= 1 && forall i :: 0 <= i < |items| ==> ValidItem(items[i])
  }

  predicate ValidFields(fields: seq<Field>) {
    && (forall i :: 0 <= i < |fields| ==> ValidKey(fields[i].key) && ValidValue(fields[i].value))
    && (forall i, j :: 0 <= i < j < |fields| ==> fields[i].key != fields[j].key)
  }

  function RenderValue(v: Value): string {
    match v
    case Str(s) => "\"" + s + "\""
    case List(items) => "[" + Join(items, ",") + "]"
  }

  function RenderLine(f: Field): string {
    f.key + ": " + RenderValue(f.value)
  }

  function RenderLines(fields: seq<Field>): (lines: seq<string>)
    ensures |lines| == |fields|
    ensures forall i :: 0 <= i < |fields| ==> lines[i] == RenderLine(fields[i])
  {
    seq(|fields|, i requires 0 <= i < |fields| => RenderLine(fields[i]))
  }

  /** A document whose front matter holds `fields`, followed by `body`. */
  function Serialize(fields: seq<Field>, body: string): string {
    Opening + Join(RenderLines(fields), "\n") + Closing + "\n" + body
  }

  lemma RenderValueShape(v: Value)
    ensures |RenderValue(v)| >= 2
    ensures Trimmed(RenderValue(v))
    ensures RenderValue(v)[0] == '"' || RenderValue(v)[0] == '['
    ensures ValidValue(v) ==> '\n' !in RenderValue(v)
  {
    var r := RenderValue(v);
    match v
    case Str(s) =>
      assert r[0] == '"' && r[|r| - 1] == '"';
    case List(items) =>
      assert r[0] == '[' && r[|r| - 1] == ']';
      if ValidValue(v) {
        NoCharInJoin(items, ",", '\n');
      }
  }

  lemma {:induction false} NoCharInJoin(parts: seq<string>, sep: string, c: char)
    requires c !in sep
    requires forall i :: 0 <= i < |parts| ==> c !in parts[i]
    ensures c !in Join(parts, sep)
  {
    if |parts| >= 2 {
      NoCharInJoin(parts[1..], sep, c);
    }
  }

  lemma TrimAllTrimmed(items: seq<string>)
    requires forall i :: 0 <= i < |items| ==> Trimmed(items[i])
    ensures TrimAll(items) == items
  {
    forall i | 0 <= i < |items| ensures TrimAll(items)[i] == items[i] {
      TrimTrimmed(items[i]);
    }
  }

  lemma ParseValueRenderList(items: seq<string>)
    requires |items| >= 1 && forall i :: 0 <= i < |items| ==> ValidItem(items[i])
    ensures ParseValue(RenderValue(List(items))) == List(items)
  {
    var j := Join(items, ",");
    ParseValueList(j, false);
    assert RenderValue(List(items)) == "[" + j + "]";
    SplitJoin(items, ',');
    assert Split(j, ',') == items;
    TrimAllTrimmed(items);
  }

  /** Every value the format can carry parses back to itself. */
  lemma ParseValueRender(v: Value)
    requires ValidValue(v)
    ensures ParseValue(RenderValue(v)) == v
  {
    match v
    case Str(s) =>
      assert RenderValue(v) == ['"'] + s + ['"'];
      ParseValueQuoted('"', s);
    case List(items) =>
      ParseValueRenderList(items);
  }

  /** `key: text` parses to the key and the parse of `text`, when neither needs trimming. */
  lemma ParseLineOf(k: string, r: string)
    requires ':' !in k && Trimmed(k) && Trimmed(r) && |r| > 0
    ensures ParseLine(k + ": " + r) == Some((k, ParseValue(r)))
  {
    ColonSpace(k, r);
    ParseLineAtFirstColon(k, " " + r);
    TrimTrimmed(k);
    TrimAfterSpace(r);
  }

  /** The rendered separator is a colon followed by the space `trim` drops. */
  lemma ColonSpace(k: string, r: string)
    ensures k + ": " + r == k + ":" + (" " + r)
  {
    assert ": " == ":" + " ";
  }

  /** The space after the colon is what `trim` removes from the value text. */
  lemma TrimAfterSpace(r: string)
    requires Trimmed(r)
    ensures Trim(" " + r) == r
  {
    TrimPadded(" ", r, "");
    assert " " + r + "" == " " + r;
  }

  /** Every rendered line parses back to its key and value. */
  lemma ParseLineRender(f: Field)
    requires ValidKey(f.key) && ValidValue(f.value)
    ensures ParseLine(RenderLine(f)) == Some((f.key, f.value))
  {
    RenderValueShape(f.value);
    ParseLineOf(f.key, RenderValue(f.value));
    ParseValueRender(f.value);
  }

  /** A line that defines a key does not start with "---". */
  lemma RenderLineStart(f: Field)
    requires ValidKey(f.key)
    ensures |RenderLine(f)| >= 3 && RenderLine(f)[..3] != "---"
  {
    var line := RenderLine(f);
    assert line[|f.key|] == ':';
    if |f.key| >= 3 {
      assert line[..3] == f.key[..3];
    } else {
      assert line[..3][|f.key|] == ':';
    }
  }

  /** "\n---" cannot start inside a line without line breaks. */
  lemma NoClosingInLine(l: string, rest: string, p: nat)
    requires '\n' !in l && p < |l|
    ensures !ClosingAt(l + rest, p)
  {
    var w := l + rest;
    if p + 4 <= |w| {
      assert w[p..p + 4][0] == w[p] == l[p];
    }
  }

  /** "\n---" cannot start at a line break followed by a line not starting with "---". */
  lemma NoClosingAtBreak(l: string, w: string)
    requires |w| >= 3 && w[..3] != "---"
    ensures !ClosingAt(l + "\n" + w, |l|)
  {
    var t := l + "\n" + w;
    assert t[|l|..|l| + 4] == "\n" + w[..3];
    assert t[|l|..|l| + 4][1..] == w[..3];
    assert Closing[1..] == "---";
  }

  /** Past the first line break, "\n---" occurs where it occurs in what follows it. */
  lemma ClosingAfterBreak(l: string, w: string, p: nat)
    requires |l| < p
    ensures ClosingAt(l + "\n" + w, p) <==> ClosingAt(w, p - |l| - 1)
  {
    var t := l + "\n" + w;
    if p + 4 <= |t| {
      assert t[p..p + 4] == w[p - |l| - 1..p - |l| + 3];
    }
  }

  /** In the header followed by the closing "\n---", no earlier "\n---" occurs. */
  lemma {:induction false} NoEarlyClosing(lines: seq<string>)
    requires forall i :: 0 <= i < |lines| ==> '\n' !in lines[i]
    requires forall i :: 0 <= i < |lines| ==> |lines[i]| >= 3 && lines[i][..3] != "---"
    ensures forall p :: 0 <= p < |Join(lines, "\n")| ==> !ClosingAt(Join(lines, "\n") + Closing, p)
  {
    var h := Join(lines, "\n");
    var w := h + Closing;
    if |lines| == 1 {
      forall p | 0 <= p < |h| ensures !ClosingAt(w, p) {
        NoClosingInLine(lines[0], Closing, p);
      }
    } else if |lines| >= 2 {
      var l := lines[0];
      var w' := Join(lines[1..], "\n") + Closing;
      assert w == l + "\n" + w' by {
        JoinFirst(lines, "\n");
      }
      assert |w'| >= 3 && w'[..3] != "---" by {
        JoinStartsWithFirst(lines[1..], "\n");
        assert w'[..3] == lines[1][..3];
      }
      assert forall p :: 0 <= p < |Join(lines[1..], "\n")| ==> !ClosingAt(w', p) by {
        NoEarlyClosing(lines[1..]);
      }
      forall p | 0 <= p < |h| ensures !ClosingAt(w, p) {
        if p < |l| {
          NoClosingInLine(l, "\n" + w', p);
          assert l + "\n" + w' == l + ("\n" + w');
        } else if p == |l| {
          NoClosingAtBreak(l, w');
        } else {
          ClosingAfterBreak(l, w', p);
        }
      }
    }
  }

  /** The four parts of a document made of the opening, a header, the closing and a remainder. */
  lemma DocumentParts(text: string, h: string, rest: string)
    requires text == Opening + h + Closing + rest
    ensures |text| == 8 + |h| + |rest|
    ensures StartsWith(text, Opening)
    ensures text[4..4 + |h|] == h
    ensures ClosingAt(text, 4 + |h|)
    ensures text[8 + |h|..] == rest
  {
    assert text[..4] == Opening;
    assert text[4 + |h|..8 + |h|] == Closing;
  }

  /** The first "\n---" at or after `from`, when none lies between `from` and `k`. */
  lemma FindClosingAt(text: string, from: nat, k: nat)
    requires from <= k && ClosingAt(text, k)
    requires forall j :: from <= j < k ==> !ClosingAt(text, j)
    ensures FindClosing(text, from) == Some(k)
  {
  }

  /**
   A document made of the opening line, a header without "\n---", the
   closing "\n---", a line break and a body delimits into that header and body.
   */
  lemma DelimitComposed(text: string, h: string, body: string)
    requires text == Opening + h + Closing + "\n" + body
    requires forall k :: 4 <= k < 4 + |h| ==> !ClosingAt(text, k)
    ensures Delimit(text) == Some((h, body))
  {
    var k := 4 + |h|;
    assert text == Opening + h + Closing + ("\n" + body);
    DocumentParts(text, h, "\n" + body);
    FindClosingAt(text, 4, k);
    assert DropNewline("\n" + body) == body by {
      assert ("\n" + body)[1..] == body;
    }
  }

  /** The rendered lines are single lines that do not start with "---". */
  lemma LinesShape(fields: seq<Field>)
    requires ValidFields(fields)
    ensures forall i :: 0 <= i < |fields| ==> '\n' !in RenderLines(fields)[i]
    ensures forall i :: 0 <= i < |fields| ==> |RenderLines(fields)[i]| >= 3 && RenderLines(fields)[i][..3] != "---"
  {
    forall i | 0 <= i < |fields|
      ensures '\n' !in RenderLines(fields)[i]
      ensures |RenderLines(fields)[i]| >= 3 && RenderLines(fields)[i][..3] != "---"
    {
      RenderValueShape(fields[i].value);
      RenderLineStart(fields[i]);
    }
  }

  /** No "\n---" in the first `n` positions of `w` means none at 4..4+n after the opening line. */
  lemma ShiftNoClosing(w: string, tail: string, n: nat)
    requires n + 4 <= |w|
    requires forall p :: 0 <= p < n ==> !ClosingAt(w, p)
    ensures forall k :: 4 <= k < 4 + n ==> !ClosingAt(Opening + w + tail, k)
  {
    var text := Opening + w + tail;
    forall k | 4 <= k < 4 + n ensures !ClosingAt(text, k) {
      assert text[k..k + 4] == w[k - 4..k];
      assert !ClosingAt(w, k - 4);
    }
  }

  /** The rendered header contains no "\n---" before the closing one. */
  lemma SerializedHeaderOpen(fields: seq<Field>, body: string)
    requires ValidFields(fields)
    ensures var h := Join(RenderLines(fields), "\n");
            forall k :: 4 <= k < 4 + |h| ==> !ClosingAt(Serialize(fields, body), k)
  {
    var lines := RenderLines(fields);
    var h := Join(lines, "\n");
    LinesShape(fields);
    NoEarlyClosing(lines);
    assert Serialize(fields, body) == Opening + (h + Closing) + ("\n" + body);
    ShiftNoClosing(h + Closing, "\n" + body, |h|);
  }

  /** The serialised document has front matter whose header is exactly the rendered lines. */
  lemma DelimitSerialized(fields: seq<Field>, body: string)
    requires ValidFields(fields)
    ensures Delimit(Serialize(fields, body)) == Some((Join(RenderLines(fields), "\n"), body))
  {
    SerializedHeaderOpen(fields, body);
    DelimitComposed(Serialize(fields, body), Join(RenderLines(fields), "\n"), body);
  }

  /** Assigning pairs with distinct keys binds each key to its own value. */
  lemma AssignDistinctValues(ps: seq<Option<(string, Value)>>, fields: seq<Field>)
    requires |ps| == |fields|
    requires forall i :: 0 <= i < |ps| ==> ps[i] == Some((fields[i].key, fields[i].value))
    requires forall i, j :: 0 <= i < j < |fields| ==> fields[i].key != fields[j].key
    ensures forall i :: 0 <= i < |fields| ==> fields[i].key in Assign(ps) && Assign(ps)[fields[i].key] == fields[i].value
  {
    var m := Assign(ps);
    forall i | 0 <= i < |fields| ensures fields[i].key in m && m[fields[i].key] == fields[i].value {
      var key := fields[i].key;
      AssignLastWins(ps, key);
      assert Binds(ps[i], key);
      var j :| 0 <= j < |ps| && ps[j] == Some((key, m[key]))
               && forall j' :: j < j' < |ps| ==> !Binds(ps[j'], key);
      assert fields[j].key == key;
      assert j == i;
    }
  }

  /** Assigning pairs binds no key that no pair carries. */
  lemma AssignKeys(ps: seq<Option<(string, Value)>>, fields: seq<Field>)
    requires |ps| == |fields|
    requires forall i :: 0 <= i < |ps| ==> ps[i] == Some((fields[i].key, fields[i].value))
    ensures Assign(ps).Keys <= (set i | 0 <= i < |fields| :: fields[i].key)
  {
    forall key | key in Assign(ps) ensures key in (set i | 0 <= i < |fields| :: fields[i].key) {
      AssignLastWins(ps, key);
      var k :| 0 <= k < |ps| && Binds(ps[k], key);
      assert fields[k].key == key;
    }
  }

  /** Assigning pairs with distinct keys binds each key to its own value, and nothing else. */
  lemma AssignDistinct(ps: seq<Option<(string, Value)>>, fields: seq<Field>)
    requires |ps| == |fields|
    requires forall i :: 0 <= i < |ps| ==> ps[i] == Some((fields[i].key, fields[i].value))
    requires forall i, j :: 0 <= i < j < |fields| ==> fields[i].key != fields[j].key
    ensures Assign(ps).Keys == (set i | 0 <= i < |fields| :: fields[i].key)
    ensures forall i :: 0 <= i < |fields| ==> Assign(ps)[fields[i].key] == fields[i].value
  {
    AssignDistinctValues(ps, fields);
    AssignKeys(ps, fields);
  }

  /** The header of a serialised document splits back into its rendered lines. */
  lemma HeaderMeta(fields: seq<Field>)
    requires ValidFields(fields)
    ensures var m := BuildMeta(Split(Join(RenderLines(fields), "\n"), '\n'));
            && m.Keys == (set i | 0 <= i < |fields| :: fields[i].key)
            && forall i :: 0 <= i < |fields| ==> m[fields[i].key] == fields[i].value
  {
    var lines := RenderLines(fields);
    var split := Split(Join(lines, "\n"), '\n');
    if |fields| == 0 {
      assert split == [""];
      assert ParseLine("").None?;
      assert BuildMeta(split) == Assign([None]);
      assert Assign([None]) == Assign<Value>([]);
    } else {
      forall i | 0 <= i < |lines| ensures '\n' !in lines[i] {
        RenderValueShape(fields[i].value);
      }
      SplitJoin(lines, '\n');
      assert ['\n'] == "\n";
      assert split == lines;
      var ps := seq(|lines|, i requires 0 <= i < |lines| => ParseLine(lines[i]));
      forall i | 0 <= i < |ps| ensures ps[i] == Some((fields[i].key, fields[i].value)) {
        ParseLineRender(fields[i]);
      }
      AssignDistinct(ps, fields);
    }
  }

  /**
   Parsing a serialised document gives back every field and the body: the
   keys are exactly the written keys, each bound to its written value.
   */
  lemma RoundTrip(fields: seq<Field>, body: string)
    requires ValidFields(fields)
    ensures var r := ParseFrontMatter(Serialize(fields, body));
            && r.body == body
            && r.meta.Keys == (set i | 0 <= i < |fields| :: fields[i].key)
            && forall i :: 0 <= i < |fields| ==> r.meta[fields[i].key] == fields[i].value
  {
    var h := Join(RenderLines(fields), "\n");
    DelimitSerialized(fields, body);
    ParseFrontMatterMeta(Serialize(fields, body), h);
    HeaderMeta(fields);
  }
}

=== FILE: generate.dfy ===
/**
 `generate_manifest` and `main` (build.rb) end to end: the files read from
 one collection directory, accepted, merged by slug and sorted by
 descending date; and the loop over the two fixed collection directories,
 which stops at the first one whose reading raises.
 */
module Generate {
  import opened Options
  import opened Text
  import opened Yaml
  import opened RbFrontMatter
  import opened SlugLang
  import opened ManifestBuilder
  import opened ManifestSort

  /** A glob result: a file's path and its content. */
  datatype Source = Source(path: string, content: string)

  /**
   The glob loop's reading of one file: a file whose name gives no slug and
   language is skipped unread (its metadata is immaterial), any other goes
   through `parse_front_matter`; `None` when that raises.
   */
  function ReadSource(src: Source, yaml: string -> YamlDoc): (r: Option<FileInput>)
    ensures r.None? <==> ExtractSlugAndLang(src.path).Some? && ParseFrontMatterRb(src.content, yaml).None?
    ensures r.Some? ==> r.value.path == src.path
    ensures r.Some? && ExtractSlugAndLang(src.path).Some? ==> Some(r.value.meta) == ParseFrontMatterRb(src.content, yaml)
    ensures r.Some? && !StartsWith(src.content, "---") ==> Accept(r.value).None?
    ensures r.Some? && |Split3(src.content)| < 3 ==> Accept(r.value).None?
    ensures r.Some? && src.content == "" ==> Accept(r.value).None?
  {
    match ExtractSlugAndLang(src.path)
    case None => Some(FileInput(src.path, map[]))
    case Some(_) =>
      match ParseFrontMatterRb(src.content, yaml)
      case None => None
      case Some(meta) => Some(FileInput(src.path, meta))
  }

  /**
   A file whose split header loads as a mapping with a truthy title and
   date, under a name giving a slug and language, is accepted with that
   slug and language and the mapping's record.
   */
  lemma ReadSourceAccepts(src: Source, yaml: string -> YamlDoc, m: map<string, Yaml>)
    requires StartsWith(src.content, "---") && |Split3(src.content)| == 3
    requires yaml(Split3(src.content)[1]) == Mapping(m) && HasRequired(m)
    requires ExtractSlugAndLang(src.path).Some?
    ensures var r := ReadSource(src, yaml);
            && r.Some?
            && Accept(r.value) == Some(Accepted(ExtractSlugAndLang(src.path).value.0,
                                                ExtractSlugAndLang(src.path).value.1, Normalize(m)))
  {
    ParseMapping(src.content, yaml, m);
    assert ReadSource(src, yaml) == Some(FileInput(src.path, m));
  }

  /**
   The same for a file laid out as an opening "---" line, a header, a
   closing "---" line and a body: the library reads the header between its
   line feeds.
   */
  lemma ReadWellFormedSource(path: string, y: string, body: string, yaml: string -> YamlDoc, m: map<string, Yaml>)
    requires |y| > 0 && !IsRbSpace(y[0]) && NoDashLine(y)
    requires yaml("\n" + y + "\n") == Mapping(m) && HasRequired(m)
    requires ExtractSlugAndLang(path).Some?
    ensures var r := ReadSource(Source(path, "---\n" + y + "\n---\n" + body), yaml);
            && r.Some?
            && Accept(r.value) == Some(Accepted(ExtractSlugAndLang(path).value.0,
                                                ExtractSlugAndLang(path).value.1, Normalize(m)))
  {
    SplitWellFormed(y, body);
    assert StartsWith("---\n" + y + "\n---\n" + body, "---");
    ReadSourceAccepts(Source(path, "---\n" + y + "\n---\n" + body), yaml, m);
  }

  /**
   All glob results of one directory, read in order: `None` when reading
   any of them raises, since the error leaves `generate_manifest` before
   the manifest is written.
   */
  function ReadAll(srcs: seq<Source>, yaml: string -> YamlDoc): (r: Option<seq<FileInput>>)
    ensures r.None? <==> exists i :: 0 <= i < |srcs| && ReadSource(srcs[i], yaml).None?
    ensures r.Some? ==> |r.value| == |srcs| && forall i :: 0 <= i < |srcs| ==> ReadSource(srcs[i], yaml) == Some(r.value[i])
  {
    var read := src => ReadSource(src, yaml);
    assert forall i :: 0 <= i < |srcs| ==> read(srcs[i]) == ReadSource(srcs[i], yaml);
    MapAll(srcs, read)
  }

  /** The `entries` array written to `_manifest.json`, for the glob results `files`. */
  function GenerateManifest(files: seq<FileInput>): (entries: seq<BuiltEntry>)
    ensures SortedDesc(entries)
    ensures multiset(entries) == multiset(MergeAll(AcceptAll(files)))
  {
    SortDesc(MergeAll(AcceptAll(files)))
  }

  /** One entry per slug. */
  lemma GenerateUnique(files: seq<FileInput>)
    ensures SlugsUnique(GenerateManifest(files))
  {
    MergeUnique(AcceptAll(files));
    SortKeepsUnique(MergeAll(AcceptAll(files)));
  }

  /** An output entry is the merged entry for its slug. */
  lemma GeneratedIsMerged(files: seq<FileInput>, e: BuiltEntry)
    requires e in GenerateManifest(files)
    ensures Find(MergeAll(AcceptAll(files)), e.slug) == Some(e)
    ensures MergedFrom(MergeAll(AcceptAll(files)), AcceptAll(files), e.slug)
  {
    var merged := MergeAll(AcceptAll(files));
    assert e in multiset(merged);
    MergeUnique(AcceptAll(files));
    FindMember(merged, e);
    MergeFind(AcceptAll(files), e.slug);
  }

  /**
   Every output entry has at least one record, with distinct languages;
   its sort key is its first record's date, never the "0000-00-00" default;
   and each language holds the record of the last file for it.
   */
  lemma GenerateEntries(files: seq<FileInput>, e: BuiltEntry)
    requires e in GenerateManifest(files)
    ensures |e.langs| >= 1 && LangsUnique(e.langs)
    ensures SortKey(e) == e.langs[0].rec.date
    ensures forall l :: Lookup(e.langs, l) == LastRecord(AcceptAll(files), e.slug, l)
  {
    GeneratedIsMerged(files, e);
  }

  /**
   Each record in the output comes from a glob result whose name gives
   that slug and language and whose front matter has a truthy title and
   date.
   */
  lemma GenerateProvenance(files: seq<FileInput>, e: BuiltEntry, r: LangRecord)
    requires e in GenerateManifest(files) && r in e.langs
    ensures exists i :: 0 <= i < |files| && Accept(files[i]) == Some(Accepted(e.slug, r.lang, r.rec))
                        && HasRequired(files[i].meta)
                        && ExtractSlugAndLang(files[i].path) == Some((e.slug, r.lang))
  {
    var a := Accepted(e.slug, r.lang, r.rec);
    assert LastRecord(AcceptAll(files), e.slug, r.lang) == Some(r.rec) by {
      GenerateEntries(files, e);
      var k :| 0 <= k < |e.langs| && e.langs[k] == r;
      LookupUnique(e.langs, k);
    }
    LastRecordAccepted(AcceptAll(files), e.slug, r.lang, r.rec);
    AcceptedFrom(files, a);
  }

  /** The record `LastRecord` finds is one of the accepted ones. */
  lemma LastRecordAccepted(acc: seq<Accepted>, s: string, l: string, rec: Record)
    requires LastRecord(acc, s, l) == Some(rec)
    ensures Accepted(s, l, rec) in acc
  {
    var j :| 0 <= j < |acc| && acc[j] == Accepted(s, l, rec);
  }

  /** An accepted record names the glob result it was read from. */
  lemma AcceptedFrom(files: seq<FileInput>, a: Accepted)
    requires a in AcceptAll(files)
    ensures exists i :: 0 <= i < |files| && Accept(files[i]) == Some(a)
                        && HasRequired(files[i].meta)
                        && ExtractSlugAndLang(files[i].path) == Some((a.slug, a.lang))
  {
    FilterMapSound(files, Accept, a);
    var i :| 0 <= i < |files| && Accept(files[i]) == Some(a);
  }

  /** With distinct languages the lookup of a record's language finds that record. */
  lemma {:induction false} LookupUnique(langs: seq<LangRecord>, k: nat)
    requires LangsUnique(langs) && k < |langs|
    ensures Lookup(langs, langs[k].lang) == Some(langs[k].rec)
  {
    if k > 0 {
      assert langs[0].lang != langs[k].lang;
      assert LangsUnique(langs[1..]) by {
        assert forall i :: 0 <= i < |langs| - 1 ==> langs[1..][i] == langs[i + 1];
      }
      LookupUnique(langs[1..], k - 1);
    }
  }

  /** Every output slug comes from an accepted glob result. */
  lemma GeneratedSlugAccepted(files: seq<FileInput>, e: BuiltEntry)
    requires e in GenerateManifest(files)
    ensures exists i :: 0 <= i < |files| && Accept(files[i]).Some? && Accept(files[i]).value.slug == e.slug
  {
    var acc := AcceptAll(files);
    GeneratedIsMerged(files, e);
    var j :| 0 <= j < |acc| && acc[j].slug == e.slug;
    AcceptAllMembers(files);
    assert acc[j] in acc;
  }

  /** Every accepted glob result's slug has an output entry. */
  lemma AcceptedSlugGenerated(files: seq<FileInput>, i: nat)
    requires i < |files| && Accept(files[i]).Some?
    ensures exists e :: e in GenerateManifest(files) && e.slug == Accept(files[i]).value.slug
  {
    var acc := AcceptAll(files);
    var a := Accept(files[i]).value;
    AcceptAllMembers(files);
    assert a in acc;
    MergeFind(acc, a.slug);
    var e := Find(MergeAll(acc), a.slug).value;
    assert e in multiset(GenerateManifest(files));
  }

  /** A slug is in the output iff some accepted glob result has it. */
  lemma GenerateSlugs(files: seq<FileInput>, s: string)
    ensures (exists e :: e in GenerateManifest(files) && e.slug == s) <==>
            (exists i :: 0 <= i < |files| && Accept(files[i]).Some? && Accept(files[i]).value.slug == s)
  {
    if exists e :: e in GenerateManifest(files) && e.slug == s {
      var e :| e in GenerateManifest(files) && e.slug == s;
      GeneratedSlugAccepted(files, e);
    }
    if exists i :: 0 <= i < |files| && Accept(files[i]).Some? && Accept(files[i]).value.slug == s {
      var i :| 0 <= i < |files| && Accept(files[i]).Some? && Accept(files[i]).value.slug == s;
      AcceptedSlugGenerated(files, i);
    }
  }

  /** A skipped file (bad name, or no truthy title or date) does not affect the output. */
  lemma SkippedFileDoesNotChangeManifest(files: seq<FileInput>, f: FileInput, k: nat)
    requires k <= |files| && Accept(f).None?
    ensures GenerateManifest(files[..k] + [f] + files[k..]) == GenerateManifest(files)
  {
    SkippedFileIsIrrelevant(files, f, k);
  }

  // ---------------------------------------------------------------- main

  /** `COLLECTIONS`. */
  const Collections: seq<string> := ["pages/blogs", "pages/posts"]

  function OutputPath(dir: string): string {
    dir + "/_manifest.json"
  }

  /** A manifest file written by `main`. */
  datatype Written = Written(path: string, entries: seq<BuiltEntry>)

  /** What `generate_manifest` does for one entry of `COLLECTIONS`. */
  datatype DirResult =
    | Missing              // the directory does not exist: skipped
    | Raises               // reading one of its files raises: nothing written, and the run ends
    | Writes(w: Written)   // its manifest is written

  /**
   The outcome for directory `d`: skipped when `scan` finds no directory,
   raising exactly when one of its files does, and otherwise the manifest
   of its glob results at `<d>/_manifest.json`.
   */
  function Outcome(d: string, scan: string -> Option<seq<Source>>, yaml: string -> YamlDoc): (r: DirResult)
    ensures r == Missing <==> scan(d).None?
    ensures r == Raises <==> scan(d).Some? && exists i :: 0 <= i < |scan(d).value| && ReadSource(scan(d).value[i], yaml).None?
    ensures r.Writes? ==> r.w.path == OutputPath(d)
    ensures r.Writes? ==> exists fs :: && |fs| == |scan(d).value|
                                       && (forall i :: 0 <= i < |fs| ==> ReadSource(scan(d).value[i], yaml) == Some(fs[i]))
                                       && r.w.entries == GenerateManifest(fs)
  {
    match scan(d)
    case None => Missing
    case Some(srcs) =>
      match ReadAll(srcs, yaml)
      case None => Raises
      case Some(files) => Writes(Written(OutputPath(d), GenerateManifest(files)))
  }

  /** How many of `dirs` `main` gets through: those before the first one that raises. */
  function Reached(dirs: seq<string>, out: string -> DirResult): (n: nat)
    ensures n <= |dirs|
    ensures forall i :: 0 <= i < n ==> out(dirs[i]) != Raises
    ensures n < |dirs| ==> out(dirs[n]) == Raises
  {
    if |dirs| == 0 || out(dirs[0]) == Raises then 0
    else 1 + Reached(dirs[1..], out)
  }

  /** What a run of `main` leaves behind: the manifests written, and whether it got to the end. */
  datatype Run = Run(written: seq<Written>, completed: bool)

  /**
   `main`: each existing collection directory gets its manifest and a
   missing one is skipped, until a directory raises: that one gets no
   manifest and the run stops there.
   */
  function BuildAll(scan: string -> Option<seq<Source>>, yaml: string -> YamlDoc): (run: Run)
    ensures var o0 := Outcome(Collections[0], scan, yaml);
            var o1 := Outcome(Collections[1], scan, yaml);
            && (run.completed <==> o0 != Raises && o1 != Raises)
            && (o0 == Raises ==> run.written == [])
            && (o0 != Raises && o1 == Raises ==> run.written == if o0.Writes? then [o0.w] else [])
            && (run.completed ==> forall w :: w in run.written <==> o0 == Writes(w) || o1 == Writes(w))
  {
    var out := d => Outcome(d, scan, yaml);
    BuildTwo(Collections[0], Collections[1], out);
    assert out(Collections[0]) == Outcome(Collections[0], scan, yaml);
    assert out(Collections[1]) == Outcome(Collections[1], scan, yaml);
    BuildDirs(Collections, out)
  }

  /**
   The loop over two directories: it completes unless one raises, writes
   nothing when the first raises, only the first's manifest when the
   second does, and otherwise the manifests of both.
   */
  lemma BuildTwo(d0: string, d1: string, out: string -> DirResult)
    ensures var run := BuildDirs([d0, d1], out);
            && (run.completed <==> out(d0) != Raises && out(d1) != Raises)
            && (out(d0) == Raises ==> run.written == [])
            && (out(d0) != Raises && out(d1) == Raises ==> run.written == if out(d0).Writes? then [out(d0).w] else [])
            && (run.completed ==> forall w :: w in run.written <==> out(d0) == Writes(w) || out(d1) == Writes(w))
  {
    assert [d0, d1][1..] == [d1];
    assert [d1][1..] == [];
  }

  /** The loop of `main` over `dirs`. */
  function BuildDirs(dirs: seq<string>, out: string -> DirResult): (run: Run)
    ensures |run.written| <= Reached(dirs, out)
    ensures run.completed <==> Reached(dirs, out) == |dirs|
  {
    if |dirs| == 0 then Run([], true)
    else
      var rest := BuildDirs(dirs[1..], out);
      match out(dirs[0])
      case Raises => Run([], false)
      case Missing => rest
      case Writes(w) => Run([w] + rest.written, rest.completed)
  }

  /**
   The manifests the loop writes are exactly those of the directories it
   gets through.
   */
  lemma {:induction false} BuildDirsWritten(dirs: seq<string>, out: string -> DirResult, w: Written)
    ensures w in BuildDirs(dirs, out).written <==> exists i :: 0 <= i < Reached(dirs, out) && out(dirs[i]) == Writes(w)
  {
    if |dirs| > 0 && out(dirs[0]) != Raises {
      var tail := dirs[1..];
      var n := Reached(dirs, out);
      assert n == 1 + Reached(tail, out);
      BuildDirsWritten(tail, out, w);
      if w in BuildDirs(tail, out).written {
        var i :| 0 <= i < n - 1 && out(tail[i]) == Writes(w);
        assert tail[i] == dirs[i + 1];
      }
      if exists i :: 0 <= i < n && out(dirs[i]) == Writes(w) {
        var i :| 0 <= i < n && out(dirs[i]) == Writes(w);
        if i > 0 {
          assert tail[i - 1] == dirs[i];
        }
      }
    }
  }
}

=== FILE: lex_order.dfy ===
/**
 Ruby's `String#<=>` on the strings the builder sorts by, and Ruby's
 decimal rendering of integers. Strings are compared code point by code
 point; a proper prefix is smaller. For UTF-8 strings this is the byte
 order Ruby uses, since UTF-8 preserves code-point order.
 */
module LexOrder {

  predicate Less(a: string, b: string) {
    if |a| == 0 then |b| > 0
    else if |b| == 0 then false
    else if a[0] != b[0] then a[0] < b[0]
    else Less(a[1..], b[1..])
  }

  predicate LessEq(a: string, b: string) {
    a == b || Less(a, b)
  }

  lemma {:induction false} LessIrreflexive(a: string)
    ensures !Less(a, a)
  {
    if |a| > 0 {
      LessIrreflexive(a[1..]);
    }
  }

  lemma {:induction false} LessTransitive(a: string, b: string, c: string)
    requires Less(a, b) && Less(b, c)
    ensures Less(a, c)
  {
    if |a| > 0 && |b| > 0 && |c| > 0 && a[0] == b[0] && b[0] == c[0] {
      LessTransitive(a[1..], b[1..], c[1..]);
    }
  }

  lemma {:induction false} LessTotal(a: string, b: string)
    ensures a == b || Less(a, b) || Less(b, a)
  {
    if |a| > 0 && |b| > 0 && a[0] == b[0] {
      LessTotal(a[1..], b[1..]);
      if a[1..] == b[1..] {
        assert a == [a[0]] + a[1..] && b == [b[0]] + b[1..];
      }
    }
  }

  lemma LessAsymmetric(a: string, b: string)
    requires Less(a, b)
    ensures !Less(b, a)
  {
    if Less(b, a) {
      LessTransitive(a, b, a);
      LessIrreflexive(a);
    }
  }

  /** `LessEq` is a total preorder: the facts sorting needs. */
  lemma LessEqTotal(a: string, b: string)
    ensures LessEq(a, b) || LessEq(b, a)
    ensures !LessEq(a, b) ==> Less(b, a)
  {
    LessTotal(a, b);
  }

  lemma LessEqTransitive(a: string, b: string, c: string)
    requires LessEq(a, b) && LessEq(b, c)
    ensures LessEq(a, c)
  {
    if a != b && b != c {
      LessTransitive(a, b, c);
    }
  }

  /** Comparing two concatenations whose first parts have equal length. */
  lemma {:induction false} LessConcat(p: string, x: string, q: string, y: string)
    requires |p| == |q|
    ensures Less(p + x, q + y) <==> Less(p, q) || (p == q && Less(x, y))
  {
    if |p| == 0 {
      assert p + x == x && q + y == y;
    } else {
      assert (p + x)[0] == p[0] && (q + y)[0] == q[0];
      assert (p + x)[1..] == p[1..] + x && (q + y)[1..] == q[1..] + y;
      LessConcat(p[1..], x, q[1..], y);
      if p[0] == q[0] && p[1..] == q[1..] {
        assert p == [p[0]] + p[1..] && q == [q[0]] + q[1..];
      }
      if p == q {
        assert p[1..] == q[1..];
      }
    }
  }

  function Digit(d: nat): (c: char)
    requires d < 10
    ensures '0' <= c <= '9'
  {
    ('0' as int + d) as char
  }

  /** The number a string of decimal digits denotes. */
  function DigitsValue(s: string): nat {
    if |s| == 0 then 0
    else
      var last := s[|s| - 1] as int - '0' as int;
      DigitsValue(s[..|s| - 1]) * 10 + (if 0 <= last then last else 0)
  }

  function Pow10(w: nat): (p: nat)
    ensures p >= 1
  {
    if w == 0 then 1 else 10 * Pow10(w - 1)
  }

  /**
   The decimal digits of `n`, zero-padded on the left to at least `width`
   digits: `Integer#to_s` for width 1, the `%04d`/`%02d` fields of
   `Date#to_s` for widths 4 and 2.
   */
  function Decimal(n: nat, width: nat): (s: string)
    decreases n, width
    ensures |s| >= 1 && |s| >= width
    ensures AllDigits(s)
    ensures DigitsValue(s) == n
    ensures n < Pow10(width) ==> |s| == width || (width == 0 && |s| == 1)
    ensures n >= Pow10(width) ==> s[0] != '0'
  {
    if n < 10 && width <= 1 then [Digit(n)]
    else
      var front := Decimal(n / 10, if width > 0 then width - 1 else 0);
      AppendDigit(front, n);
      Pow10Bound(n, width);
      front + [Digit(n % 10)]
  }

  /** Appending the last digit of `n` to the digits of `n / 10` gives the digits of `n`. */
  lemma AppendDigit(front: string, n: nat)
    requires AllDigits(front) && DigitsValue(front) == n / 10
    ensures AllDigits(front + [Digit(n % 10)])
    ensures DigitsValue(front + [Digit(n % 10)]) == n
  {
    var s := front + [Digit(n % 10)];
    assert s[..|s| - 1] == front;
    LastDigitValue(s);
  }

  /** Dropping the last digit divides the bound by ten. */
  lemma Pow10Bound(n: nat, w: nat)
    ensures n < Pow10(w) && (n >= 10 || w >= 2) ==> w >= 1 && n / 10 < Pow10(w - 1)
    ensures n >= Pow10(w) && (n >= 10 || w >= 2) ==> n / 10 >= Pow10(if w > 0 then w - 1 else 0)
  {
    if w == 0 {
      assert Pow10(0) == 1;
    } else if w == 1 {
      assert Pow10(1) == 10;
    }
  }

  lemma SingleCharLess(c: char, d: char)
    ensures Less([c], [d]) <==> c < d
  {
    assert [c][1..] == [] && [d][1..] == [];
  }

  predicate AllDigits(s: string) {
    forall i :: 0 <= i < |s| ==> '0' <= s[i] <= '9'
  }

  /** Place value: a higher leading part wins, then the last digit decides. */
  lemma PlaceValueOrder(x: int, y: int, c: int, d: int)
    requires 0 <= c < 10 && 0 <= d < 10
    ensures 10 * x + c < 10 * y + d <==> x < y || (x == y && c < d)
    ensures 10 * x + c == 10 * y + d <==> x == y && c == d
  {
  }

  lemma FrontLast(s: string)
    requires |s| > 0
    ensures s == s[..|s| - 1] + [s[|s| - 1]]
  {
  }

  /** The value of a string ending in a digit: ten times the front, plus that digit. */
  lemma LastDigitValue(s: string)
    requires |s| > 0 && '0' <= s[|s| - 1] <= '9'
    ensures DigitsValue(s) == 10 * DigitsValue(s[..|s| - 1]) + (s[|s| - 1] as int - '0' as int)
  {
  }

  /** The last digit of a digit string and the digits before it. */
  lemma DigitsSplit(s: string)
    requires |s| > 0 && AllDigits(s)
    ensures AllDigits(s[..|s| - 1])
    ensures DigitsValue(s) == 10 * DigitsValue(s[..|s| - 1]) + (s[|s| - 1] as int - '0' as int)
  {
    var n := |s| - 1;
    assert DigitsValue(s) == 10 * DigitsValue(s[..n]) + (s[n] as int - '0' as int) by {
      assert '0' <= s[n] <= '9';
      LastDigitValue(s);
    }
    assert AllDigits(s[..n]) by {
      assert forall i :: 0 <= i < n ==> s[..n][i] == s[i];
    }
  }

  /** Equal-length digit strings denoting the same number are equal. */
  lemma {:induction false} DigitsInjective(s: string, t: string)
    requires |s| == |t| && AllDigits(s) && AllDigits(t)
    ensures DigitsValue(s) == DigitsValue(t) <==> s == t
  {
    if |s| > 0 && DigitsValue(s) == DigitsValue(t) {
      var n := |s| - 1;
      DigitsSplit(s);
      DigitsSplit(t);
      var x, y := DigitsValue(s[..n]), DigitsValue(t[..n]);
      var c, d := s[n] as int - '0' as int, t[n] as int - '0' as int;
      assert x == y && c == d by {
        PlaceValueOrder(x, y, c, d);
      }
      DigitsInjective(s[..n], t[..n]);
      assert s[n] == t[n];
    }
  }

  /** Equal-length digit strings compare as the numbers they denote. */
  lemma {:induction false} DigitsOrder(s: string, t: string)
    requires |s| == |t| && AllDigits(s) && AllDigits(t)
    ensures Less(s, t) <==> DigitsValue(s) < DigitsValue(t)
  {
    if |s| > 0 {
      var n := |s| - 1;
      DigitsSplit(s);
      DigitsSplit(t);
      DigitsOrder(s[..n], t[..n]);
      DigitsInjective(s[..n], t[..n]);
      SingleCharLess(s[n], t[n]);
      assert Less(s, t) <==> Less(s[..n], t[..n]) || (s[..n] == t[..n] && Less([s[n]], [t[n]])) by {
        FrontLast(s);
        FrontLast(t);
        LessConcat(s[..n], [s[n]], t[..n], [t[n]]);
      }
      PlaceValueOrder(DigitsValue(s[..n]), DigitsValue(t[..n]), s[n] as int - '0' as int, t[n] as int - '0' as int);
    }
  }

  /** Decimal strings of one width are equal exactly when the numbers are. */
  lemma DecimalInjective(x: nat, y: nat, w: nat)
    ensures Decimal(x, w) == Decimal(y, w) <==> x == y
  {
    if Decimal(x, w) == Decimal(y, w) {
      assert DigitsValue(Decimal(x, w)) == DigitsValue(Decimal(y, w));
    }
  }

  /** Fixed-width decimal strings compare as the numbers they denote. */
  lemma DecimalOrder(a: nat, b: nat, w: nat)
    requires 1 <= w && a < Pow10(w) && b < Pow10(w)
    ensures Less(Decimal(a, w), Decimal(b, w)) <==> a < b
  {
    DigitsOrder(Decimal(a, w), Decimal(b, w));
  }
}

=== FILE: manifest.dfy ===
/**
 The client's view of a collection's `_manifest.json` (app.js): entries
 with per-language metadata, lookup of an entry by slug, the metadata
 preference chain and the "both languages" check behind the toggle.
 */
module Manifest {
  import opened Options
  import opened SiteConfig

  datatype EntryMeta = EntryMeta(title: string, date: string, excerpt: string,
                                 tags: Option<seq<string>>, cover: Option<string>)

  /** A manifest entry; `langs` maps a language code to its record. */
  datatype Entry = Entry(slug: string, langs: map<string, EntryMeta>)

  datatype Manifest = Manifest(entries: seq<Entry>)

  /** What a failed manifest fetch leaves behind: `{ entries: [] }`. */
  const EmptyManifest := Manifest([])

  /** `manifest.entries.find(e => e.slug === slug)`: the first entry with that slug. */
  function FindEntry(entries: seq<Entry>, slug: string): (r: Option<Entry>)
    ensures r.None? <==> forall i :: 0 <= i < |entries| ==> entries[i].slug != slug
    ensures r.Some? ==> exists i :: 0 <= i < |entries| && entries[i] == r.value && entries[i].slug == slug
                                    && forall j :: 0 <= j < i ==> entries[j].slug != slug
  {
    if |entries| == 0 then None
    else if entries[0].slug == slug then Some(entries[0])
    else
      var r := FindEntry(entries[1..], slug);
      assert forall i :: 1 <= i < |entries| ==> entries[i] == entries[1..][i - 1];
      r
  }

  /** The languages `getEntryMeta` tries, in order. */
  function Preference(lang: string): seq<string> {
    [lang, Ar, En]
  }

  /**
   `entry.langs[lang] || entry.langs.ar || entry.langs.en || null`: the
   record of the first language of `Preference(lang)` the entry has.
   */
  function GetEntryMeta(e: Entry, lang: string): (r: Option<EntryMeta>)
    ensures r.None? <==> forall k :: 0 <= k < 3 ==> Preference(lang)[k] !in e.langs
    ensures r.Some? ==> exists k :: 0 <= k < 3 && Preference(lang)[k] in e.langs
                                    && r.value == e.langs[Preference(lang)[k]]
                                    && forall j :: 0 <= j < k ==> Preference(lang)[j] !in e.langs
  {
    assert Preference(lang)[0] == lang && Preference(lang)[1] == Ar && Preference(lang)[2] == En;
    if lang in e.langs then Some(e.langs[lang])
    else if Ar in e.langs then Some(e.langs[Ar])
    else if En in e.langs then Some(e.langs[En])
    else None
  }

  /** An entry with a record for the requested language is shown in that language. */
  lemma GetEntryMetaOwnLanguage(e: Entry, lang: string)
    requires lang in e.langs
    ensures GetEntryMeta(e, lang) == Some(e.langs[lang])
  {
  }

  /** An entry with an "ar" or "en" record always yields some metadata. */
  lemma GetEntryMetaPresent(e: Entry, lang: string)
    requires Ar in e.langs || En in e.langs
    ensures GetEntryMeta(e, lang).Some?
  {
    assert Preference(lang)[1] == Ar && Preference(lang)[2] == En;
  }

  /** `entryHasBothLangs`: false without a manifest or an entry with that slug. */
  function EntryHasBothLangs(manifests: map<string, Manifest>, coll: string, slug: string): (r: bool)
    ensures r <==> coll in manifests
                   && exists i :: 0 <= i < |manifests[coll].entries|
                                  && manifests[coll].entries[i].slug == slug
                                  && (forall j :: 0 <= j < i ==> manifests[coll].entries[j].slug != slug)
                                  && Ar in manifests[coll].entries[i].langs
                                  && En in manifests[coll].entries[i].langs
  {
    coll in manifests &&
    match FindEntry(manifests[coll].entries, slug)
    case None => false
    case Some(e) => Ar in e.langs && En in e.langs
  }

  /** Where the client looks for a collection's manifest. */
  function ManifestUrl(coll: string): string {
    "pages/" + coll + "/_manifest.json"
  }

  /** A manifest fetch that fails (network error, non-2xx, bad JSON) yields the empty manifest. */
  function LoadManifest(fetched: Option<Manifest>): (m: Manifest)
    ensures fetched.None? ==> m.entries == []
    ensures fetched.Some? ==> m == fetched.value
  {
    fetched.GetOr(EmptyManifest)
  }

  /**
   The `manifests` object after `detectAvailableFiles`: one manifest per
   configured collection, fetched through `fetch`.
   */
  function DetectManifests(cols: seq<CollectionConfig>, fetch: string -> Option<Manifest>): (r: map<string, Manifest>)
    ensures forall s :: s in r <==> exists i :: 0 <= i < |cols| && cols[i].slug == s
    ensures forall s :: s in r ==> r[s] == LoadManifest(fetch(ManifestUrl(s)))
  {
    map c | c in (set i | 0 <= i < |cols| :: cols[i].slug) :: LoadManifest(fetch(ManifestUrl(c)))
  }
}

=== FILE: manifest_builder.dfy ===
/**
 The filter, normalise and merge steps of `generate_manifest` (build.rb):
 files whose name does not parse or whose front matter lacks a truthy
 title or date are skipped; the others are merged by slug into an
 insertion-ordered table of entries, each an insertion-ordered table of
 per-language records.
 */
module ManifestBuilder {
  import opened Options
  import opened Yaml
  import opened SlugLang

  /** One glob result: its path and the metadata `parse_front_matter` returned for it. */
  datatype FileInput = FileInput(path: string, meta: map<string, Yaml>)

  /** A normalised per-language record, as written to the manifest. */
  datatype Record = Record(title: string, date: string, excerpt: string,
                           tags: Option<seq<string>>, cover: Option<string>)

  /** `meta[key]`: a missing key reads as nil. */
  function Get(meta: map<string, Yaml>, key: string): Yaml {
    if key in meta then meta[key] else YNil
  }

  function MapToS(items: seq<Yaml>): (r: seq<string>)
    ensures |r| == |items| && forall i :: 0 <= i < |items| ==> r[i] == ToS(items[i])
  {
    if |items| == 0 then [] else [ToS(items[0])] + MapToS(items[1..])
  }

  /** The record literal of build.rb: stringify title and date, default the excerpt, check tags, keep a nil cover. */
  function Normalize(meta: map<string, Yaml>): (r: Record)
    ensures r.title == ToS(Get(meta, "title")) && r.date == ToS(Get(meta, "date"))
    ensures !Truthy(Get(meta, "excerpt")) ==> r.excerpt == ""
    ensures Truthy(Get(meta, "excerpt")) ==> r.excerpt == ToS(Get(meta, "excerpt"))
    ensures r.tags.Some? <==> Get(meta, "tags").YSeq?
    ensures r.tags.Some? ==> |r.tags.value| == |Get(meta, "tags").items|
                             && forall i :: 0 <= i < |r.tags.value| ==> r.tags.value[i] == ToS(Get(meta, "tags").items[i])
    ensures r.cover.None? <==> Get(meta, "cover") == YNil
    ensures r.cover.Some? ==> r.cover.value == ToS(Get(meta, "cover"))
  {
    var excerpt := if Truthy(Get(meta, "excerpt")) then Get(meta, "excerpt") else YStr("");
    var tags := Get(meta, "tags");
    var cover := Get(meta, "cover");
    Record(ToS(Get(meta, "title")), ToS(Get(meta, "date")), ToS(excerpt),
           if tags.YSeq? then Some(MapToS(tags.items)) else None,
           if cover.YNil? then None else Some(ToS(cover)))
  }

  /** `meta['title'] && meta['date']`. */
  predicate HasRequired(meta: map<string, Yaml>) {
    Truthy(Get(meta, "title")) && Truthy(Get(meta, "date"))
  }

  /** A file that passed both checks. */
  datatype Accepted = Accepted(slug: string, lang: string, rec: Record)

  /** The body of the glob loop up to the merge: `None` for a skipped file. */
  function Accept(f: FileInput): (r: Option<Accepted>)
    ensures r.Some? <==> ExtractSlugAndLang(f.path).Some? && HasRequired(f.meta)
    ensures r.Some? ==> (r.value.slug, r.value.lang) == ExtractSlugAndLang(f.path).value
                        && r.value.rec == Normalize(f.meta)
  {
    match ExtractSlugAndLang(f.path)
    case None => None
    case Some((slug, lang)) =>
      if HasRequired(f.meta) then Some(Accepted(slug, lang, Normalize(f.meta))) else None
  }

  /** The accepted files, in glob order. */
  function AcceptAll(files: seq<FileInput>): (acc: seq<Accepted>)
    ensures |acc| <= |files|
  {
    FilterMap(files, Accept)
  }

  /** Exactly the records of the files `Accept` keeps are accepted. */
  lemma AcceptAllMembers(files: seq<FileInput>)
    ensures forall a :: a in AcceptAll(files) ==> exists i :: 0 <= i < |files| && Accept(files[i]) == Some(a)
    ensures forall i :: 0 <= i < |files| && Accept(files[i]).Some? ==> Accept(files[i]).value in AcceptAll(files)
  {
    forall a | a in AcceptAll(files) ensures exists i :: 0 <= i < |files| && Accept(files[i]) == Some(a) {
      FilterMapSound(files, Accept, a);
    }
    forall i | 0 <= i < |files| && Accept(files[i]).Some? ensures Accept(files[i]).value in AcceptAll(files) {
      FilterMapComplete(files, Accept, i);
    }
  }

  /** A skipped file, wherever it sits in the glob order, does not change what is accepted. */
  lemma SkippedFileIsIrrelevant(files: seq<FileInput>, f: FileInput, k: nat)
    requires k <= |files| && Accept(f).None?
    ensures AcceptAll(files[..k] + [f] + files[k..]) == AcceptAll(files)
  {
    FilterMapSkip(files, f, Accept, k);
  }

  // ---------------------------------------------------------------- merging

  /** One language's record inside an entry. */
  datatype LangRecord = LangRecord(lang: string, rec: Record)

  /** An entry of the manifest: its slug and its records in insertion order. */
  datatype BuiltEntry = BuiltEntry(slug: string, langs: seq<LangRecord>)

  /** The record stored under `lang`: the hash lookup `langs[lang]`. */
  function Lookup(langs: seq<LangRecord>, lang: string): (r: Option<Record>)
    ensures r.None? <==> forall i :: 0 <= i < |langs| ==> langs[i].lang != lang
    ensures r.Some? ==> exists i :: 0 <= i < |langs| && langs[i] == LangRecord(lang, r.value)
  {
    if |langs| == 0 then None
    else if langs[0].lang == lang then Some(langs[0].rec)
    else
      var r := Lookup(langs[1..], lang);
      assert forall i :: 1 <= i < |langs| ==> langs[i] == langs[1..][i - 1];
      r
  }

  /** No language appears twice. */
  predicate LangsUnique(langs: seq<LangRecord>) {
    forall i, j :: 0 <= i < j < |langs| ==> langs[i].lang != langs[j].lang
  }

  /**
   `langs[lang] = rec` on a Ruby hash: an existing key keeps its place and
   gets the new value, a new key goes at the end.
   */
  function Put(langs: seq<LangRecord>, lang: string, rec: Record): (r: seq<LangRecord>)
    ensures |r| >= 1 && r[0].lang == (if |langs| == 0 then lang else langs[0].lang)
    ensures Lookup(r, lang) == Some(rec)
    ensures forall l :: l != lang ==> Lookup(r, l) == Lookup(langs, l)
  {
    if |langs| == 0 then [LangRecord(lang, rec)]
    else if langs[0].lang == lang then [LangRecord(lang, rec)] + langs[1..]
    else
      var rest := Put(langs[1..], lang, rec);
      var r := [langs[0]] + rest;
      assert r[1..] == rest;
      r
  }

  /** A record whose language the rest lacks can go in front. */
  lemma ConsLangsUnique(x: LangRecord, rest: seq<LangRecord>)
    requires LangsUnique(rest) && Lookup(rest, x.lang).None?
    ensures LangsUnique([x] + rest)
  {
    var r := [x] + rest;
    assert forall i :: 1 <= i < |r| ==> r[i] == rest[i - 1];
  }

  /** Dropping the head keeps the languages distinct, and the head's is not among the rest. */
  lemma TailLangsUnique(langs: seq<LangRecord>)
    requires LangsUnique(langs) && |langs| > 0
    ensures LangsUnique(langs[1..]) && Lookup(langs[1..], langs[0].lang).None?
  {
    assert forall i :: 1 <= i < |langs| ==> langs[i] == langs[1..][i - 1];
  }

  /** Assigning a key never duplicates one. */
  lemma {:induction false} PutUnique(langs: seq<LangRecord>, lang: string, rec: Record)
    requires LangsUnique(langs)
    ensures LangsUnique(Put(langs, lang, rec))
  {
    if |langs| > 0 {
      TailLangsUnique(langs);
      if langs[0].lang != lang {
        PutUnique(langs[1..], lang, rec);
        ConsLangsUnique(langs[0], Put(langs[1..], lang, rec));
      } else {
        ConsLangsUnique(LangRecord(lang, rec), langs[1..]);
      }
    }
  }

  /** The entry with slug `s`, if any. */
  function Find(entries: seq<BuiltEntry>, s: string): (r: Option<BuiltEntry>)
    ensures r.None? <==> forall i :: 0 <= i < |entries| ==> entries[i].slug != s
    ensures r.Some? ==> r.value.slug == s && r.value in entries
  {
    if |entries| == 0 then None
    else if entries[0].slug == s then Some(entries[0])
    else
      var r := Find(entries[1..], s);
      assert forall i :: 1 <= i < |entries| ==> entries[i] == entries[1..][i - 1];
      r
  }

  /** No slug appears twice. */
  predicate SlugsUnique(entries: seq<BuiltEntry>) {
    forall i, j :: 0 <= i < j < |entries| ==> entries[i].slug != entries[j].slug
  }

  /** `entries[slug] ||= …` followed by the record assignment. */
  function Upsert(entries: seq<BuiltEntry>, a: Accepted): (r: seq<BuiltEntry>)
    ensures Find(r, a.slug).Some?
    ensures Find(r, a.slug).value.langs ==
              Put(if Find(entries, a.slug).Some? then Find(entries, a.slug).value.langs else [], a.lang, a.rec)
    ensures forall s :: s != a.slug ==> Find(r, s) == Find(entries, s)
  {
    if |entries| == 0 then
      FindCons(BuiltEntry(a.slug, Put([], a.lang, a.rec)), [], a.slug);
      [BuiltEntry(a.slug, Put([], a.lang, a.rec))]
    else if entries[0].slug == a.slug then
      var e := entries[0].(langs := Put(entries[0].langs, a.lang, a.rec));
      FindCons(e, entries[1..], a.slug);
      FindConsOthers(e, entries[0], entries[1..]);
      [e] + entries[1..]
    else
      var rest := Upsert(entries[1..], a);
      FindCons(entries[0], rest, a.slug);
      FindConsOthers(entries[0], entries[0], rest);
      FindConsOthers(entries[0], entries[0], entries[1..]);
      [entries[0]] + rest
  }

  /** Looking a slug up in a sequence with a known head. */
  lemma FindCons(x: BuiltEntry, rest: seq<BuiltEntry>, s: string)
    ensures Find([x] + rest, s) == if x.slug == s then Some(x) else Find(rest, s)
  {
    assert ([x] + rest)[1..] == rest;
  }

  /** Two heads with the same slug: the other slugs are looked up in the rest, the head's finds the head. */
  lemma FindConsOthers(x: BuiltEntry, y: BuiltEntry, rest: seq<BuiltEntry>)
    requires x.slug == y.slug
    ensures forall t :: t != x.slug ==> Find([x] + rest, t) == Find(rest, t)
    ensures Find([y] + rest, y.slug) == Some(y)
  {
    assert ([x] + rest)[1..] == rest;
    assert ([y] + rest)[1..] == rest;
  }

  /** An entry whose slug the rest lacks can go in front. */
  lemma ConsSlugsUnique(x: BuiltEntry, rest: seq<BuiltEntry>)
    requires SlugsUnique(rest) && Find(rest, x.slug).None?
    ensures SlugsUnique([x] + rest)
  {
    var r := [x] + rest;
    assert forall i :: 1 <= i < |r| ==> r[i] == rest[i - 1];
  }

  /** Dropping the head keeps the slugs distinct, and the head's is not among the rest. */
  lemma TailSlugsUnique(entries: seq<BuiltEntry>)
    requires SlugsUnique(entries) && |entries| > 0
    ensures SlugsUnique(entries[1..]) && Find(entries[1..], entries[0].slug).None?
  {
    assert forall i :: 1 <= i < |entries| ==> entries[i] == entries[1..][i - 1];
  }

  /** Merging one more file never duplicates a slug. */
  lemma {:induction false} UpsertUnique(entries: seq<BuiltEntry>, a: Accepted)
    requires SlugsUnique(entries)
    ensures SlugsUnique(Upsert(entries, a))
  {
    if |entries| > 0 {
      TailSlugsUnique(entries);
      if entries[0].slug != a.slug {
        UpsertUnique(entries[1..], a);
        ConsSlugsUnique(entries[0], Upsert(entries[1..], a));
      } else {
        ConsSlugsUnique(entries[0].(langs := Put(entries[0].langs, a.lang, a.rec)), entries[1..]);
      }
    }
  }

  /** The `entries` hash after the glob loop. */
  function MergeAll(acc: seq<Accepted>): seq<BuiltEntry> {
    if |acc| == 0 then []
    else Upsert(MergeAll(acc[..|acc| - 1]), acc[|acc| - 1])
  }

  // ---------------------------------------------------------------- what the merge computes

  /** The language of the first accepted file with slug `s`: the entry's first-inserted language. */
  function FirstLang(acc: seq<Accepted>, s: string): (r: Option<string>)
    ensures r.None? <==> forall i :: 0 <= i < |acc| ==> acc[i].slug != s
    ensures r.Some? ==> exists i :: 0 <= i < |acc| && acc[i].slug == s && acc[i].lang == r.value
                                    && forall j :: 0 <= j < i ==> acc[j].slug != s
  {
    if |acc| == 0 then None
    else if acc[0].slug == s then Some(acc[0].lang)
    else
      var r := FirstLang(acc[1..], s);
      assert forall i :: 1 <= i < |acc| ==> acc[i] == acc[1..][i - 1];
      r
  }

  /** The record of the last accepted file with slug `s` and language `l`: later files overwrite. */
  function LastRecord(acc: seq<Accepted>, s: string, l: string): (r: Option<Record>)
    ensures r.None? <==> forall i :: 0 <= i < |acc| ==> !(acc[i].slug == s && acc[i].lang == l)
    ensures r.Some? ==> exists i :: 0 <= i < |acc| && acc[i] == Accepted(s, l, r.value)
                                    && forall j :: i < j < |acc| ==> !(acc[j].slug == s && acc[j].lang == l)
  {
    if |acc| == 0 then None
    else
      var n := |acc| - 1;
      if acc[n].slug == s && acc[n].lang == l then Some(acc[n].rec)
      else
        var r := LastRecord(acc[..n], s, l);
        assert forall i :: 0 <= i < n ==> acc[i] == acc[..n][i];
        LastRecordStep(acc, acc[..n], s, l, r);
        r
  }

  /** A record that is the last for `s` and `l` in all files but the last, which differs, is the last overall. */
  lemma LastRecordStep(acc: seq<Accepted>, front: seq<Accepted>, s: string, l: string, r: Option<Record>)
    requires |acc| > 0 && front == acc[..|acc| - 1] && !(acc[|acc| - 1].slug == s && acc[|acc| - 1].lang == l)
    requires r.Some? ==> exists i :: 0 <= i < |front| && front[i] == Accepted(s, l, r.value)
                                     && forall j :: i < j < |front| ==> !(front[j].slug == s && front[j].lang == l)
    ensures r.Some? ==> exists i :: 0 <= i < |acc| && acc[i] == Accepted(s, l, r.value)
                                    && forall j :: i < j < |acc| ==> !(acc[j].slug == s && acc[j].lang == l)
  {
    if r.Some? {
      var n := |acc| - 1;
      var i :| 0 <= i < n && front[i] == Accepted(s, l, r.value)
               && forall j :: i < j < n ==> !(front[j].slug == s && front[j].lang == l);
      assert acc[i] == front[i];
      forall j | i < j < |acc| ensures !(acc[j].slug == s && acc[j].lang == l) {
        if j < n {
          assert acc[j] == front[j];
        }
      }
    }
  }

  /** The first file with slug `s` decides the first language. */
  lemma {:induction false} FirstLangAt(acc: seq<Accepted>, s: string, i: nat)
    requires i < |acc| && acc[i].slug == s
    requires forall j :: 0 <= j < i ==> acc[j].slug != s
    ensures FirstLang(acc, s) == Some(acc[i].lang)
  {
    if i > 0 {
      assert acc[0].slug != s;
      assert forall j :: 0 <= j < i - 1 ==> acc[1..][j] == acc[j + 1];
      FirstLangAt(acc[1..], s, i - 1);
    }
  }

  /** Dropping the last file: how the first language changes. */
  lemma FirstLangStep(acc: seq<Accepted>, s: string)
    requires |acc| > 0
    ensures var n := |acc| - 1;
            FirstLang(acc, s) == (if FirstLang(acc[..n], s).Some? then FirstLang(acc[..n], s)
                                  else if acc[n].slug == s then Some(acc[n].lang) else None)
  {
    var front := acc[..|acc| - 1];
    if FirstLang(front, s).Some? {
      FirstLangKeep(acc, front, s);
    } else {
      FirstLangLast(acc, front, s);
    }
  }

  /** A slug already in the front keeps its first language. */
  lemma FirstLangKeep(acc: seq<Accepted>, front: seq<Accepted>, s: string)
    requires |acc| > 0 && front == acc[..|acc| - 1] && FirstLang(front, s).Some?
    ensures FirstLang(acc, s) == FirstLang(front, s)
  {
    var i := FirstLangIndex(front, s);
    assert forall j :: 0 <= j <= i ==> acc[j] == front[j];
    FirstLangAt(acc, s, i);
  }

  /** A slug absent from the front takes the language of the last file, if that has the slug. */
  lemma FirstLangLast(acc: seq<Accepted>, front: seq<Accepted>, s: string)
    requires |acc| > 0 && front == acc[..|acc| - 1] && FirstLang(front, s).None?
    ensures FirstLang(acc, s) == if acc[|acc| - 1].slug == s then Some(acc[|acc| - 1].lang) else None
  {
    var n := |acc| - 1;
    assert forall j :: 0 <= j < n ==> acc[j] == front[j];
    if acc[n].slug == s {
      FirstLangAt(acc, s, n);
    }
  }

  /** The index of the first file with slug `s`. */
  lemma FirstLangIndex(acc: seq<Accepted>, s: string) returns (i: nat)
    requires FirstLang(acc, s).Some?
    ensures i < |acc| && acc[i].slug == s && acc[i].lang == FirstLang(acc, s).value
    ensures forall j :: 0 <= j < i ==> acc[j].slug != s
  {
    i :| 0 <= i < |acc| && acc[i].slug == s && acc[i].lang == FirstLang(acc, s).value
         && forall j :: 0 <= j < i ==> acc[j].slug != s;
  }

  /** Dropping the last file: how the first language and the last records change. */
  lemma ReferenceStep(acc: seq<Accepted>, s: string, l: string)
    requires |acc| > 0
    ensures var n := |acc| - 1;
            && FirstLang(acc, s) == (if FirstLang(acc[..n], s).Some? then FirstLang(acc[..n], s)
                                     else if acc[n].slug == s then Some(acc[n].lang) else None)
            && LastRecord(acc, s, l) == (if acc[n].slug == s && acc[n].lang == l then Some(acc[n].rec)
                                         else LastRecord(acc[..n], s, l))
  {
    FirstLangStep(acc, s);
  }

  /**
   What the table `entries`, built from the files `acc`, holds for slug
   `s`: an entry iff some file has that slug; its records keyed by distinct
   languages, the first being the language of the first such file, and
   each language mapped to the record of the last file with that slug and
   language.
   */
  ghost predicate MergedFrom(entries: seq<BuiltEntry>, acc: seq<Accepted>, s: string) {
    && (Find(entries, s).None? <==> FirstLang(acc, s).None?)
    && (Find(entries, s).Some? ==>
          var langs := Find(entries, s).value.langs;
          && |langs| >= 1
          && langs[0].lang == FirstLang(acc, s).value
          && LangsUnique(langs)
          && forall l :: Lookup(langs, l) == LastRecord(acc, s, l))
  }

  /** A file with another slug leaves the slug's entry alone. */
  lemma UpsertOtherSlug(entries: seq<BuiltEntry>, acc: seq<Accepted>, s: string)
    requires |acc| > 0 && acc[|acc| - 1].slug != s
    requires MergedFrom(entries, acc[..|acc| - 1], s)
    ensures MergedFrom(Upsert(entries, acc[|acc| - 1]), acc, s)
  {
    forall l ensures LastRecord(acc, s, l) == LastRecord(acc[..|acc| - 1], s, l) {
      ReferenceStep(acc, s, l);
    }
    ReferenceStep(acc, s, "");
  }

  /** The first file with a slug creates its entry with a single record. */
  lemma UpsertNewSlug(entries: seq<BuiltEntry>, acc: seq<Accepted>, s: string)
    requires |acc| > 0 && acc[|acc| - 1].slug == s
    requires MergedFrom(entries, acc[..|acc| - 1], s) && FirstLang(acc[..|acc| - 1], s).None?
    ensures MergedFrom(Upsert(entries, acc[|acc| - 1]), acc, s)
  {
    var n := |acc| - 1;
    var a := acc[n];
    PutUnique([], a.lang, a.rec);
    ReferenceStep(acc, s, "");
    forall l ensures Lookup(Find(Upsert(entries, a), s).value.langs, l) == LastRecord(acc, s, l) {
      ReferenceStep(acc, s, l);
    }
  }

  /** A later file with a known slug puts its record into the existing entry. */
  lemma UpsertKnownSlug(entries: seq<BuiltEntry>, acc: seq<Accepted>, s: string)
    requires |acc| > 0 && acc[|acc| - 1].slug == s
    requires MergedFrom(entries, acc[..|acc| - 1], s) && FirstLang(acc[..|acc| - 1], s).Some?
    ensures MergedFrom(Upsert(entries, acc[|acc| - 1]), acc, s)
  {
    var n := |acc| - 1;
    var a := acc[n];
    PutUnique(Find(entries, s).value.langs, a.lang, a.rec);
    ReferenceStep(acc, s, "");
    forall l ensures Lookup(Find(Upsert(entries, a), s).value.langs, l) == LastRecord(acc, s, l) {
      ReferenceStep(acc, s, l);
    }
  }

  /** The merged table holds, for every slug, what `MergedFrom` describes. */
  lemma {:induction false} MergeFind(acc: seq<Accepted>, s: string)
    ensures MergedFrom(MergeAll(acc), acc, s)
  {
    if |acc| > 0 {
      var n := |acc| - 1;
      MergeFind(acc[..n], s);
      if acc[n].slug != s {
        UpsertOtherSlug(MergeAll(acc[..n]), acc, s);
      } else if FirstLang(acc[..n], s).None? {
        UpsertNewSlug(MergeAll(acc[..n]), acc, s);
      } else {
        UpsertKnownSlug(MergeAll(acc[..n]), acc, s);
      }
    }
  }

  /** The merge never produces two entries with the same slug. */
  lemma {:induction false} MergeUnique(acc: seq<Accepted>)
    ensures SlugsUnique(MergeAll(acc))
  {
    if |acc| > 0 {
      MergeUnique(acc[..|acc| - 1]);
      UpsertUnique(MergeAll(acc[..|acc| - 1]), acc[|acc| - 1]);
    }
  }

  /** In a table with distinct slugs an entry is what looking up its slug finds. */
  lemma {:induction false} FindMember(entries: seq<BuiltEntry>, e: BuiltEntry)
    requires SlugsUnique(entries) && e in entries
    ensures Find(entries, e.slug) == Some(e)
  {
    if entries[0] != e {
      assert e in entries[1..];
      var i :| 0 <= i < |entries| && entries[i] == e;
      assert entries[0].slug != entries[i].slug;
      FindMember(entries[1..], e);
    }
  }
}

=== FILE: manifest_sort.dfy ===
/**
 The ordering step of `generate_manifest` (build.rb): entries sorted by the
 date string of their first-inserted language (default "0000-00-00"),
 then reversed, so that later dates come first. Ruby's `sort_by` is not
 stable, so only the order of the keys and the permutation are fixed; the
 insertion sort below is one admissible outcome.
 */
module ManifestSort {
  import opened LexOrder
  import opened ManifestBuilder

  const DefaultDate := "0000-00-00"

  /** `entry['langs'].values.first&.dig('date') || '0000-00-00'`. */
  function SortKey(e: BuiltEntry): string {
    if |e.langs| > 0 then e.langs[0].rec.date else DefaultDate
  }

  /** Non-increasing in the sort key. */
  predicate SortedDesc(s: seq<BuiltEntry>) {
    forall i, j :: 0 <= i < j < |s| ==> LessEq(SortKey(s[j]), SortKey(s[i]))
  }

  /** The index of the first element whose key `x`'s key is not below. */
  function InsertPos(x: BuiltEntry, s: seq<BuiltEntry>): (p: nat)
    ensures p <= |s|
    ensures forall j :: 0 <= j < p ==> !LessEq(SortKey(s[j]), SortKey(x))
    ensures p < |s| ==> LessEq(SortKey(s[p]), SortKey(x))
  {
    if |s| == 0 then 0
    else if LessEq(SortKey(s[0]), SortKey(x)) then 0
    else
      var p := InsertPos(x, s[1..]);
      assert forall j :: 1 <= j < |s| ==> s[j] == s[1..][j - 1];
      1 + p
  }

  /** Put `x` before the first element whose key it is not below. */
  function InsertDesc(x: BuiltEntry, s: seq<BuiltEntry>): (r: seq<BuiltEntry>)
    ensures multiset(r) == multiset(s) + multiset{x}
  {
    var p := InsertPos(x, s);
    assert s == s[..p] + s[p..];
    s[..p] + [x] + s[p..]
  }

  /** Inserting into a sorted sequence keeps it sorted. */
  lemma InsertSorted(x: BuiltEntry, s: seq<BuiltEntry>)
    requires SortedDesc(s)
    ensures SortedDesc(InsertDesc(x, s))
  {
    var p := InsertPos(x, s);
    var r := InsertDesc(x, s);
    assert forall i :: 0 <= i < p ==> r[i] == s[i];
    assert r[p] == x;
    assert forall i :: p < i < |r| ==> r[i] == s[i - 1];
    forall i, j | 0 <= i < j < |r| ensures LessEq(SortKey(r[j]), SortKey(r[i])) {
      if j < p || i > p {
      } else if j == p {
        LessEqTotal(SortKey(s[i]), SortKey(x));
      } else if i == p {
        LessEqTransitive(SortKey(s[j - 1]), SortKey(s[p]), SortKey(x));
      }
    }
  }

  /** `sort_by { … }.reverse`, up to the order of equal keys. */
  function SortDesc(s: seq<BuiltEntry>): (r: seq<BuiltEntry>)
    ensures SortedDesc(r)
    ensures multiset(r) == multiset(s)
  {
    if |s| == 0 then []
    else
      assert s == [s[0]] + s[1..];
      var rest := SortDesc(s[1..]);
      InsertSorted(s[0], rest);
      InsertDesc(s[0], rest)
  }

  /** Inserting an entry whose slug is new keeps slugs distinct. */
  lemma InsertKeepsUnique(x: BuiltEntry, s: seq<BuiltEntry>, k: nat)
    requires SlugsUnique(s) && k <= |s|
    requires forall i :: 0 <= i < |s| ==> s[i].slug != x.slug
    ensures SlugsUnique(s[..k] + [x] + s[k..])
  {
    var r := s[..k] + [x] + s[k..];
    assert forall i :: 0 <= i < k ==> r[i] == s[i];
    assert forall i :: k < i < |r| ==> r[i] == s[i - 1];
  }

  /** Every sorted entry is one of the input entries. */
  lemma SortedFrom(s: seq<BuiltEntry>, i: nat)
    requires i < |SortDesc(s)|
    ensures SortDesc(s)[i] in s
  {
    assert SortDesc(s)[i] in multiset(SortDesc(s));
  }

  /** Sorting keeps slugs distinct. */
  lemma {:induction false} SortKeepsUnique(s: seq<BuiltEntry>)
    requires SlugsUnique(s)
    ensures SlugsUnique(SortDesc(s))
  {
    if |s| > 0 {
      var tail := s[1..];
      assert SlugsUnique(tail) by {
        assert forall i :: 0 <= i < |tail| ==> tail[i] == s[i + 1];
      }
      SortKeepsUnique(tail);
      var sorted := SortDesc(tail);
      forall i | 0 <= i < |sorted| ensures sorted[i].slug != s[0].slug {
        SortedFrom(tail, i);
        var j :| 0 <= j < |tail| && tail[j] == sorted[i];
        assert tail[j] == s[j + 1];
      }
      InsertKeepsUnique(s[0], sorted, InsertPos(s[0], sorted));
    }
  }
}

=== FILE: options.dfy ===
/** Optional values: the model's stand-in for JavaScript's null/undefined and Ruby's nil. */
module Options {

  datatype Option<+T> = None | Some(value: T) {

    /** The carried value, or `default` when there is none. */
    function GetOr(default: T): T {
      match this
      case Some(v) => v
      case None => default
    }
  }

  /** The values `f` yields for the elements of `xs`, in order, skipping `None`. */
  function FilterMap<A, B>(xs: seq<A>, f: A -> Option<B>): (ys: seq<B>)
    ensures |ys| <= |xs|
  {
    if |xs| == 0 then []
    else
      var front := FilterMap(xs[..|xs| - 1], f);
      match f(xs[|xs| - 1])
      case None => front
      case Some(y) => front + [y]
  }

  /** Every value kept comes from some element. */
  lemma {:induction false} FilterMapSound<A, B>(xs: seq<A>, f: A -> Option<B>, y: B)
    requires y in FilterMap(xs, f)
    ensures exists i :: 0 <= i < |xs| && f(xs[i]) == Some(y)
  {
    var n := |xs| - 1;
    var front := xs[..n];
    if y in FilterMap(front, f) {
      FilterMapSound(front, f, y);
      var i :| 0 <= i < |front| && f(front[i]) == Some(y);
      assert xs[i] == front[i];
    }
  }

  /** Every value some element yields is kept. */
  lemma {:induction false} FilterMapComplete<A, B>(xs: seq<A>, f: A -> Option<B>, i: nat)
    requires i < |xs| && f(xs[i]).Some?
    ensures f(xs[i]).value in FilterMap(xs, f)
  {
    var n := |xs| - 1;
    if i < n {
      var front := xs[..n];
      assert front[i] == xs[i];
      FilterMapComplete(front, f, i);
    }
  }

  /** The value at each position of the result comes from some element. */
  lemma FilterMapSoundAt<A, B>(xs: seq<A>, f: A -> Option<B>, k: nat)
    requires k < |FilterMap(xs, f)|
    ensures exists i :: 0 <= i < |xs| && f(xs[i]) == Some(FilterMap(xs, f)[k])
  {
    FilterMapSound(xs, f, FilterMap(xs, f)[k]);
  }

  /**
   The result keeps the order of the elements: of two kept values, the
   earlier one comes from an earlier element.
   */
  lemma {:induction false} FilterMapInOrder<A, B>(xs: seq<A>, f: A -> Option<B>, a: nat, b: nat)
    requires a < b < |FilterMap(xs, f)|
    ensures exists i, j :: 0 <= i < j < |xs| && f(xs[i]) == Some(FilterMap(xs, f)[a]) && f(xs[j]) == Some(FilterMap(xs, f)[b])
  {
    var n := |xs| - 1;
    var front := xs[..n];
    var ys := FilterMap(xs, f);
    var fs := FilterMap(front, f);
    if b < |fs| {
      assert ys[a] == fs[a] && ys[b] == fs[b];
      FilterMapInOrder(front, f, a, b);
      var i, j :| 0 <= i < j < |front| && f(front[i]) == Some(fs[a]) && f(front[j]) == Some(fs[b]);
      assert xs[i] == front[i] && xs[j] == front[j];
    } else {
      assert ys == fs + [ys[b]] && b == n - (n - |fs|) && a < |fs|;
      FilterMapSoundAt(front, f, a);
      var i :| 0 <= i < |front| && f(front[i]) == Some(fs[a]);
      assert xs[i] == front[i];
      assert f(xs[n]) == Some(ys[b]);
    }
  }

  /** Soundness, completeness and order of `FilterMap`, for every position at once. */
  lemma FilterMapFacts<A, B>(xs: seq<A>, f: A -> Option<B>)
    ensures forall k :: 0 <= k < |FilterMap(xs, f)| ==> exists i :: 0 <= i < |xs| && f(xs[i]) == Some(FilterMap(xs, f)[k])
    ensures forall i :: 0 <= i < |xs| && f(xs[i]).Some? ==> f(xs[i]).value in FilterMap(xs, f)
    ensures forall a, b :: 0 <= a < b < |FilterMap(xs, f)| ==>
              exists i, j :: 0 <= i < j < |xs| && f(xs[i]) == Some(FilterMap(xs, f)[a]) && f(xs[j]) == Some(FilterMap(xs, f)[b])
  {
    var ys := FilterMap(xs, f);
    forall k | 0 <= k < |ys|
      ensures exists i :: 0 <= i < |xs| && f(xs[i]) == Some(ys[k])
    {
      FilterMapSoundAt(xs, f, k);
    }
    forall i | 0 <= i < |xs| && f(xs[i]).Some? {
      FilterMapComplete(xs, f, i);
    }
    forall a, b | 0 <= a < b < |ys|
      ensures exists i, j :: 0 <= i < j < |xs| && f(xs[i]) == Some(ys[a]) && f(xs[j]) == Some(ys[b])
    {
      FilterMapInOrder(xs, f, a, b);
    }
  }

  /** Elements yielding `None` can be dropped anywhere without changing the result. */
  lemma {:induction false} FilterMapSkip<A, B>(xs: seq<A>, x: A, f: A -> Option<B>, k: nat)
    requires k <= |xs| && f(x).None?
    ensures FilterMap(xs[..k] + [x] + xs[k..], f) == FilterMap(xs, f)
    decreases |xs|
  {
    var with := xs[..k] + [x] + xs[k..];
    if k == |xs| {
      assert with[..|with| - 1] == xs;
    } else {
      FilterMapSkip(xs[..|xs| - 1], x, f, k);
      assert with[..|with| - 1] == xs[..|xs| - 1][..k] + [x] + xs[..|xs| - 1][k..];
      assert with[|with| - 1] == xs[|xs| - 1];
    }
  }

  /** `f` applied to every element, or `None` when it gives `None` for any of them. */
  function MapAll<A, B>(xs: seq<A>, f: A -> Option<B>): (r: Option<seq<B>>)
    ensures r.None? <==> exists i :: 0 <= i < |xs| && f(xs[i]).None?
    ensures r.Some? ==> |r.value| == |xs| && forall i :: 0 <= i < |xs| ==> f(xs[i]) == Some(r.value[i])
  {
    if |xs| == 0 then Some([])
    else
      match f(xs[0])
      case None => None
      case Some(y) =>
        match MapAll(xs[1..], f)
        case None => None
        case Some(ys) => Some([y] + ys)
  }

  /** Two elements that both yield a value. */
  lemma FilterMapPair<A, B>(xs: seq<A>, f: A -> Option<B>, a: B, b: B)
    requires |xs| == 2 && f(xs[0]) == Some(a) && f(xs[1]) == Some(b)
    ensures FilterMap(xs, f) == [a, b]
  {
    assert xs[..1][..0] == [];
    assert FilterMap(xs[..1], f) == [a];
  }
}

=== FILE: page_cache.dfy ===
/**
 The markdown cache behind `fetchMd` (app.js): a page is fetched at most
 once per session under the key `path.lang`, and a failed fetch is
 remembered as null just like a successful one is remembered as its text.
 */
module PageCache {
  import opened Options

  /** `pageCache`: a missing key is `undefined`, a `None` value is a cached `null`. */
  type Cache = map<string, Option<string>>

  function Key(path: string, lang: string): string {
    path + "." + lang
  }

  /** The URL `fetchMd` requests for a key. */
  function KeyUrl(key: string): string {
    "pages/" + key + ".md"
  }

  function Url(path: string, lang: string): (u: string)
    ensures u == KeyUrl(Key(path, lang))
  {
    "pages/" + path + "." + lang + ".md"
  }

  datatype Fetched = Fetched(text: Option<string>, cache: Cache)

  /**
   `fetchMd(path, lang)` with the network as the oracle `fetch`, which
   yields `None` for a failed request or a non-2xx response.
   */
  function FetchMd(cache: Cache, fetch: string -> Option<string>, path: string, lang: string): (r: Fetched)
    ensures Key(path, lang) in r.cache && r.cache[Key(path, lang)] == r.text
    ensures forall k :: k != Key(path, lang) ==> (k in r.cache <==> k in cache)
    ensures forall k :: k != Key(path, lang) && k in cache ==> r.cache[k] == cache[k]
    ensures Key(path, lang) in cache ==> r == Fetched(cache[Key(path, lang)], cache)
    ensures Key(path, lang) !in cache ==> r.text == fetch(Url(path, lang))
  {
    var key := Key(path, lang);
    if key in cache then Fetched(cache[key], cache)
    else
      var text := fetch(Url(path, lang));
      Fetched(text, cache[key := text])
  }

  /** Every cached value is what the oracle answers for its key. */
  predicate Consistent(cache: Cache, fetch: string -> Option<string>) {
    forall k :: k in cache ==> cache[k] == fetch(KeyUrl(k))
  }

  /**
   With a consistent cache the memoised answer is the oracle's answer, and
   the cache stays consistent.
   */
  lemma FetchMdConsistent(cache: Cache, fetch: string -> Option<string>, path: string, lang: string)
    requires Consistent(cache, fetch)
    ensures FetchMd(cache, fetch, path, lang).text == fetch(Url(path, lang))
    ensures Consistent(FetchMd(cache, fetch, path, lang).cache, fetch)
  {
  }

  /** Asking twice gives the same answer and leaves the cache as the first call left it. */
  lemma FetchMdIdempotent(cache: Cache, fetch: string -> Option<string>, path: string, lang: string)
    ensures var r := FetchMd(cache, fetch, path, lang);
            FetchMd(r.cache, fetch, path, lang) == r
  {
  }

  /** A cached failure is returned without fetching again, even if the page would now load. */
  lemma CachedFailureSticks(cache: Cache, fetch: string -> Option<string>, path: string, lang: string)
    requires Key(path, lang) in cache && cache[Key(path, lang)].None?
    ensures FetchMd(cache, fetch, path, lang).text.None?
  {
  }
}

=== FILE: rb_front_matter.dfy ===
/**
 The builder's `parse_front_matter` (build.rb): the guards around the YAML
 library, and Ruby's `content.split(/^---\s*$/, 3)` that cuts the header
 out. The YAML library is an oracle from the header text to a document.
 */
module RbFrontMatter {
  import opened Options
  import opened Text
  import opened Yaml

  /** Ruby's `\s`: space, tab, line feed, vertical tab, form feed, carriage return. */
  predicate IsRbSpace(c: char) {
    c == ' ' || c == '\t' || c == '\n' || c == '\U{000B}' || c == '\U{000C}' || c == '\r'
  }

  /** Ruby's `^`: the start of the string or just after a line feed. */
  predicate LineStart(s: string, i: nat)
    requires i <= |s|
  {
    i == 0 || s[i - 1] == '\n'
  }

  /** Ruby's `$`: the end of the string or just before a line feed. */
  predicate LineEnd(s: string, p: nat)
    requires p <= |s|
  {
    p == |s| || s[p] == '\n'
  }

  /** `^---\s*$` matches `s[i..p]`. */
  predicate Delimiter(s: string, i: nat, p: nat) {
    && i + 3 <= p <= |s|
    && LineStart(s, i)
    && s[i..i + 3] == "---"
    && (forall k :: i + 3 <= k < p ==> IsRbSpace(s[k]))
    && LineEnd(s, p)
  }

  /** The end of the run of whitespace starting at `j`. */
  function SpaceRunEnd(s: string, j: nat): (k: nat)
    requires j <= |s|
    decreases |s| - j
    ensures j <= k <= |s|
    ensures forall m :: j <= m < k ==> IsRbSpace(s[m])
    ensures k < |s| ==> !IsRbSpace(s[k])
  {
    if j < |s| && IsRbSpace(s[j]) then SpaceRunEnd(s, j + 1) else j
  }

  /** The last line end in `[lo, hi]`. */
  function LastLineEnd(s: string, lo: nat, hi: nat): (r: Option<nat>)
    requires lo <= hi <= |s|
    decreases hi - lo
    ensures r.None? ==> forall p :: lo <= p <= hi ==> !LineEnd(s, p)
    ensures r.Some? ==> lo <= r.value <= hi && LineEnd(s, r.value)
                        && forall p :: r.value < p <= hi ==> !LineEnd(s, p)
  {
    if LineEnd(s, hi) then Some(hi)
    else if hi == lo then None
    else LastLineEnd(s, lo, hi - 1)
  }

  /**
   Where a match of `^---\s*$` starting at `i` ends: the greedy `\s*`
   gives back characters until `$` holds, so the match is the longest one.
   */
  function MatchAt(s: string, i: nat): (r: Option<nat>)
    requires i <= |s|
    ensures r.None? ==> forall p :: !Delimiter(s, i, p)
    ensures r.Some? ==> Delimiter(s, i, r.value) && forall p :: r.value < p <= |s| ==> !Delimiter(s, i, p)
  {
    if i + 3 <= |s| && LineStart(s, i) && s[i..i + 3] == "---" then
      var k := SpaceRunEnd(s, i + 3);
      var r := LastLineEnd(s, i + 3, k);
      assert forall p: nat :: Delimiter(s, i, p) ==> p <= k;
      r
    else None
  }

  /** The first match at or after `from`, as its start and end. */
  function FindDelimiter(s: string, from: nat): (r: Option<(nat, nat)>)
    requires from <= |s|
    decreases |s| - from
    ensures r.None? ==> forall i :: from <= i <= |s| ==> MatchAt(s, i).None?
    ensures r.Some? ==> from <= r.value.0 <= |s| && MatchAt(s, r.value.0) == Some(r.value.1)
                        && forall i :: from <= i < r.value.0 ==> MatchAt(s, i).None?
  {
    match MatchAt(s, from)
    case Some(e) => Some((from, e))
    case None => if from == |s| then None else FindDelimiter(s, from + 1)
  }

  /**
   `content.split(/^---\s*$/, 3)`: at most two cuts; the third part is the rest.
   Without a delimiter the content is the only part; otherwise the first part
   runs up to the first delimiter, and the next part starts where that
   delimiter's match ends and runs up to the next delimiter or to the end.
   */
  function Split3(s: string): (parts: seq<string>)
    ensures 1 <= |parts| <= 3
    ensures |parts| == 1 <==> forall i :: 0 <= i <= |s| ==> MatchAt(s, i).None?
    ensures |parts| == 1 ==> parts[0] == s
    ensures |parts| >= 2 ==>
              && |parts[0]| <= |s| && parts[0] == s[..|parts[0]|]
              && MatchAt(s, |parts[0]|).Some?
              && forall i :: 0 <= i < |parts[0]| ==> MatchAt(s, i).None?
    ensures |parts| == 2 ==>
              var e1 := MatchAt(s, |parts[0]|).value;
              && parts[1] == s[e1..]
              && forall i :: e1 <= i <= |s| ==> MatchAt(s, i).None?
  {
    match FindDelimiter(s, 0)
    case None => [s]
    case Some((b1, e1)) =>
      assert Delimiter(s, b1, e1);
      match FindDelimiter(s, e1)
      case None => [s[..b1], s[e1..]]
      case Some((b2, e2)) =>
        assert Delimiter(s, b2, e2);
        assert |s[e1..b2]| == b2 - e1;
        [s[..b1], s[e1..b2], s[e2..]]
  }

  /**
   With a first delimiter matched at `b1..e1` and the next one at `b2..e2`,
   the three parts are the text before the first, the text between them
   and everything after the second.
   */
  lemma Split3Cuts(s: string, b1: nat, e1: nat, b2: nat, e2: nat)
    requires b1 <= e1 <= b2 <= |s|
    requires MatchAt(s, b1) == Some(e1) && forall i :: 0 <= i < b1 ==> MatchAt(s, i).None?
    requires MatchAt(s, b2) == Some(e2) && forall i :: e1 <= i < b2 ==> MatchAt(s, i).None?
    ensures Split3(s) == [s[..b1], s[e1..b2], s[e2..]]
  {
    FindDelimiterAt(s, 0, b1);
    FindDelimiterAt(s, e1, b2);
  }

  /** What `YAML.safe_load` makes of the header. */
  datatype YamlDoc =
    | SyntaxError            // Psych::SyntaxError: rescued, the file gets no metadata
    | Raised                 // any other load error (a Time or Symbol outside the permitted classes, an alias): not rescued
    | Empty                  // a document that loads as nil or false
    | Mapping(m: map<string, Yaml>)

  /**
   `parse_front_matter` on a file's content: `Some(meta)` when it returns,
   `None` when the YAML library raises an error the `rescue` does not catch,
   so that it propagates out of the builder.
   */
  function ParseFrontMatterRb(content: string, yaml: string -> YamlDoc): (r: Option<map<string, Yaml>>)
    ensures !StartsWith(content, "---") ==> r == Some(map[])
    ensures StartsWith(content, "---") && |Split3(content)| < 3 ==> r == Some(map[])
    ensures StartsWith(content, "---") && |Split3(content)| == 3 ==>
              match yaml(Split3(content)[1])
              case Mapping(m) => r == Some(m)
              case Raised => r.None?
              case _ => r == Some(map[])
  {
    if !StartsWith(content, "---") then Some(map[])
    else
      var parts := Split3(content);
      if |parts| < 3 then Some(map[])
      else match yaml(parts[1])
        case Mapping(m) => Some(m)
        case Raised => None
        case _ => Some(map[])
  }

  /** A header that loads as a mapping is the file's metadata. */
  lemma ParseMapping(content: string, yaml: string -> YamlDoc, m: map<string, Yaml>)
    requires StartsWith(content, "---") && |Split3(content)| == 3 && yaml(Split3(content)[1]) == Mapping(m)
    ensures ParseFrontMatterRb(content, yaml) == Some(m)
  {
  }

  /** Line `i` of `y` starts with three dashes. */
  predicate DashLineAt(y: string, i: nat) {
    i + 3 <= |y| && (i == 0 || y[i - 1] == '\n') && y[i..i + 3] == "---"
  }

  /** No line of `y` starts with three dashes. */
  predicate NoDashLine(y: string) {
    forall i: nat :: i + 3 <= |y| ==> !DashLineAt(y, i)
  }

  /** The opening line "---" followed by a non-blank line ends right before that line feed. */
  lemma OpeningMatch(s: string, rest: string)
    requires s == "---\n" + rest && |rest| > 0 && !IsRbSpace(rest[0])
    ensures MatchAt(s, 0) == Some(3)
  {
    assert s[0..3] == "---";
    assert s[4] == rest[0];
    assert SpaceRunEnd(s, 3) == 4 by {
      assert IsRbSpace(s[3]);
    }
  }

  /** Inside the header no delimiter starts. */
  lemma NoMatchInHeader(s: string, y: string, rest: string, i: nat)
    requires s == "---\n" + y + "\n" + rest && NoDashLine(y)
    requires 3 <= i <= 4 + |y|
    ensures MatchAt(s, i).None?
  {
    if i == 3 {
      assert s[2] == '-';
    } else if i + 3 <= 4 + |y| {
      var j := i - 4;
      assert y[j..j + 3] == s[i..i + 3];
      assert j == 0 || y[j - 1] == s[i - 1];
      assert !DashLineAt(y, j);
    } else if i + 3 <= |s| {
      assert s[4 + |y|] == '\n';
      assert s[i..i + 3][4 + |y| - i] == s[4 + |y|];
    }
  }

  /** The first delimiter at or after `from` is the first position where one matches. */
  lemma FindDelimiterAt(s: string, from: nat, b: nat)
    requires from <= b <= |s|
    requires forall i :: from <= i < b ==> MatchAt(s, i).None?
    requires MatchAt(s, b).Some?
    ensures FindDelimiter(s, from) == Some((b, MatchAt(s, b).value))
  {
  }

  /** A line "---" right after the header's closing line feed is a delimiter. */
  lemma ClosingMatch(s: string, y: string, body: string)
    requires s == "---\n" + y + "\n---\n" + body
    ensures MatchAt(s, 5 + |y|).Some?
  {
    var i := 5 + |y|;
    assert s[i - 1] == '\n';
    assert s[i..i + 3] == "---";
    assert s[i + 3] == '\n';
    assert Delimiter(s, i, i + 3);
  }

  /** The opening "---" line is the first delimiter. */
  lemma FirstDelimiter(y: string, body: string)
    requires |y| > 0 && !IsRbSpace(y[0])
    ensures FindDelimiter("---\n" + y + "\n---\n" + body, 0) == Some((0, 3))
  {
    var s := "---\n" + y + "\n---\n" + body;
    OpeningMatch(s, y + "\n---\n" + body);
    FindDelimiterAt(s, 0, 0);
  }

  /** The closing "---" line is the next delimiter after the opening one. */
  lemma SecondDelimiter(y: string, body: string)
    requires NoDashLine(y)
    ensures var r := FindDelimiter("---\n" + y + "\n---\n" + body, 3);
            r.Some? && r.value.0 == 5 + |y|
  {
    var s := "---\n" + y + "\n---\n" + body;
    var b2 := 5 + |y|;
    assert s == "---\n" + y + "\n" + ("---\n" + body);
    forall i | 3 <= i < b2 ensures MatchAt(s, i).None? {
      NoMatchInHeader(s, y, "---\n" + body, i);
    }
    ClosingMatch(s, y, body);
    FindDelimiterAt(s, 3, b2);
  }

  /**
   For a file made of an opening "---" line, a header without "---" lines
   that does not start with whitespace (which the opening match would
   swallow), a closing "---" line and a body, the split's middle part is
   the header between its surrounding line feeds.
   */
  lemma SplitWellFormed(y: string, body: string)
    requires |y| > 0 && !IsRbSpace(y[0]) && NoDashLine(y)
    ensures var s := "---\n" + y + "\n---\n" + body;
            |Split3(s)| == 3 && Split3(s)[0] == "" && Split3(s)[1] == "\n" + y + "\n"
  {
    var s := "---\n" + y + "\n---\n" + body;
    FirstDelimiter(y, body);
    SecondDelimiter(y, body);
    assert s[3..5 + |y|] == "\n" + y + "\n";
  }

  /** Such a file's metadata is whatever the YAML library reads from that header. */
  lemma ParseWellFormed(y: string, body: string, yaml: string -> YamlDoc)
    requires |y| > 0 && !IsRbSpace(y[0]) && NoDashLine(y)
    ensures var r := ParseFrontMatterRb("---\n" + y + "\n---\n" + body, yaml);
            match yaml("\n" + y + "\n")
            case Mapping(m) => r == Some(m)
            case Raised => r.None?
            case _ => r == Some(map[])
  {
    SplitWellFormed(y, body);
    assert StartsWith("---\n" + y + "\n---\n" + body, "---");
  }

  /** An opening line without a closing one gives two parts, hence no metadata. */
  lemma UnclosedHasNoMeta(y: string, yaml: string -> YamlDoc)
    requires |y| > 0 && !IsRbSpace(y[0]) && NoDashLine(y)
    ensures |Split3("---\n" + y + "\n")| == 2
    ensures ParseFrontMatterRb("---\n" + y + "\n", yaml) == Some(map[])
  {
    var s := "---\n" + y + "\n";
    OpeningMatch(s, y + "\n");
    assert s == "---\n" + y + "\n" + "";
    forall i | 3 <= i <= |s| ensures MatchAt(s, i).None? {
      if i <= 4 + |y| {
        NoMatchInHeader(s, y, "", i);
      }
    }
    FindDelimiterAt(s, 0, 0);
    assert StartsWith(s, "---");
  }
}

=== FILE: renderers.dfy ===
/**
 The session state and the three renderers of app.js, reduced to their
 decisions: which language a page is shown in (and whether that choice is
 persisted), which content is fetched, which outcome is rendered, whether
 the language toggle is shown and which navigation links appear.
 */
module Renderers {
  import opened Options
  import opened Text
  import opened SiteConfig
  import opened Availability
  import opened Manifest
  import opened Router
  import opened PageCache
  import opened FrontMatter

  /**
   `localStorage`: whether `getItem` and `setItem` succeed (either can
   throw on its own, as a disabled store or a full quota does), and the
   saved `lang` item.
   */
  datatype Storage = Storage(readable: bool, writable: bool, saved: Option<string>)

  /** The mutable globals `currentLang`, the stored preference and `pageCache`. */
  datatype Session = Session(lang: string, storage: Storage, cache: Cache)

  /** What start-up computes once: the configuration, `availableFiles` and `manifests`. */
  datatype Site = Site(config: Config, avail: map<string, Langs>, manifests: map<string, Manifest>)

  /** The state after `detectAvailableFiles`, with `fetch` answering manifest requests. */
  function LoadSite(config: Config, fetch: string -> Option<Manifest>): (site: Site)
    ensures site.config == config
    ensures forall s :: HasPage(site.avail, s, Ar) || HasPage(site.avail, s, En) ==>
              exists i :: 0 <= i < |config.pages| && config.pages[i].slug == s
    ensures forall i :: 0 <= i < |config.collections| ==> config.collections[i].slug in site.manifests
  {
    DetectKeys(config.pages);
    Site(config, Detect(config.pages), DetectManifests(config.collections, fetch))
  }

  /**
   `currentLang` after start-up: the saved preference when there is a
   non-empty one, else the configured default; if storage cannot be read
   the initial 'ar' stays.
   */
  function InitialLang(defaultLang: string, storage: Storage): (lang: string)
    ensures !storage.readable ==> lang == Ar
    ensures storage.readable && storage.saved.Some? && storage.saved.value != "" ==> lang == storage.saved.value
    ensures storage.readable && (storage.saved.None? || storage.saved.value == "") ==> lang == defaultLang
  {
    if !storage.readable then Ar
    else if storage.saved.Some? && storage.saved.value != "" then storage.saved.value
    else defaultLang
  }

  /** `try { localStorage.setItem('lang', lang) } catch {}`. */
  function Persist(storage: Storage, lang: string): (r: Storage)
    ensures r.readable == storage.readable && r.writable == storage.writable
    ensures storage.writable ==> r.saved == Some(lang)
    ensures !storage.writable ==> r == storage
  {
    if storage.writable then storage.(saved := Some(lang)) else storage
  }

  /** A persisted choice is the language the next visit starts in. */
  lemma PersistThenInitial(defaultLang: string, storage: Storage, lang: string)
    requires storage.readable && storage.writable && lang != ""
    ensures InitialLang(defaultLang, Persist(storage, lang)) == lang
  {
  }

  /** `setLang`: the toggle buttons' handler (the re-route that follows is a separate step). */
  function SetLang(s: Session, lang: string): (r: Session)
    ensures r.lang == lang && r.cache == s.cache
    ensures r.storage == Persist(s.storage, lang)
  {
    Session(lang, Persist(s.storage, lang), s.cache)
  }

  /** A navigation link: target slug, caption (possibly a null label) and the `active` class. */
  datatype NavItem = NavItem(slug: string, caption: Option<string>, active: bool)

  /** The language toggle: shown or hidden, and which of its two buttons is active. */
  datatype Toggle = Toggle(visible: bool, arActive: bool, enActive: bool)

  /** A listing row: the entry's link and the metadata shown for it. */
  datatype ListItem = ListItem(href: string, meta: EntryMeta)

  /** What ends up in the content area. */
  datatype Screen =
    | PageNotFound(lang: string)
    | StaticView(lang: string, markdown: string)
    | CollectionNotFound
    | ListingView(lang: string, title: string, cards: bool, items: seq<ListItem>)
    | EntryNotFound(lang: string, backLabel: string)
    | EntryView(lang: string, backLabel: string, title: string, meta: map<string, Value>, body: string)

  /** `!md`: a failed fetch (null) and an empty file both count as missing. */
  predicate Missing(md: Option<string>) {
    md.None? || md.value == ""
  }

  /**
   The language a renderer falls back to: unchanged when `keep` holds,
   switched and persisted otherwise.
   */
  function Fallback(s: Session, keep: bool): (r: Session)
    ensures keep ==> r == s
    ensures !keep ==> r.lang == OtherLang(s.lang) && r.storage == Persist(s.storage, r.lang) && r.cache == s.cache
  {
    if keep then s else SetLang(s, OtherLang(s.lang))
  }

  // ---------------------------------------------------------------- static pages

  /** `renderStaticPage(slug)`: returns the new session and the rendered screen. */
  function RenderStaticPage(site: Site, s: Session, fetch: string -> Option<string>, slug: string): (r: (Session, Screen))
    ensures HasPage(site.avail, slug, s.lang) ==> r.0.lang == s.lang && r.0.storage == s.storage
    ensures !HasPage(site.avail, slug, s.lang) ==>
              r.0.lang == OtherLang(s.lang) && r.0.storage == Persist(s.storage, r.0.lang)
    ensures var md := FetchMd(s.cache, fetch, slug, r.0.lang);
            && r.0.cache == md.cache
            && (Missing(md.text) ==> r.1 == PageNotFound(r.0.lang))
            && (!Missing(md.text) ==> r.1 == StaticView(r.0.lang, md.text.value))
  {
    var s1 := Fallback(s, HasPage(site.avail, slug, s.lang));
    var md := FetchMd(s1.cache, fetch, slug, s1.lang);
    var s2 := s1.(cache := md.cache);
    if Missing(md.text) then (s2, PageNotFound(s2.lang)) else (s2, StaticView(s2.lang, md.text.value))
  }

  /**
   A page configured in only one of the two languages, viewed in the
   other, is shown in the configured one and that choice is persisted.
   */
  lemma StaticFallbackFindsPage(site: Site, s: Session, fetch: string -> Option<string>, slug: string)
    requires s.lang == Ar || s.lang == En
    requires HasPage(site.avail, slug, Ar) || HasPage(site.avail, slug, En)
    ensures var r := RenderStaticPage(site, s, fetch, slug);
            && HasPage(site.avail, slug, r.0.lang)
            && (r.0.lang != s.lang ==> r.0.storage == Persist(s.storage, r.0.lang))
  {
  }

  /**
   A slug configured in neither language switches the language anyway, so
   visiting it twice in a row ends in the language started from (when
   that was "ar" or "en").
   */
  lemma UnknownSlugFlips(site: Site, s: Session, fetch: string -> Option<string>, slug: string)
    requires !HasPage(site.avail, slug, Ar) && !HasPage(site.avail, slug, En)
    ensures var r := RenderStaticPage(site, s, fetch, slug);
            && r.0.lang == OtherLang(s.lang) && r.0.lang != s.lang
            && ((s.lang == Ar || s.lang == En) ==> RenderStaticPage(site, r.0, fetch, slug).0.lang == s.lang)
  {
    OtherLangTwice(s.lang);
  }

  // ---------------------------------------------------------------- listings

  /** The card of one manifest entry, when it has metadata to show. */
  function ListItemOf(coll: string, lang: string, e: Entry): Option<ListItem> {
    match GetEntryMeta(e, lang)
    case None => None
    case Some(m) => Some(ListItem("#" + coll + "/" + e.slug, m))
  }

  /** The cards of a listing: every entry with some metadata, in manifest order. */
  function ListItems(coll: string, entries: seq<Entry>, lang: string): (items: seq<ListItem>)
    ensures |items| <= |entries|
    ensures forall e :: e in entries && GetEntryMeta(e, lang).Some? ==>
              ListItem("#" + coll + "/" + e.slug, GetEntryMeta(e, lang).value) in items
    ensures forall it :: it in items ==>
              exists e :: e in entries && GetEntryMeta(e, lang) == Some(it.meta) && it.href == "#" + coll + "/" + e.slug
  {
    var f := e => ListItemOf(coll, lang, e);
    FilterMapFacts(entries, f);
    FilterMap(entries, f)
  }

  /** Cards follow manifest order: of two cards, the earlier one belongs to the earlier entry. */
  lemma ListItemsInOrder(coll: string, entries: seq<Entry>, lang: string, x: nat, y: nat)
    requires x < y < |ListItems(coll, entries, lang)|
    ensures exists i, j :: && 0 <= i < j < |entries|
                           && ListItemOf(coll, lang, entries[i]) == Some(ListItems(coll, entries, lang)[x])
                           && ListItemOf(coll, lang, entries[j]) == Some(ListItems(coll, entries, lang)[y])
  {
    var f := e => ListItemOf(coll, lang, e);
    assert ListItems(coll, entries, lang) == FilterMap(entries, f);
    FilterMapInOrder(entries, f, x, y);
    var i, j :| 0 <= i < j < |entries| && f(entries[i]) == Some(FilterMap(entries, f)[x]) && f(entries[j]) == Some(FilterMap(entries, f)[y]);
    assert f(entries[i]) == ListItemOf(coll, lang, entries[i]);
    assert f(entries[j]) == ListItemOf(coll, lang, entries[j]);
  }

  /** An entry with an "ar" or "en" record is never missing from a listing. */
  lemma ListingShowsEntry(coll: string, entries: seq<Entry>, lang: string, e: Entry)
    requires e in entries && (Ar in e.langs || En in e.langs)
    ensures exists it :: it in ListItems(coll, entries, lang) && it.href == "#" + coll + "/" + e.slug
  {
    GetEntryMetaPresent(e, lang);
    assert ListItem("#" + coll + "/" + e.slug, GetEntryMeta(e, lang).value) in ListItems(coll, entries, lang);
  }

  /** `renderListing(coll)`: never changes the session. */
  function RenderListing(site: Site, lang: string, coll: string): (screen: Screen)
    ensures screen.CollectionNotFound? <==>
              coll !in site.manifests || FindCollection(site.config.collections, coll).None?
    ensures screen.ListingView? ==>
              && screen.lang == lang
              && var c := FindCollection(site.config.collections, coll).value;
              && screen.title == LabelFor(lang, c.arLabel, c.enLabel)
              && screen.cards == (c.kind == "blog")
              && screen.items == ListItems(coll, site.manifests[coll].entries, lang)
    ensures screen.CollectionNotFound? || screen.ListingView?
  {
    if coll !in site.manifests then CollectionNotFound
    else match FindCollection(site.config.collections, coll)
      case None => CollectionNotFound
      case Some(c) =>
        ListingView(lang, LabelFor(lang, c.arLabel, c.enLabel), c.kind == "blog",
                    ListItems(coll, site.manifests[coll].entries, lang))
  }

  // ---------------------------------------------------------------- entries

  /** A header value as JavaScript turns it into text: an array joins its items with ','. */
  function ValueText(v: Value): string {
    match v
    case Str(x) => x
    case List(items) => Join(items, ",")
  }

  /** JavaScript truthiness of a header value: only the empty string is falsy. */
  predicate ValueTruthy(v: Value) {
    v.List? || v.s != ""
  }

  /** `meta.title || entrySlug`: the document title of an entry. */
  function EntryTitle(meta: map<string, Value>, slug: string): (t: string)
    ensures "title" in meta && meta["title"].Str? && meta["title"].s != "" ==> t == meta["title"].s
    ensures "title" in meta && meta["title"] == Str("") ==> t == slug
    ensures "title" in meta && meta["title"].List? ==> t == Join(meta["title"].items, ",")
    ensures "title" !in meta ==> t == slug
  {
    if "title" in meta && ValueTruthy(meta["title"]) then ValueText(meta["title"]) else slug
  }

  /** `renderEntry` keeps the language unless the entry exists and lacks it. */
  function EntryKeepsLang(m: Manifest, entry: string, lang: string): (keep: bool)
    ensures !keep <==> exists i :: 0 <= i < |m.entries| && m.entries[i].slug == entry
                                   && (forall j :: 0 <= j < i ==> m.entries[j].slug != entry)
                                   && lang !in m.entries[i].langs
  {
    match FindEntry(m.entries, entry)
    case None => true
    case Some(e) => lang in e.langs
  }

  /** Where an entry's markdown lives, relative to `pages/`. */
  function EntryPath(coll: string, entry: string): string {
    coll + "/" + entry
  }

  /** `renderEntry(coll, entry)`: returns the new session and the rendered screen. */
  function RenderEntry(site: Site, s: Session, fetch: string -> Option<string>, coll: string, entry: string): (r: (Session, Screen))
    ensures r.1.CollectionNotFound? <==>
              coll !in site.manifests || FindCollection(site.config.collections, coll).None?
    ensures r.1.CollectionNotFound? ==> r.0 == s
    ensures !r.1.CollectionNotFound? ==>
              && (EntryKeepsLang(site.manifests[coll], entry, s.lang) ==> r.0.lang == s.lang && r.0.storage == s.storage)
              && (!EntryKeepsLang(site.manifests[coll], entry, s.lang) ==>
                    r.0.lang == OtherLang(s.lang) && r.0.storage == Persist(s.storage, r.0.lang))
              && var md := FetchMd(s.cache, fetch, EntryPath(coll, entry), r.0.lang);
              && r.0.cache == md.cache
              && (Missing(md.text) <==> r.1.EntryNotFound?)
              && (!Missing(md.text) ==> r.1.EntryView? && r.1.lang == r.0.lang
                                        && r.1.meta == ParseFrontMatter(md.text.value).meta
                                        && r.1.body == ParseFrontMatter(md.text.value).body)
  {
    if coll !in site.manifests then (s, CollectionNotFound)
    else match FindCollection(site.config.collections, coll)
      case None => (s, CollectionNotFound)
      case Some(c) =>
        var s1 := Fallback(s, EntryKeepsLang(site.manifests[coll], entry, s.lang));
        var md := FetchMd(s1.cache, fetch, EntryPath(coll, entry), s1.lang);
        var s2 := s1.(cache := md.cache);
        var back := LabelFor(s2.lang, c.arLabel, c.enLabel);
        if Missing(md.text) then (s2, EntryNotFound(s2.lang, back))
        else
          var doc := ParseFrontMatter(md.text.value);
          (s2, EntryView(s2.lang, back, EntryTitle(doc.meta, entry), doc.meta, doc.body))
  }

  /** An entry missing from the manifest never changes the language. */
  lemma MissingEntryKeepsLang(m: Manifest, entry: string, lang: string)
    requires forall i :: 0 <= i < |m.entries| ==> m.entries[i].slug != entry
    ensures EntryKeepsLang(m, entry, lang)
  {
  }

  /**
   An entry present in only one of the two languages, viewed in the
   other, is fetched in the language it has.
   */
  lemma EntryFallbackFindsLanguage(m: Manifest, entry: string, lang: string, e: Entry)
    requires lang == Ar || lang == En
    requires FindEntry(m.entries, entry) == Some(e)
    requires Ar in e.langs || En in e.langs
    ensures var l := if EntryKeepsLang(m, entry, lang) then lang else OtherLang(lang);
            l in e.langs
  {
  }

  // ---------------------------------------------------------------- chrome

  /** `renderLangToggle()` for the page `page` in language `lang`. */
  function ToggleFor(site: Site, page: string, lang: string): (t: Toggle)
    ensures t.arActive <==> lang == Ar
    ensures t.enActive <==> lang == En
    ensures match Classify(site.config.collections, page)
            case EntryPage(c, e) => t.visible == EntryHasBothLangs(site.manifests, c, e)
            case Listing(_) => t.visible
            case StaticPage(b) => t.visible == (HasPage(site.avail, b, Ar) && HasPage(site.avail, b, En))
  {
    var visible :=
      match Classify(site.config.collections, page)
      case EntryPage(c, e) => EntryHasBothLangs(site.manifests, c, e)
      case Listing(_) => true
      case StaticPage(b) => HasPage(site.avail, b, Ar) && HasPage(site.avail, b, En);
    Toggle(visible, lang == Ar, lang == En)
  }

  /** On a static page the toggle shows iff the page's last configuration row has both labels. */
  lemma ToggleStaticIff(site: Site, config: Config, fetch: string -> Option<Manifest>, page: string, lang: string)
    requires site == LoadSite(config, fetch)
    requires Classify(config.collections, page).StaticPage?
    ensures ToggleFor(site, page, lang).visible <==>
              exists i :: 0 <= i < |config.pages| && config.pages[i].slug == Base(page)
                          && LastForSlug(config.pages, i)
                          && config.pages[i].arLabel.Some? && config.pages[i].enLabel.Some?
  {
    var b := Base(page);
    HasPageIff(config.pages, b, Ar);
    HasPageIff(config.pages, b, En);
    if ToggleFor(site, page, lang).visible {
      var i :| 0 <= i < |config.pages| && config.pages[i].slug == b && LastForSlug(config.pages, i)
               && Labelled(config.pages[i], Ar);
      var j :| 0 <= j < |config.pages| && config.pages[j].slug == b && LastForSlug(config.pages, j)
               && Labelled(config.pages[j], En);
      LastIsUnique(config.pages, i, j);
    }
  }

  /** Two rows that are both last for the same slug are the same row. */
  lemma LastIsUnique(pages: seq<PageConfig>, i: int, j: int)
    requires 0 <= i < |pages| && 0 <= j < |pages|
    requires pages[i].slug == pages[j].slug && LastForSlug(pages, i) && LastForSlug(pages, j)
    ensures i == j
  {
  }

  /** The navigation link of one configured page, when it is available in `lang`. */
  function PageItemOf(avail: map<string, Langs>, lang: string, base: string, p: PageConfig): Option<NavItem> {
    if HasPage(avail, p.slug, lang) then Some(NavItem(p.slug, LabelFor(lang, p.arLabel, p.enLabel), p.slug == base))
    else None
  }

  /** The navigation links for static pages: those available in `lang`, in configuration order. */
  function PageItems(pages: seq<PageConfig>, avail: map<string, Langs>, lang: string, base: string): (items: seq<NavItem>)
    ensures |items| <= |pages|
    ensures forall k :: 0 <= k < |items| ==> HasPage(avail, items[k].slug, lang) && (items[k].active <==> items[k].slug == base)
    ensures forall p :: p in pages && HasPage(avail, p.slug, lang) ==>
              NavItem(p.slug, LabelFor(lang, p.arLabel, p.enLabel), p.slug == base) in items
  {
    var f := p => PageItemOf(avail, lang, base, p);
    FilterMapFacts(pages, f);
    FilterMap(pages, f)
  }

  /** Page links follow configuration order: of two links, the earlier one belongs to the earlier page. */
  lemma PageItemsInOrder(pages: seq<PageConfig>, avail: map<string, Langs>, lang: string, base: string, x: nat, y: nat)
    requires x < y < |PageItems(pages, avail, lang, base)|
    ensures exists i, j :: && 0 <= i < j < |pages|
                           && PageItemOf(avail, lang, base, pages[i]) == Some(PageItems(pages, avail, lang, base)[x])
                           && PageItemOf(avail, lang, base, pages[j]) == Some(PageItems(pages, avail, lang, base)[y])
  {
    var f := p => PageItemOf(avail, lang, base, p);
    assert PageItems(pages, avail, lang, base) == FilterMap(pages, f);
    FilterMapInOrder(pages, f, x, y);
    var i, j :| 0 <= i < j < |pages| && f(pages[i]) == Some(FilterMap(pages, f)[x]) && f(pages[j]) == Some(FilterMap(pages, f)[y]);
    assert f(pages[i]) == PageItemOf(avail, lang, base, pages[i]);
    assert f(pages[j]) == PageItemOf(avail, lang, base, pages[j]);
  }

  /** The navigation link of one configured collection, when its manifest has entries. */
  function CollectionItemOf(manifests: map<string, Manifest>, lang: string, base: string, c: CollectionConfig): Option<NavItem> {
    if c.slug in manifests && |manifests[c.slug].entries| > 0 then
      Some(NavItem(c.slug, Some(LabelFor(lang, c.arLabel, c.enLabel)), c.slug == base))
    else None
  }

  /** The navigation links for collections: those whose manifest has entries, in configuration order. */
  function CollectionItems(cols: seq<CollectionConfig>, manifests: map<string, Manifest>, lang: string, base: string): (items: seq<NavItem>)
    ensures |items| <= |cols|
    ensures forall k :: 0 <= k < |items| ==>
              items[k].slug in manifests && |manifests[items[k].slug].entries| > 0 && (items[k].active <==> items[k].slug == base)
    ensures forall c :: c in cols && c.slug in manifests && |manifests[c.slug].entries| > 0 ==>
              NavItem(c.slug, Some(LabelFor(lang, c.arLabel, c.enLabel)), c.slug == base) in items
  {
    var f := c => CollectionItemOf(manifests, lang, base, c);
    FilterMapFacts(cols, f);
    FilterMap(cols, f)
  }

  /** Collection links follow configuration order: of two links, the earlier one belongs to the earlier collection. */
  lemma CollectionItemsInOrder(cols: seq<CollectionConfig>, manifests: map<string, Manifest>, lang: string, base: string, x: nat, y: nat)
    requires x < y < |CollectionItems(cols, manifests, lang, base)|
    ensures exists i, j :: && 0 <= i < j < |cols|
                           && CollectionItemOf(manifests, lang, base, cols[i]) == Some(CollectionItems(cols, manifests, lang, base)[x])
                           && CollectionItemOf(manifests, lang, base, cols[j]) == Some(CollectionItems(cols, manifests, lang, base)[y])
  {
    var f := c => CollectionItemOf(manifests, lang, base, c);
    assert CollectionItems(cols, manifests, lang, base) == FilterMap(cols, f);
    FilterMapInOrder(cols, f, x, y);
    var i, j :| 0 <= i < j < |cols| && f(cols[i]) == Some(FilterMap(cols, f)[x]) && f(cols[j]) == Some(FilterMap(cols, f)[y]);
    assert f(cols[i]) == CollectionItemOf(manifests, lang, base, cols[i]);
    assert f(cols[j]) == CollectionItemOf(manifests, lang, base, cols[j]);
  }

  /** `renderNav()`: page links first, then collection links; the current base is active. */
  function NavItems(site: Site, page: string, lang: string): (items: seq<NavItem>)
    ensures forall k :: 0 <= k < |items| ==> (items[k].active <==> items[k].slug == Base(page))
    ensures forall k :: 0 <= k < |items| ==>
              || HasPage(site.avail, items[k].slug, lang)
              || (items[k].slug in site.manifests && |site.manifests[items[k].slug].entries| > 0)
    ensures forall p :: p in site.config.pages && HasPage(site.avail, p.slug, lang) ==>
              NavItem(p.slug, LabelFor(lang, p.arLabel, p.enLabel), p.slug == Base(page)) in items
    ensures forall c :: c in site.config.collections && c.slug in site.manifests && |site.manifests[c.slug].entries| > 0 ==>
              NavItem(c.slug, Some(LabelFor(lang, c.arLabel, c.enLabel)), c.slug == Base(page)) in items
  {
    PageItems(site.config.pages, site.avail, lang, Base(page))
      + CollectionItems(site.config.collections, site.manifests, lang, Base(page))
  }

  /** In a language other than "ar" or "en" no static page is linked. */
  lemma NavWithoutPagesInOtherLanguages(site: Site, page: string, lang: string)
    requires lang != Ar && lang != En
    ensures NavItems(site, page, lang) == CollectionItems(site.config.collections, site.manifests, lang, Base(page))
  {
    var items := PageItems(site.config.pages, site.avail, lang, Base(page));
    if |items| > 0 {
      NoPageInOtherLanguages(site.avail, items[0].slug, lang);
    }
  }

  // ---------------------------------------------------------------- navigation

  /** Everything one `route()` leaves on screen. */
  datatype View = View(screen: Screen, toggle: Toggle, nav: seq<NavItem>)

  /**
   `route()` after a fragment change: classify, render, then draw the
   toggle and the navigation in the language the renderer settled on.
   */
  function Navigate(site: Site, s: Session, fetch: string -> Option<string>, hash: string): (r: (Session, View))
    ensures var page := CurrentPage(hash);
            && r.1.toggle == ToggleFor(site, page, r.0.lang)
            && r.1.nav == NavItems(site, page, r.0.lang)
            && match Classify(site.config.collections, page)
               case StaticPage(b) => (r.0, r.1.screen) == RenderStaticPage(site, s, fetch, b)
               case Listing(c) => r.0 == s && r.1.screen == RenderListing(site, s.lang, c)
               case EntryPage(c, e) => (r.0, r.1.screen) == RenderEntry(site, s, fetch, c, e)
  {
    var page := CurrentPage(hash);
    var out :=
      match Classify(site.config.collections, page)
      case StaticPage(b) => RenderStaticPage(site, s, fetch, b)
      case Listing(c) => (s, RenderListing(site, s.lang, c))
      case EntryPage(c, e) => RenderEntry(site, s, fetch, c, e);
    (out.0, View(out.1, ToggleFor(site, page, out.0.lang), NavItems(site, page, out.0.lang)))
  }

  /** Navigation keeps the page cache consistent with the network. */
  lemma NavigateKeepsCacheConsistent(site: Site, s: Session, fetch: string -> Option<string>, hash: string)
    requires Consistent(s.cache, fetch)
    ensures Consistent(Navigate(site, s, fetch, hash).0.cache, fetch)
  {
    var page := CurrentPage(hash);
    match Classify(site.config.collections, page)
    case StaticPage(b) =>
      FetchMdConsistent(s.cache, fetch, b, Fallback(s, HasPage(site.avail, b, s.lang)).lang);
    case Listing(c) =>
    case EntryPage(c, e) =>
      if c in site.manifests && FindCollection(site.config.collections, c).Some? {
        FetchMdConsistent(s.cache, fetch, EntryPath(c, e), Fallback(s, EntryKeepsLang(site.manifests[c], e, s.lang)).lang);
      }
  }

  /** An entry carrying both languages shows the toggle, whichever language it is viewed in. */
  lemma EntryWithBothLangsShowsToggle(site: Site, s: Session, fetch: string -> Option<string>, c: string, e: string)
    requires IsCollection(site.config.collections, c) && '/' !in c
    requires e != "" && '/' !in e
    requires EntryHasBothLangs(site.manifests, c, e)
    ensures Navigate(site, s, fetch, "#" + c + "/" + e).1.toggle.visible
  {
    RouteEntryLink(site.config.collections, c, e);
    assert CurrentPage("#" + c + "/" + e) == c + "/" + e by {
      EntryPageParts(c, e, "");
      FragmentAssoc("#", c, "/", e);
      StripHashLeading(c + "/" + e);
    }
  }

  /**
   A static page configured in one language only, reached through its
   link in the other language, falls back to the configured language and
   persists it.
   */
  lemma SingleLanguagePageFallsBack(site: Site, s: Session, fetch: string -> Option<string>, slug: string, lang: string)
    requires !IsCollection(site.config.collections, slug) && slug != "" && '/' !in slug
    requires lang == Ar || lang == En
    requires s.lang == OtherLang(lang) && s.storage.writable
    requires HasPage(site.avail, slug, lang) && !HasPage(site.avail, slug, s.lang)
    ensures var r := Navigate(site, s, fetch, "#" + slug);
            r.0.lang == lang && r.0.storage.saved == Some(lang)
  {
    RouteStaticLink(site.config.collections, slug, "");
    StripHashLeading(slug);
    SegmentsOfBase(slug);
  }

  /**
   A fragment naming no page, collection or file renders the not-found
   page (after the language switch every unknown slug causes).
   */
  lemma UnknownSlugNotFound(site: Site, s: Session, fetch: string -> Option<string>, slug: string)
    requires !IsCollection(site.config.collections, slug) && slug != "" && '/' !in slug
    requires !HasPage(site.avail, slug, Ar) && !HasPage(site.avail, slug, En)
    requires Consistent(s.cache, fetch)
    requires fetch(Url(slug, Ar)).None? && fetch(Url(slug, En)).None?
    ensures var r := Navigate(site, s, fetch, "#" + slug);
            r.1.screen == PageNotFound(OtherLang(s.lang)) && r.0.lang == OtherLang(s.lang)
  {
    assert Classify(site.config.collections, CurrentPage("#" + slug)) == StaticPage(slug) by {
      RouteStaticLink(site.config.collections, slug, "");
      StripHashLeading(slug);
    }
    var r := RenderStaticPage(site, s, fetch, slug);
    assert r.0.lang == OtherLang(s.lang);
    assert r.1 == PageNotFound(OtherLang(s.lang)) by {
      FetchMdConsistent(s.cache, fetch, slug, OtherLang(s.lang));
    }
  }
}

=== FILE: router.dfy ===
/**
 The hash router (`route`, app.js): the fragment names a page, whose first
 `/`-segment is the base and whose second, when non-empty, is the child.
 A configured collection with a child is an entry, a collection without
 one is its listing, and any other base is a static page.
 */
module Router {
  import opened Options
  import opened Text
  import opened SiteConfig

  datatype Route =
    | StaticPage(slug: string)
    | Listing(collection: string)
    | EntryPage(collection: string, entry: string)

  /** `location.hash.replace('#', '')`: a string pattern removes only the first '#'. */
  function StripHash(hash: string): (r: string)
    ensures '#' !in hash ==> r == hash
    ensures '#' in hash ==> exists i :: 0 <= i < |hash| && hash[i] == '#' && '#' !in hash[..i]
                                        && r == hash[..i] + hash[i + 1..]
  {
    match IndexOf(hash, '#')
    case None => hash
    case Some(i) => hash[..i] + hash[i + 1..]
  }

  /** A fragment as the browser reports it, with its leading '#', loses just that '#'. */
  lemma StripHashLeading(s: string)
    ensures StripHash("#" + s) == s
  {
    assert IndexOf("#" + s, '#') == Some(0);
    assert ("#" + s)[1..] == s;
  }

  /** `location.hash.replace('#', '') || 'home'`: the page currently shown. */
  function CurrentPage(hash: string): (page: string)
    ensures page != ""
    ensures StripHash(hash) != "" ==> page == StripHash(hash)
  {
    var p := StripHash(hash);
    if p == "" then "home" else p
  }

  /** No fragment, or a bare '#', shows the home page. */
  lemma CurrentPageHome()
    ensures CurrentPage("") == "home"
    ensures CurrentPage("#") == "home"
  {
    StripHashLeading("");
    assert "#" + "" == "#";
  }

  /** `hash.split('/')`. */
  function Segments(page: string): (parts: seq<string>)
    ensures |parts| >= 1
    ensures forall i :: 0 <= i < |parts| ==> '/' !in parts[i]
    ensures Join(parts, "/") == page
  {
    Split(page, '/')
  }

  /** `segments[0]`: the text before the first '/'. */
  function Base(page: string): (b: string)
    ensures '/' !in b
    ensures StartsWith(page, b)
    ensures b == page || StartsWith(page, b + "/")
  {
    var parts := Segments(page);
    JoinStartsWithFirst(parts, "/");
    parts[0]
  }

  /**
   `segments[1] || null`: the second segment when it is non-empty; a page
   with no '/', a trailing '/' after the base, or "//" right after it has
   no child.
   */
  function Child(page: string): (c: Option<string>)
    ensures c.Some? ==> && c.value != "" && '/' !in c.value
                        && (page == Base(page) + "/" + c.value || StartsWith(page, Base(page) + "/" + c.value + "/"))
    ensures c.None? <==> page == Base(page) || page == Base(page) + "/" || StartsWith(page, Base(page) + "//")
  {
    var parts := Segments(page);
    ChildCases(page);
    if |parts| >= 2 && parts[1] != "" then Some(parts[1]) else None
  }

  /** What follows the first segment, according to the second one. */
  lemma ChildCases(page: string)
    ensures var parts := Segments(page);
            var b := parts[0];
            && (|parts| >= 2 && parts[1] != "" ==>
                  && '/' !in parts[1]
                  && (page == b + "/" + parts[1] || StartsWith(page, b + "/" + parts[1] + "/"))
                  && page != b && page != b + "/" && !StartsWith(page, b + "//"))
            && (!(|parts| >= 2 && parts[1] != "") ==>
                  page == b || page == b + "/" || StartsWith(page, b + "//"))
  {
    var parts := Segments(page);
    var b := parts[0];
    JoinStartsWithFirst(parts, "/");
    if |parts| >= 2 {
      JoinFirst(parts, "/");
      var tail := Join(parts[1..], "/");
      JoinStartsWithFirst(parts[1..], "/");
      assert page == b + "/" + tail;
      if parts[1] != "" {
        assert '/' !in parts[1];
        SecondSegment(b, parts[1], tail);
      } else {
        EmptySecondSegment(b, tail);
      }
    }
  }

  /** `b/x…` with a non-empty, slash-free `x` first is neither `b`, `b/` nor `b//…`. */
  lemma SecondSegment(b: string, x: string, tail: string)
    requires x != "" && '/' !in x
    requires tail == x || StartsWith(tail, x + "/")
    ensures var page := b + "/" + tail;
            && (page == b + "/" + x || StartsWith(page, b + "/" + x + "/"))
            && page != b && page != b + "/" && !StartsWith(page, b + "//")
  {
    var page := b + "/" + tail;
    assert page[|b| + 1] == tail[0] == x[0];
    assert x[0] in x;
    if tail != x {
      assert tail[..|x| + 1] == x + "/";
      assert page[..|b| + 1 + |x| + 1] == b + "/" + x + "/";
    }
  }

  /** `b/` followed by an empty second segment is `b/` itself or starts with `b//`. */
  lemma EmptySecondSegment(b: string, tail: string)
    requires tail == "" || StartsWith(tail, "/")
    ensures var page := b + "/" + tail;
            page == b + "/" || StartsWith(page, b + "//")
  {
    if tail != "" {
      assert (b + "/" + tail)[..|b| + 2] == b + "//";
    }
  }

  /** The branch of `route` a page takes. */
  function Classify(cols: seq<CollectionConfig>, page: string): (r: Route)
    ensures r.EntryPage? <==> IsCollection(cols, Base(page)) && Child(page).Some?
    ensures r.Listing? <==> IsCollection(cols, Base(page)) && Child(page).None?
    ensures r.StaticPage? <==> !IsCollection(cols, Base(page))
    ensures r.EntryPage? ==> r.collection == Base(page) && r.entry == Child(page).value
    ensures r.Listing? ==> r.collection == Base(page)
    ensures r.StaticPage? ==> r.slug == Base(page)
  {
    var base := Base(page);
    if IsCollection(cols, base) then
      match Child(page)
      case Some(child) => EntryPage(base, child)
      case None => Listing(base)
    else StaticPage(base)
  }

  /** `route()` on a fragment. */
  function RouteOf(cols: seq<CollectionConfig>, hash: string): (r: Route)
    ensures StripHash(hash) == "" ==> r == Classify(cols, "home")
    ensures r.StaticPage? ==> '/' !in r.slug && !IsCollection(cols, r.slug)
    ensures r.Listing? ==> '/' !in r.collection && IsCollection(cols, r.collection)
    ensures r.EntryPage? ==> && '/' !in r.collection && IsCollection(cols, r.collection)
                             && r.entry != "" && '/' !in r.entry
  {
    Classify(cols, CurrentPage(hash))
  }

  /** How a page of the form base/child splits. */
  lemma SegmentsOfPair(b: string, e: string)
    requires '/' !in b && '/' !in e
    ensures Segments(b + "/" + e) == [b, e]
  {
    var parts := [b, e];
    assert Join(parts, "/") == b + "/" + e by {
      JoinFirst(parts, "/");
      assert parts[1..] == [e];
    }
    SplitJoin(parts, '/');
  }

  /** The join of base, child and the pieces of a tail is base/child/tail. */
  lemma JoinOfTriple(b: string, e: string, t: string)
    ensures Join([b, e] + Split(t, '/'), "/") == b + "/" + e + "/" + t
  {
    var rest := Split(t, '/');
    var all := [b, e] + rest;
    JoinFirst(all, "/");
    assert all[1..] == [e] + rest;
    JoinFirst(all[1..], "/");
    assert all[1..][1..] == rest;
  }

  /** How a page of the form base/child/rest splits. */
  lemma SegmentsOfEntry(b: string, e: string, t: string)
    requires '/' !in b && '/' !in e
    ensures Segments(b + "/" + e) == [b, e]
    ensures Segments(b + "/" + e + "/" + t) == [b, e] + Split(t, '/')
  {
    SegmentsOfPair(b, e);
    var rest := Split(t, '/');
    var all := [b, e] + rest;
    JoinOfTriple(b, e, t);
    assert forall i :: 0 <= i < |all| ==> '/' !in all[i] by {
      assert forall i :: 2 <= i < |all| ==> all[i] == rest[i - 2];
    }
    SplitJoin(all, '/');
  }

  /** A page without '/' is its own base and has no child. */
  lemma SegmentsOfBase(b: string)
    requires '/' !in b
    ensures Segments(b) == [b]
    ensures Base(b) == b && Child(b).None?
  {
    SplitJoin([b], '/');
  }

  /** A trailing '/' after the base leaves the child absent. */
  lemma SegmentsOfBaseSlash(b: string)
    requires '/' !in b
    ensures Base(b + "/") == b && Child(b + "/").None?
  {
    SegmentsOfEntry(b, "", "");
    assert b + "/" + "" == b + "/";
  }

  /** base/child, with or without a further tail, has that base and child. */
  lemma EntryPageParts(c: string, e: string, t: string)
    requires '/' !in c && e != "" && '/' !in e
    ensures Base(c + "/" + e) == c && Child(c + "/" + e) == Some(e)
    ensures Base(c + "/" + e + "/" + t) == c && Child(c + "/" + e + "/" + t) == Some(e)
  {
    SegmentsOfEntry(c, e, t);
  }

  /**
   A link is built as `'#' + collection + '/' + slug`, while `route` sees the
   page after the '#'. This regrouping, stated once here, is what lets the
   link lemmas below apply `RouteOfPage`; asserting it inline where it is
   used makes those proofs too expensive for the solver.
   */
  lemma FragmentAssoc(a: string, b: string, c: string, d: string)
    ensures a + b + c + d == a + (b + c + d)
  {
  }

  /** A non-empty page reached through its fragment `#page`. */
  lemma RouteOfPage(cols: seq<CollectionConfig>, page: string)
    requires page != ""
    ensures RouteOf(cols, "#" + page) == Classify(cols, page)
  {
    StripHashLeading(page);
  }

  /** A collection base with a child is that entry. */
  lemma ClassifyEntry(cols: seq<CollectionConfig>, page: string)
    requires IsCollection(cols, Base(page)) && Child(page).Some?
    ensures Classify(cols, page) == EntryPage(Base(page), Child(page).value)
  {
  }

  /** The link a listing card points to, `#collection/slug`, routes back to that entry. */
  lemma RouteEntryLink(cols: seq<CollectionConfig>, c: string, e: string)
    requires IsCollection(cols, c) && '/' !in c
    requires e != "" && '/' !in e
    ensures RouteOf(cols, "#" + c + "/" + e) == EntryPage(c, e)
  {
    var page := c + "/" + e;
    EntryPageParts(c, e, "");
    ClassifyEntry(cols, page);
    FragmentAssoc("#", c, "/", e);
    RouteOfPage(cols, page);
  }

  /** Segments after the second are ignored. */
  lemma RouteEntryTail(cols: seq<CollectionConfig>, c: string, e: string, t: string)
    requires IsCollection(cols, c) && '/' !in c
    requires e != "" && '/' !in e
    ensures RouteOf(cols, "#" + c + "/" + e + "/" + t) == EntryPage(c, e)
  {
    var page := c + "/" + e + "/" + t;
    EntryPageParts(c, e, t);
    ClassifyEntry(cols, page);
    FragmentAssoc("#", c, "/", e);
    FragmentAssoc("#", c + "/" + e, "/", t);
    RouteOfPage(cols, page);
  }

  /** A collection base without a child is its listing. */
  lemma ClassifyListing(cols: seq<CollectionConfig>, page: string)
    requires IsCollection(cols, Base(page)) && Child(page).None?
    ensures Classify(cols, page) == Listing(Base(page))
  {
  }

  /** A base that is not a collection is a static page. */
  lemma ClassifyStatic(cols: seq<CollectionConfig>, page: string)
    requires !IsCollection(cols, Base(page))
    ensures Classify(cols, page) == StaticPage(Base(page))
  {
  }

  /** The three-part form of `FragmentAssoc`, for the link `'#' + collection + '/'`. */
  lemma ConcatAssoc(a: string, b: string, c: string)
    ensures a + b + c == a + (b + c)
  {
  }

  /** A collection's navigation link `#collection` routes to its listing. */
  lemma RouteListingLink(cols: seq<CollectionConfig>, c: string)
    requires IsCollection(cols, c) && c != "" && '/' !in c
    ensures RouteOf(cols, "#" + c) == Listing(c)
    ensures RouteOf(cols, "#" + c + "/") == Listing(c)
  {
    assert RouteOf(cols, "#" + c) == Listing(c) by {
      SegmentsOfBase(c);
      ClassifyListing(cols, c);
      RouteOfPage(cols, c);
    }
    assert RouteOf(cols, "#" + (c + "/")) == Listing(c) by {
      SegmentsOfBaseSlash(c);
      ClassifyListing(cols, c + "/");
      RouteOfPage(cols, c + "/");
    }
    ConcatAssoc("#", c, "/");
  }

  /** A page whose base is not a collection is static, child or not. */
  lemma RouteStaticLink(cols: seq<CollectionConfig>, b: string, e: string)
    requires !IsCollection(cols, b) && b != "" && '/' !in b && '/' !in e
    ensures RouteOf(cols, "#" + b) == StaticPage(b)
    ensures RouteOf(cols, "#" + b + "/" + e) == StaticPage(b)
  {
    assert RouteOf(cols, "#" + b) == StaticPage(b) by {
      SegmentsOfBase(b);
      ClassifyStatic(cols, b);
      RouteOfPage(cols, b);
    }
    var page := b + "/" + e;
    assert RouteOf(cols, "#" + page) == StaticPage(b) by {
      SegmentsOfPair(b, e);
      ClassifyStatic(cols, page);
      RouteOfPage(cols, page);
    }
    FragmentAssoc("#", b, "/", e);
  }

  /** Without a fragment the router shows the static page (or collection) named "home". */
  lemma RouteEmptyIsHome(cols: seq<CollectionConfig>)
    ensures RouteOf(cols, "") == Classify(cols, "home")
    ensures !IsCollection(cols, "home") ==> RouteOf(cols, "") == StaticPage("home")
  {
    CurrentPageHome();
    SegmentsOfBase("home");
  }
}

=== FILE: site_config.dfy ===
/**
 The part of the site configuration (config.yaml, loaded once per session)
 that the router and the renderers consult: the default language, the
 static pages with their optional per-language labels, and the collections.
 */
module SiteConfig {
  import opened Options

  const Ar: string := "ar"
  const En: string := "en"

  /**
   The language a fallback switches to, `lang === 'ar' ? 'en' : 'ar'`: any
   value other than "ar", including an unknown one, goes to "ar".
   */
  function OtherLang(lang: string): (r: string)
    ensures r == Ar || r == En
    ensures r != lang
  {
    if lang == Ar then En else Ar
  }

  /** Switching twice returns to a supported language, and to "en" from any other. */
  lemma OtherLangTwice(lang: string)
    ensures lang == Ar || lang == En ==> OtherLang(OtherLang(lang)) == lang
    ensures lang != Ar && lang != En ==> OtherLang(OtherLang(lang)) == En
  {
  }

  /** The `ar` label in Arabic, the `en` label in every other language. */
  function LabelFor<T>(lang: string, ar: T, en: T): T {
    if lang == Ar then ar else en
  }

  /** A `pages` row `[slug, arLabel, enLabel]`; a null label means "no page in that language". */
  datatype PageConfig = PageConfig(slug: string, arLabel: Option<string>, enLabel: Option<string>)

  /** A `collections` row `[slug, arLabel, enLabel, kind]`. */
  datatype CollectionConfig = CollectionConfig(slug: string, arLabel: string, enLabel: string, kind: string)

  datatype Config = Config(defaultLang: string, pages: seq<PageConfig>, collections: seq<CollectionConfig>)

  /** `CONFIG.collections.find(([slug]) => slug === s)`: the first row with that slug. */
  function FindCollection(cols: seq<CollectionConfig>, s: string): (r: Option<CollectionConfig>)
    ensures r.None? <==> forall i :: 0 <= i < |cols| ==> cols[i].slug != s
    ensures r.Some? ==> exists i :: 0 <= i < |cols| && cols[i] == r.value && cols[i].slug == s
                                    && forall j :: 0 <= j < i ==> cols[j].slug != s
  {
    if |cols| == 0 then None
    else if cols[0].slug == s then Some(cols[0])
    else
      var r := FindCollection(cols[1..], s);
      assert forall i :: 1 <= i < |cols| ==> cols[i] == cols[1..][i - 1];
      r
  }

  /** `CONFIG.collections.some(([slug]) => slug === s)`. */
  predicate IsCollection(cols: seq<CollectionConfig>, s: string) {
    FindCollection(cols, s).Some?
  }

  lemma IsCollectionIff(cols: seq<CollectionConfig>, s: string)
    ensures IsCollection(cols, s) <==> exists i :: 0 <= i < |cols| && cols[i].slug == s
  {
  }
}

=== FILE: slug_lang.dfy ===
/**
 `extract_slug_and_lang` (build.rb): a content file is named
 `<slug>.<lang>.md`, the slug being everything before the last dot of the
 base name and the language "ar" or "en".
 */
module SlugLang {
  import opened Options
  import opened Text

  /** The text after the last '/', as `File.basename` sees a glob result. */
  function Basename(path: string): (b: string)
    ensures '/' !in b
    ensures EndsWith(path, b)
    ensures |b| == |path| || path[|path| - |b| - 1] == '/'
  {
    match LastIndexOf(path, '/')
    case None => path
    case Some(k) => path[k + 1..]
  }

  /** `File.basename(_, '.md')`: the suffix goes unless it is the whole name. */
  function StripMd(name: string): (r: string)
    ensures EndsWith(name, ".md") && |name| > 3 ==> name == r + ".md"
    ensures !(EndsWith(name, ".md") && |name| > 3) ==> r == name
  {
    if EndsWith(name, ".md") && |name| > 3 then name[..|name| - 3] else name
  }

  predicate SupportedLang(lang: string) {
    lang == "ar" || lang == "en"
  }

  /** `extract_slug_and_lang(path)`: `basename.rpartition('.')` and the language check. */
  function ExtractSlugAndLang(path: string): (r: Option<(string, string)>)
    ensures '.' !in StripMd(Basename(path)) ==> r.None?
    ensures r.Some? ==> SupportedLang(r.value.1) && '.' !in r.value.1
                        && StripMd(Basename(path)) == r.value.0 + "." + r.value.1
  {
    var base := StripMd(Basename(path));
    match LastIndexOf(base, '.')
    case None => None
    case Some(k) =>
      var slug := base[..k];
      var lang := base[k + 1..];
      CutAt(base, k);
      if SupportedLang(lang) then Some((slug, lang)) else None
  }

  lemma CutAt(s: string, k: nat)
    requires k < |s|
    ensures s == s[..k] + [s[k]] + s[k + 1..]
  {
  }

  /** The last '.' of `slug + "." + lang` is the one before `lang`, when `lang` has none. */
  lemma LastDotBeforeLang(slug: string, lang: string)
    requires '.' !in lang
    ensures LastIndexOf(slug + "." + lang, '.') == Some(|slug|)
  {
    var s := slug + "." + lang;
    assert s[|slug|] == '.';
    assert s[|slug| + 1..] == lang;
  }

  /** The base name of `dir/name` is `name`. */
  lemma BasenameOf(dir: string, name: string)
    requires '/' !in name
    ensures Basename(dir + "/" + name) == name
  {
    var p := dir + "/" + name;
    assert p[|dir|] == '/';
    assert p[|dir| + 1..] == name;
  }

  /** Extraction only depends on the stripped base name. */
  lemma ExtractOfBase(path: string, slug: string, lang: string)
    requires StripMd(Basename(path)) == slug + "." + lang && '.' !in lang
    ensures ExtractSlugAndLang(path) == if SupportedLang(lang) then Some((slug, lang)) else None
  {
    var base := slug + "." + lang;
    LastDotBeforeLang(slug, lang);
    assert base[..|slug|] == slug;
    assert base[|slug| + 1..] == lang;
  }

  /** The stripped base name of `dir/slug.lang.md`. */
  lemma StrippedName(dir: string, slug: string, lang: string)
    requires '/' !in slug && '/' !in lang
    ensures StripMd(Basename(dir + "/" + slug + "." + lang + ".md")) == slug + "." + lang
  {
    var name := slug + "." + lang + ".md";
    assert dir + "/" + slug + "." + lang + ".md" == dir + "/" + name;
    assert '/' !in name by {
      assert '/' !in "." && '/' !in ".md";
    }
    BasenameOf(dir, name);
    assert name == (slug + "." + lang) + ".md";
  }

  /**
   A file named after a slug and a supported language yields exactly that
   pair, whatever directory it is in and however many dots the slug has.
   */
  lemma ExtractRoundTrip(dir: string, slug: string, lang: string)
    requires '/' !in slug && SupportedLang(lang)
    ensures ExtractSlugAndLang(dir + "/" + slug + "." + lang + ".md") == Some((slug, lang))
  {
    var path := dir + "/" + slug + "." + lang + ".md";
    assert '/' !in lang && '.' !in lang by {
      assert lang == "ar" || lang == "en";
    }
    StrippedName(dir, slug, lang);
    ExtractOfBase(path, slug, lang);
  }

  /** Any other suffix is rejected: `post.fr.md` is not a content file. */
  lemma ExtractRejects(dir: string, slug: string, lang: string)
    requires '/' !in slug && '/' !in lang && '.' !in lang && !SupportedLang(lang)
    ensures ExtractSlugAndLang(dir + "/" + slug + "." + lang + ".md").None?
  {
    StrippedName(dir, slug, lang);
    ExtractOfBase(dir + "/" + slug + "." + lang + ".md", slug, lang);
  }
}

=== FILE: text.dfy ===
/**
 String operations shared by the client (JavaScript) and the builder (Ruby):
 prefix/suffix tests, first/last character search, splitting on one
 character, joining, and JavaScript's `String.prototype.trim`.
 */
module Text {
  import opened Options

  predicate StartsWith(s: string, prefix: string) {
    |prefix| <= |s| && s[..|prefix|] == prefix
  }

  predicate EndsWith(s: string, suffix: string) {
    |suffix| <= |s| && s[|s| - |suffix|..] == suffix
  }

  /** Index of the first `c` in `s` (`indexOf` with a one-character needle). */
  function IndexOf(s: string, c: char): (r: Option<nat>)
    ensures r.None? <==> c !in s
    ensures r.Some? ==> r.value < |s| && s[r.value] == c && c !in s[..r.value]
  {
    if |s| == 0 then None
    else if s[0] == c then Some(0)
    else
      match IndexOf(s[1..], c)
      case None => None
      case Some(i) =>
        assert s[..i + 1] == [s[0]] + s[1..][..i];
        Some(i + 1)
  }

  /** Index of the last `c` in `s` (the separator `rpartition` splits at). */
  function LastIndexOf(s: string, c: char): (r: Option<nat>)
    ensures r.None? <==> c !in s
    ensures r.Some? ==> r.value < |s| && s[r.value] == c && c !in s[r.value + 1..]
  {
    if |s| == 0 then None
    else if s[|s| - 1] == c then Some(|s| - 1)
    else
      match LastIndexOf(s[..|s| - 1], c)
      case None =>
        assert s == s[..|s| - 1] + [s[|s| - 1]];
        None
      case Some(i) =>
        assert s[i + 1..] == s[..|s| - 1][i + 1..] + [s[|s| - 1]];
        Some(i)
  }

  /** The pieces joined with `sep` between consecutive ones (`Array.prototype.join`). */
  function Join(parts: seq<string>, sep: string): string {
    if |parts| == 0 then ""
    else if |parts| == 1 then parts[0]
    else parts[0] + sep + Join(parts[1..], sep)
  }

  /**
   `s.split(sep)` for a one-character separator: the maximal pieces between
   occurrences of `sep`, so an empty string gives one empty piece.
   */
  function Split(s: string, sep: char): (parts: seq<string>)
    ensures |parts| >= 1
    ensures forall i :: 0 <= i < |parts| ==> sep !in parts[i]
    ensures Join(parts, [sep]) == s
  {
    match IndexOf(s, sep)
    case None => [s]
    case Some(i) =>
      var rest := Split(s[i + 1..], sep);
      assert s == s[..i] + [sep] + s[i + 1..];
      [s[..i]] + rest
  }

  /** Splitting the join of separator-free pieces gives the pieces back. */
  lemma {:induction false} SplitJoin(parts: seq<string>, sep: char)
    requires |parts| >= 1
    requires forall i :: 0 <= i < |parts| ==> sep !in parts[i]
    ensures Split(Join(parts, [sep]), sep) == parts
  {
    if |parts| > 1 {
      var tail := Join(parts[1..], [sep]);
      assert Join(parts, [sep]) == parts[0] + [sep] + tail;
      SplitAt(parts[0], sep, tail);
      SplitJoin(parts[1..], sep);
      assert parts == [parts[0]] + parts[1..];
    }
  }

  /** Splitting at a first separator that follows `p`. */
  lemma SplitAt(p: string, c: char, tail: string)
    requires c !in p
    ensures Split(p + [c] + tail, c) == [p] + Split(tail, c)
  {
    var s := p + [c] + tail;
    IndexOfAfter(p, c, tail);
    assert s[..|p|] == p;
    assert s[|p| + 1..] == tail;
  }

  /** The first `c` of `p + [c] + tail`, when `p` has none, is the one after `p`. */
  lemma IndexOfAfter(p: string, c: char, tail: string)
    requires c !in p
    ensures IndexOf(p + [c] + tail, c) == Some(|p|)
  {
    assert (p + [c] + tail)[|p|] == c;
  }

  /** The first piece of a split and what follows it. */
  lemma JoinFirst(parts: seq<string>, sep: string)
    requires |parts| >= 2
    ensures Join(parts, sep) == parts[0] + sep + Join(parts[1..], sep)
  {
  }

  /** The join of at least one piece starts with the first piece. */
  lemma {:induction false} JoinStartsWithFirst(parts: seq<string>, sep: string)
    requires |parts| >= 1
    ensures StartsWith(Join(parts, sep), parts[0])
    ensures |parts| == 1 ==> Join(parts, sep) == parts[0]
    ensures |parts| >= 2 ==> StartsWith(Join(parts, sep), parts[0] + sep)
  {
    if |parts| >= 2 {
      assert Join(parts, sep) == (parts[0] + sep) + Join(parts[1..], sep);
    }
  }

  /** ECMAScript WhiteSpace and LineTerminator code points: what `trim` removes. */
  predicate IsJsSpace(c: char) {
    || c == '\t' || c == '\n' || c == '\U{000B}' || c == '\U{000C}' || c == '\r' || c == ' '
    || c == '\U{00A0}' || c == '\U{1680}' || ('\U{2000}' <= c <= '\U{200A}')
    || c == '\U{2028}' || c == '\U{2029}' || c == '\U{202F}' || c == '\U{205F}'
    || c == '\U{3000}' || c == '\U{FEFF}'
  }

  /** Neither end of `s` is whitespace: `trim` leaves it alone. */
  predicate Trimmed(s: string) {
    |s| == 0 || (!IsJsSpace(s[0]) && !IsJsSpace(s[|s| - 1]))
  }

  /** The first index at or after `i` that is not whitespace (or `|s|`). */
  function SkipSpaces(s: string, i: nat): (j: nat)
    requires i <= |s|
    decreases |s| - i
    ensures i <= j <= |s|
    ensures forall k :: i <= k < j ==> IsJsSpace(s[k])
    ensures j < |s| ==> !IsJsSpace(s[j])
  {
    if i < |s| && IsJsSpace(s[i]) then SkipSpaces(s, i + 1) else i
  }

  /** The smallest `e` in `lo..j` such that `s[e..j]` is all whitespace. */
  function BackSpaces(s: string, lo: nat, j: nat): (e: nat)
    requires lo <= j <= |s|
    decreases j - lo
    ensures lo <= e <= j
    ensures forall k :: e <= k < j ==> IsJsSpace(s[k])
    ensures e > lo ==> !IsJsSpace(s[e - 1])
  {
    if lo < j && IsJsSpace(s[j - 1]) then BackSpaces(s, lo, j - 1) else j
  }

  /**
   `String.prototype.trim`: the part of `s` between its leading and its
   trailing whitespace.
   */
  function Trim(s: string): (r: string)
    ensures Trimmed(r)
    ensures var i := SkipSpaces(s, 0);
            && i + |r| <= |s| && r == s[i..i + |r|]
            && (forall k :: 0 <= k < i ==> IsJsSpace(s[k]))
            && (forall k :: i + |r| <= k < |s| ==> IsJsSpace(s[k]))
  {
    var i := SkipSpaces(s, 0);
    s[i..BackSpaces(s, i, |s|)]
  }

  /** Trimming only removes characters: one absent from `s` stays absent. */
  lemma TrimWithout(s: string, c: char)
    requires c !in s
    ensures c !in Trim(s)
  {
    var i := SkipSpaces(s, 0);
    forall k | 0 <= k < |Trim(s)| ensures Trim(s)[k] != c {
      assert Trim(s)[k] == s[i + k];
    }
  }

  /** `SkipSpaces` stops at the first non-whitespace index. */
  lemma SkipSpacesAt(s: string, n: nat)
    requires n <= |s|
    requires forall k :: 0 <= k < n ==> IsJsSpace(s[k])
    requires n < |s| ==> !IsJsSpace(s[n])
    ensures SkipSpaces(s, 0) == n
  {
  }

  /** `BackSpaces` stops right after the last non-whitespace index. */
  lemma BackSpacesAt(s: string, lo: nat, e: nat)
    requires lo <= e <= |s|
    requires forall k :: e <= k < |s| ==> IsJsSpace(s[k])
    requires e > lo ==> !IsJsSpace(s[e - 1])
    ensures BackSpaces(s, lo, |s|) == e
  {
  }

  /** Whitespace around a trimmed string is exactly what `trim` removes. */
  lemma TrimPadded(pre: string, x: string, post: string)
    requires forall k :: 0 <= k < |pre| ==> IsJsSpace(pre[k])
    requires forall k :: 0 <= k < |post| ==> IsJsSpace(post[k])
    requires Trimmed(x)
    ensures Trim(pre + x + post) == x
  {
    var s := pre + x + post;
    var n := |pre|;
    var e := |pre| + |x|;
    assert forall k :: 0 <= k < n ==> s[k] == pre[k];
    assert forall k :: e <= k < |s| ==> s[k] == post[k - e];
    if |x| == 0 {
      SkipSpacesAt(s, |s|);
      BackSpacesAt(s, |s|, |s|);
    } else {
      assert s[n] == x[0];
      SkipSpacesAt(s, n);
      assert s[e - 1] == x[|x| - 1];
      BackSpacesAt(s, n, e);
      assert s[n..e] == x;
    }
  }

  /** `trim` leaves a string without outer whitespace unchanged. */
  lemma TrimTrimmed(x: string)
    requires Trimmed(x)
    ensures Trim(x) == x
  {
    TrimPadded("", x, "");
    assert "" + x + "" == x;
  }
}

=== FILE: yaml.dfy ===
/**
 The values the builder's YAML library hands back for a front-matter
 document (the library itself is outside the model), with Ruby's
 truthiness and the `to_s` the builder applies to them.
 */
module Yaml {
  import opened LexOrder

  /**
   A YAML value. A sequence and any other object (a float, a nested
   mapping) carry the text Ruby's `to_s` gives for them, since that is the
   library's `inspect` output and is not modelled.
   */
  datatype Yaml =
    | YNil
    | YBool(b: bool)
    | YInt(i: int)
    | YStr(s: string)
    | YDate(year: int, month: nat, day: nat)
    | YSeq(items: seq<Yaml>, shown: string)
    | YOther(shown: string)

  /** Ruby truthiness: everything except `nil` and `false`. */
  predicate Truthy(v: Yaml) {
    !(v.YNil? || v == YBool(false))
  }

  /** `Integer#to_s`: the decimal digits of `i`, after a minus sign when it is negative. */
  function IntText(i: int): (t: string)
    ensures i >= 0 ==> AllDigits(t) && DigitsValue(t) == i
    ensures i < 0 ==> |t| >= 2 && t[0] == '-' && AllDigits(t[1..]) && DigitsValue(t[1..]) == -i
    ensures i >= 0 ==> |t| >= 1 && (|t| == 1 || t[0] != '0')
    ensures i < 0 ==> t[1] != '0'
  {
    assert Pow10(1) == 10;
    if i < 0 then "-" + Decimal(-i, 1) else Decimal(i, 1)
  }

  /**
   `Date#to_s`: `%Y-%m-%d`, the year padded to four digits and signed when
   negative. A year of at most four digits and a month and day below 100
   give ten characters: the three fields, each denoting its number, split
   by '-' at offsets 4 and 7.
   */
  function DateText(year: int, month: nat, day: nat): (t: string)
    ensures |t| >= 10
    ensures year < 0 ==> t[0] == '-'
    ensures 0 <= year < 10000 && month < 100 && day < 100 ==>
              && |t| == 10 && t[4] == '-' && t[7] == '-'
              && AllDigits(t[..4]) && DigitsValue(t[..4]) == year
              && AllDigits(t[5..7]) && DigitsValue(t[5..7]) == month
              && AllDigits(t[8..]) && DigitsValue(t[8..]) == day
  {
    assert Pow10(2) == 100 && Pow10(4) == 10000;
    var y := Decimal(if year < 0 then -year else year, 4);
    var m := Decimal(month, 2);
    var d := Decimal(day, 2);
    DateFields(y, m, d);
    if year < 0 then "-" + (y + "-" + m + "-" + d) else y + "-" + m + "-" + d
  }

  /** Where the fields of a four-two-two date text sit. */
  lemma DateFields(y: string, m: string, d: string)
    ensures |y| == 4 && |m| == 2 && |d| == 2 ==>
              var t := y + "-" + m + "-" + d;
              && |t| == 10 && t[4] == '-' && t[7] == '-'
              && t[..4] == y && t[5..7] == m && t[8..] == d
  {
  }

  /** `to_s` on a value the library produced. */
  function ToS(v: Yaml): string {
    match v
    case YNil => ""
    case YBool(b) => if b then "true" else "false"
    case YInt(i) => IntText(i)
    case YStr(s) => s
    case YDate(y, m, d) => DateText(y, m, d)
    case YSeq(_, shown) => shown
    case YOther(shown) => shown
  }

  /** A calendar date in the years whose `to_s` has exactly four year digits. */
  predicate ValidDate(year: int, month: nat, day: nat) {
    0 <= year <= 9999 && 1 <= month <= 12 && 1 <= day <= 31
  }

  /** Strict calendar order. */
  predicate DateBefore(y1: int, m1: nat, d1: nat, y2: int, m2: nat, d2: nat) {
    y1 < y2 || (y1 == y2 && (m1 < m2 || (m1 == m2 && d1 < d2)))
  }

  lemma ConcatEq(p: string, x: string, q: string, y: string)
    requires |p| == |q|
    ensures p + x == q + y <==> p == q && x == y
  {
    if p + x == q + y {
      assert p == (p + x)[..|p|] && q == (q + y)[..|q|];
      assert x == (p + x)[|p|..] && y == (q + y)[|q|..];
    }
  }

  /** Two equal-length fields joined by '-' compare field by field. */
  lemma DashJoinOrder(p: string, q: string, x: string, y: string)
    requires |p| == |q|
    ensures Less(p + "-" + x, q + "-" + y) <==> Less(p, q) || (p == q && Less(x, y))
    ensures p + "-" + x == q + "-" + y <==> p == q && x == y
  {
    LessConcat(p + "-", x, q + "-", y);
    LessConcat(p, "-", q, "-");
    ConcatEq(p + "-", x, q + "-", y);
    ConcatEq(p, "-", q, "-");
    LessIrreflexive("-");
  }

  /** The year and month part of a date string, "YYYY-MM". */
  lemma YearMonthOrder(y1: nat, m1: nat, y2: nat, m2: nat)
    requires y1 < 10000 && y2 < 10000 && m1 < 100 && m2 < 100
    ensures (Less(Decimal(y1, 4) + "-" + Decimal(m1, 2), Decimal(y2, 4) + "-" + Decimal(m2, 2))
             <==> y1 < y2 || (y1 == y2 && m1 < m2))
    ensures (Decimal(y1, 4) + "-" + Decimal(m1, 2) == Decimal(y2, 4) + "-" + Decimal(m2, 2)
             <==> y1 == y2 && m1 == m2)
  {
    assert Pow10(2) == 100 && Pow10(4) == 10000;
    DashJoinOrder(Decimal(y1, 4), Decimal(y2, 4), Decimal(m1, 2), Decimal(m2, 2));
    DecimalOrder(y1, y2, 4);
    DecimalOrder(m1, m2, 2);
    DecimalInjective(y1, y2, 4);
    DecimalInjective(m1, m2, 2);
  }

  /** Date strings of valid four-digit-year dates compare as the dates do. */
  lemma DateTextOrder(y1: int, m1: nat, d1: nat, y2: int, m2: nat, d2: nat)
    requires ValidDate(y1, m1, d1) && ValidDate(y2, m2, d2)
    ensures Less(DateText(y1, m1, d1), DateText(y2, m2, d2)) <==> DateBefore(y1, m1, d1, y2, m2, d2)
  {
    var p1 := Decimal(y1, 4) + "-" + Decimal(m1, 2);
    var p2 := Decimal(y2, 4) + "-" + Decimal(m2, 2);
    assert DateText(y1, m1, d1) == p1 + "-" + Decimal(d1, 2) by {
      DateTextOf(y1, m1, d1);
    }
    assert DateText(y2, m2, d2) == p2 + "-" + Decimal(d2, 2) by {
      DateTextOf(y2, m2, d2);
    }
    assert |p1| == |p2| by {
      assert Pow10(2) == 100 && Pow10(4) == 10000;
    }
    DashJoinOrder(p1, p2, Decimal(d1, 2), Decimal(d2, 2));
    assert (Less(p1, p2) <==> y1 < y2 || (y1 == y2 && m1 < m2)) && (p1 == p2 <==> y1 == y2 && m1 == m2) by {
      YearMonthOrder(y1, m1, y2, m2);
    }
    assert Less(Decimal(d1, 2), Decimal(d2, 2)) <==> d1 < d2 by {
      assert Pow10(2) == 100;
      DecimalOrder(d1, d2, 2);
    }
  }

  /** The text of a date from year 0 on: year, month and day fields joined by '-'. */
  lemma DateTextOf(y: int, m: nat, d: nat)
    requires 0 <= y
    ensures DateText(y, m, d) == (Decimal(y, 4) + "-" + Decimal(m, 2)) + "-" + Decimal(d, 2)
  {
  }
}
